=== FILE: README.md ===
# vsphere-instaclone in Dafny

A model of the core of the vSphere instant-clone cloud plug-in for TeamCity.
The model follows both halves of the plug-in.

The server side covers:

- the cloud client, which admits, adopts and starts instances;
- the image, with its name counter and instance map;
- the instance, with its power-on job, stop job, and on-demand "clone from self" job;
- the vSphere session wrapper;
- the service-message translator, which turns the build step's request into a clone job;
- the run type's parameter validator;
- the profile properties processor;
- the profile data object and the REST service that creates and updates profiles;
- the property-collector helpers.

The agent side covers:

- the build step, which asks the server for a clone and waits for its verdict;
- the process registry and the handler that forwards the server's answer to it.

Everything the plug-in asks of vSphere, of the clock or of TeamCity comes in as data. A finite script of the answers a task, a property read or a login gives is a parameter of the operation that reads it. When a script runs out before a loop ends, the operation reports that it is still waiting. This holds for every `waitForTask` of the stop and clone jobs: the graceful control write and the power-off, destroy, clone, reset and rename tasks. Apart from power-on attempts, the model never guesses an answer. Each power-on attempt is a single outcome (see "## Left out").

JVM arithmetic is written out:

- the instance counter is a 32-bit `Int` that wraps;
- `Long` parsing has its range check;
- division truncates toward zero;
- `Objects.hash` folds with 32-bit wrap-around;
- `Duration.toNanos` throws when the nanoseconds overflow a `Long`;
- the stop job's deadline, start plus timeout in nanoseconds, is a `Long` sum that wraps.

Modules, one per file:

| module | models |
|---|---|
| `Wrappers`, `Numeric`, `Text` | Option/Result; JVM integer semantics; the string helpers the source calls (`lastIndexOf`, `substringAfterLast`, `toLong`, `toString`, `hasText`, `isBlank`) |
| `VimTypes`, `InstanceState` | managed-object references and call outcomes; the instance record, its status machine and guest metadata keys |
| `Polling` | `waitForTask` and `waitForFreeze` |
| `CloudImage`, `ImageConfig`, `Client` | `ICCloudImage`, `ICImageConfig`, `ICCloudClient` |
| `CloneFamily`, `Lifecycle`, `CloneJob` | clone naming, family selection and retention; power-on and stop jobs; `createClone`/`doClone` |
| `Session` | `VimWrapper`: login, re-login on authentication faults, `getProperty`, the connection test |
| `ServiceMessage`, `Detector`, `BuildProcess`, `ProcessRegistry`, `CloneProtocol` | the `##teamcity[...]` marker; the server's translator; the agent's build process, its registry and handler; the protocol end to end |
| `Properties`, `RunType`, `ConfigProcessor` | `InvalidProperty`; the runner's validator and defaults; the profile properties processor |
| `ProfileData`, `ProfilesService` | `CloudProfileDataImpl`; `CloudProfilesService` with the account service's `updateAccountProperties` |
| `PropertyCollector` | `PropertyCollectorUtil` |

## Model

| member | source | states |
|---|---|---|
| Numeric.WrapInt | vsphere-instaclone-server/src/main/java/com/avast/teamcity/plugins/instaclone/web/service/profile/CloudProfileDataImpl.kt:76-80 | the result is a 32-bit `Int` congruent to the exact value modulo 2^32, and equals it when no overflow happens |
| Numeric.IncInt | vsphere-instaclone-server/src/main/java/com/avast/teamcity/plugins/instaclone/ICCloudImage.kt:31-33 | `x++` on an `Int` adds one below `Int.MAX_VALUE` and wraps to `Int.MIN_VALUE` at it |
| Numeric.TruncDiv | vsphere-instaclone-server/src/main/java/com/avast/teamcity/plugins/instaclone/web/service/profile/CloudProfileDataImpl.kt:53-57 | JVM division: the quotient brackets the dividend from below for non-negative and from above for negative dividends (truncation toward zero) |
| Text.LastIndexOf | vsphere-instaclone-server/src/main/java/com/avast/teamcity/plugins/instaclone/ICCloudClient.kt:147-149 | -1 exactly when the character is absent; otherwise it is at that index and not after it |
| Text.SubstringAfterLast | vsphere-instaclone-server/src/main/java/com/avast/teamcity/plugins/instaclone/ICCloudInstance.kt:125 | "" when the separator is absent; otherwise a separator-free tail that the string ends with, preceded by the separator |
| Text.Template | vsphere-instaclone-server/src/main/java/com/avast/teamcity/plugins/instaclone/ConfigPropertiesProcessor.kt:42 | a null message renders as "null" inside a string template; a present one renders as itself |
| Text.NatToString | vsphere-instaclone-server/src/main/java/com/avast/teamcity/plugins/instaclone/buildstep/VSphereInstacloneRunType.kt:100-101 | decimal rendering: non-empty digits, no leading zero, denoting the number |
| Text.IntToString | vsphere-instaclone-server/src/main/java/com/avast/teamcity/plugins/instaclone/ICCloudInstance.kt:93 | `Long.toString`: a minus sign followed by the magnitude for negatives, the plain digits otherwise |
| Text.ParseLong | vsphere-instaclone-server/src/main/java/com/avast/teamcity/plugins/instaclone/ICCloudInstance.kt:597 | `toLong` succeeds iff the text is an optional sign followed by one or more digits and the signed value fits a `Long`, and then yields exactly that value |
| Text.ParseLongOfIntToString | vsphere-instaclone-server/src/main/java/com/avast/teamcity/plugins/instaclone/ICCloudInstance.kt:591-602 | a start time written as `Long.toString` is read back by `toLong` as the same number |
| InstanceState.TerminalStatesExactly | vsphere-instaclone-server/src/main/java/com/avast/teamcity/plugins/instaclone/ICCloudClient.kt:18 | the statuses admission may evict are exactly ERROR, ERROR_CANNOT_STOP and STOPPED |
| InstanceState.Construct | vsphere-instaclone-server/src/main/java/com/avast/teamcity/plugins/instaclone/ICCloudInstance.kt:20-29 | a new instance is named after its image, has status UNKNOWN, no VM, no error and no job |
| InstanceState.PowerOnExtraConfig | vsphere-instaclone-server/src/main/java/com/avast/teamcity/plugins/instaclone/ICCloudInstance.kt:93-97 | power-on writes exactly the five identity keys, carrying the instance uuid, profile uuid and host name given |
| InstanceState.CloneClearConfig | vsphere-instaclone-server/src/main/java/com/avast/teamcity/plugins/instaclone/ICCloudInstance.kt:394-397 | a clone-from-self blanks every identity key and writes no other key |
| InstanceState.CloneClearsPowerOnIdentity | vsphere-instaclone-server/src/main/java/com/avast/teamcity/plugins/instaclone/ICCloudInstance.kt:545-551 | the clone's blanking covers every key a power-on wrote, so no identity survives into the clone |
| Polling.WaitForTask | vsphere-instaclone-server/src/main/java/com/avast/teamcity/plugins/instaclone/ICCloudInstance.kt:67-76 | the first settled read decides: SUCCESS returns its result, ERROR or a failing read raises its message; every earlier read was QUEUED/RUNNING; it keeps waiting iff all reads are unsettled |
| Polling.WaitForFreeze | vsphere-instaclone-server/src/main/java/com/avast/teamcity/plugins/instaclone/ICCloudInstance.kt:446-468 | frozen iff some read among the first 80 is `true` with only `false` before it; times out iff the first 80 reads are all `false`; a failed read ends the wait with "Couldn't get property runtime.instantCloneFrozen for VM <clone>" |
| CloneFamily.NormalizeSuffix | vsphere-instaclone-server/src/main/java/com/avast/teamcity/plugins/instaclone/ICCloudInstance.kt:374-377 | a non-empty suffix gets a leading '-' unless it has one; an empty suffix stays empty |
| CloneFamily.NormalizeSuffixIdempotent | vsphere-instaclone-server/src/main/java/com/avast/teamcity/plugins/instaclone/ICCloudInstance.kt:374-377 | normalising a normalised suffix changes nothing |
| CloneFamily.FirstMarker | vsphere-instaclone-server/src/main/java/com/avast/teamcity/plugins/instaclone/ICCloudInstance.kt:559 | the leftmost '@' where `.+?@(\d+)` can match, and no such position before it |
| CloneFamily.ParseCloneNumber | vsphere-instaclone-server/src/main/java/com/avast/teamcity/plugins/instaclone/ICCloudInstance.kt:156-162 | a name without a match has clone number 0; with a match, the number is the value of the digit run after the first match's '@', read as a `Long`: success iff it fits, otherwise `toLong`'s "For input string" error naming those digits |
| CloneFamily.ParseCloneNumberAtLeftmostMarker | vsphere-instaclone-server/src/main/java/com/avast/teamcity/plugins/instaclone/ICCloudInstance.kt:156-162 | the number is read from the digits right after the leftmost '@' that has a character before it and a digit after it |
| CloneFamily.CloneNameParsesBack | vsphere-instaclone-server/src/main/java/com/avast/teamcity/plugins/instaclone/ICCloudInstance.kt:379-380 | the final clone name "<image><suffix>@<millis>" reads back as clone number millis |
| CloneFamily.FamilyPrefix | vsphere-instaclone-server/src/main/java/com/avast/teamcity/plugins/instaclone/ICCloudInstance.kt:141-145 | the prefix starts with core + suffix and ends with '@' unless the template ends with '@' and the core does not |
| CloneFamily.Classify | vsphere-instaclone-server/src/main/java/com/avast/teamcity/plugins/instaclone/ICCloudInstance.kt:148-170 | a VM is a family member iff it starts with the prefix, has a positive clone number and reads frozen, and its candidate carries that number; it is broken iff it starts with the prefix and its number cannot be read, or its number is positive and its frozen flag cannot be read, and then carries that error |
| CloneFamily.SelectFamily | vsphere-instaclone-server/src/main/java/com/avast/teamcity/plugins/instaclone/ICCloudInstance.kt:135-180 | the selection fails iff some VM is broken; a successful family holds exactly the member candidates |
| CloneFamily.SelectFamilyIsMembers | vsphere-instaclone-server/src/main/java/com/avast/teamcity/plugins/instaclone/ICCloudInstance.kt:148-180 | a successful selection is exactly the member candidates of the folder, in folder order, one per member VM |
| CloneFamily.SelectFamilyFailsAtFirstBroken | vsphere-instaclone-server/src/main/java/com/avast/teamcity/plugins/instaclone/ICCloudInstance.kt:148-180 | the selection fails iff some VM is broken, and then with the error of the first broken VM in folder order |
| CloneFamily.LatestClone | vsphere-instaclone-server/src/main/java/com/avast/teamcity/plugins/instaclone/ICCloudInstance.kt:125 | `maxBy`: none only for an empty family, otherwise the first candidate with the greatest clone number |
| CloneFamily.ImageTemplateMor | vsphere-instaclone-server/src/main/java/com/avast/teamcity/plugins/instaclone/ICCloudInstance.kt:115-133 | a plain template is an inventory lookup that must yield a VM ("Not a VM"); a template ending in '@' yields the newest frozen clone of its family ("Not found a VM") |
| CloneFamily.NewCloneJoinsItsFamily | vsphere-instaclone-server/src/main/java/com/avast/teamcity/plugins/instaclone/ICCloudInstance.kt:141-170 | a frozen clone named by this plug-in is classified as a member of its image's family with its timestamp as number |
| CloneFamily.SortDesc | vsphere-instaclone-server/src/main/java/com/avast/teamcity/plugins/instaclone/ICCloudInstance.kt:512 | `sortedByDescending`: a permutation of the input ordered by non-increasing clone number |
| CloneFamily.InsertDescWithNumber | vsphere-instaclone-server/src/main/java/com/avast/teamcity/plugins/instaclone/ICCloudInstance.kt:512 | inserting a clone puts it in front of the others with its clone number and leaves their order alone |
| CloneFamily.SortDescStable | vsphere-instaclone-server/src/main/java/com/avast/teamcity/plugins/instaclone/ICCloudInstance.kt:512 | the sort is stable: for every clone number, the clones with that number come out in the order they were listed |
| CloneFamily.RetentionKeepsNewest | vsphere-instaclone-server/src/main/java/com/avast/teamcity/plugins/instaclone/ICCloudInstance.kt:512-513 | kept and doomed partition the family; min(2, size) are kept; every doomed clone is no newer than every kept one |
| CloneFamily.NewestCloneSurvives | vsphere-instaclone-server/src/main/java/com/avast/teamcity/plugins/instaclone/ICCloudInstance.kt:512-513 | a clone strictly newer than all others of its family is kept and not destroyed |
| CloneFamily.NewestInFolderIsKept | vsphere-instaclone-server/src/main/java/com/avast/teamcity/plugins/instaclone/ICCloudInstance.kt:506-513 | the newest member found in the folder survives the clean-up |
| CloneFamily.SortAscendingIsReverse | vsphere-instaclone-server/src/main/java/com/avast/teamcity/plugins/instaclone/ICCloudInstance.kt:512 | a family listed oldest first comes out of the sort exactly reversed |
| CloneFamily.SevenClonesKeepTwo | vsphere-instaclone-server/src/main/java/com/avast/teamcity/plugins/instaclone/ICCloudInstance.kt:553 | with clones 1..7 the clean-up keeps 7 and 6 and destroys 5, 4, 3, 2, 1 in that order |
| CloneFamily.KeptOfAscending | vsphere-instaclone-server/src/main/java/com/avast/teamcity/plugins/instaclone/ICCloudInstance.kt:512-513 | for a family listed oldest first, the newest two are kept (newest first) and all the others are destroyed, newest first |
| Lifecycle.PowerOnLoop | vsphere-instaclone-server/src/main/java/com/avast/teamcity/plugins/instaclone/ICCloudInstance.kt:568-578 | `DuplicateName` faults retry under a fresh name; the first other outcome decides: a VM with the name it was cloned under, or the fault |
| Lifecycle.AttemptNameIsAllocated | vsphere-instaclone-server/src/main/java/com/avast/teamcity/plugins/instaclone/ICCloudInstance.kt:569 | attempt k runs under the k-th name `allocateName` hands out |
| Lifecycle.AttemptNamesDistinct | vsphere-instaclone-server/src/main/java/com/avast/teamcity/plugins/instaclone/ICCloudInstance.kt:568-572 | no two attempts of one power-on job use the same name while the counter does not wrap |
| Lifecycle.PowerOnJob | vsphere-instaclone-server/src/main/java/com/avast/teamcity/plugins/instaclone/ICCloudInstance.kt:562-586 | RUNNING with the VM and its attempt's name iff the first decisive attempt cloned; ERROR with the fault iff it failed; STARTING while still retrying; the image stores the result, other instances untouched |
| Lifecycle.PowerOnAfterTwoDuplicates | vsphere-instaclone-server/src/main/java/com/avast/teamcity/plugins/instaclone/ICCloudInstance.kt:568-579 | after two duplicate-name faults the instance runs under the third allocated name, distinct from both rejected ones |
| Lifecycle.TerminateLaunchesOnce | vsphere-instaclone-server/src/main/java/com/avast/teamcity/plugins/instaclone/ICCloudInstance.kt:273-285 | a second `terminate` after the stop job was launched launches nothing and changes nothing |
| Lifecycle.Terminate | vsphere-instaclone-server/src/main/java/com/avast/teamcity/plugins/instaclone/ICCloudInstance.kt:273-285 | a second call is a no-op; the first marks SCHEDULED_TO_STOP, disables the matched agent and launches the stop job, which finds a power-on job to cancel iff one is still starting |
| Lifecycle.CancelPowerOn | vsphere-instaclone-server/src/main/java/com/avast/teamcity/plugins/instaclone/ICCloudInstance.kt:288-289 | cancelling a power-on job that is still running turns the instance into ERROR with the cancellation message; otherwise nothing changes |
| Lifecycle.TerminateCancelsPowerOn | vsphere-instaclone-server/src/main/java/com/avast/teamcity/plugins/instaclone/ICCloudInstance.kt:273-294 | terminating an instance whose power-on job is still starting leaves the cancellation's message as its error info unless the stop itself fails |
| Lifecycle.TerminateWithoutPowerOnKeepsErrorInfo | vsphere-instaclone-server/src/main/java/com/avast/teamcity/plugins/instaclone/ICCloudInstance.kt:273-294 | with no power-on job in flight, a stop that does not fail keeps the instance's error info as it was |
| Lifecycle.PollLoop | vsphere-instaclone-server/src/main/java/com/avast/teamcity/plugins/instaclone/ICCloudInstance.kt:319-328 | the shutdown wait ends on guest state "shutdown", a passed deadline, a VM no longer powered on, or an unreadable power state, each at the poll that shows it |
| Lifecycle.PollLoopStillPolling | vsphere-instaclone-server/src/main/java/com/avast/teamcity/plugins/instaclone/ICCloudInstance.kt:319-328 | the wait is still going on iff every poll so far let it continue and the guest never reported "shutdown" |
| Lifecycle.Graceful | vsphere-instaclone-server/src/main/java/com/avast/teamcity/plugins/instaclone/ICCloudInstance.kt:300-330 | a control write that fails to be requested or whose task fails ends the phase at once; while its task runs the phase is still going; a timeout that overflows `toNanos` ends it too; otherwise the phase is the shutdown wait from the guest state first read, up to the `Long` deadline |
| Lifecycle.ToNanos | vsphere-instaclone-server/src/main/java/com/avast/teamcity/plugins/instaclone/ICCloudInstance.kt:319 | `Duration.toNanos` succeeds iff seconds times 10^9 fits a `Long`, and then is that product |
| Lifecycle.Deadline | vsphere-instaclone-server/src/main/java/com/avast/teamcity/plugins/instaclone/ICCloudInstance.kt:319 | the `Long` sum of start and timeout: the plain sum when it fits, otherwise wrapped round below the start |
| Lifecycle.DeadlineWithinRange | vsphere-instaclone-server/src/main/java/com/avast/teamcity/plugins/instaclone/ICCloudInstance.kt:319-328 | when `toNanos` gives the timeout and start plus timeout fits a `Long`, the graceful phase waits until exactly that deadline |
| Lifecycle.WrappedDeadlineEndsWaitAtOnce | vsphere-instaclone-server/src/main/java/com/avast/teamcity/plugins/instaclone/ICCloudInstance.kt:319-320 | when start plus timeout overflows a `Long`, the wrapped deadline lies in the past and the wait ends before its first poll |
| Lifecycle.OverflowingTimeoutSkipsTheWait | vsphere-instaclone-server/src/main/java/com/avast/teamcity/plugins/instaclone/ICCloudInstance.kt:319-332 | a timeout whose nanoseconds overflow a `Long` throws inside the swallowed block, so the stop goes straight to `powerOff`, whose outcome alone gives STOPPED, ERROR_CANNOT_STOP or still STOPPING |
| Lifecycle.PowerOff | vsphere-instaclone-server/src/main/java/com/avast/teamcity/plugins/instaclone/ICCloudInstance.kt:231-248 | nothing for a missing VM; succeeds iff the power-off is issued, its task settles either way, and the destroy is issued and its task completes; still running iff one of the two tasks has not settled; a failure is the first failing step's: the power-off request's, else the destroy request's, else the destroy task's message |
| Lifecycle.PowerOffToleratesOffTask | vsphere-instaclone-server/src/main/java/com/avast/teamcity/plugins/instaclone/ICCloudInstance.kt:238-242 | once the power-off task has settled, whether it failed never changes `powerOff`'s outcome or whether destroy is requested |
| Lifecycle.StopJob | vsphere-instaclone-server/src/main/java/com/avast/teamcity/plugins/instaclone/ICCloudInstance.kt:285-340 | STOPPED (and removed from the image) iff the graceful phase is over and `powerOff` succeeds; ERROR_CANNOT_STOP with its message iff it throws; STOPPING while the graceful phase or a power-off or destroy task is still running; otherwise the error info is the cancelled power-on job's when there was one running, else unchanged; other instances untouched |
| Lifecycle.GracefulPhaseNeverDecides | vsphere-instaclone-server/src/main/java/com/avast/teamcity/plugins/instaclone/ICCloudInstance.kt:297-332 | however the graceful phase ends (error, timeout, guest down), the stop job's outcome is the same |
| Lifecycle.StoppedInstanceStaysTerminated | vsphere-instaclone-server/src/main/java/com/avast/teamcity/plugins/instaclone/ICCloudInstance.kt:273-341 | after terminate and its stop job, a further terminate launches nothing |
| CloneJob.CreateClone | vsphere-instaclone-server/src/main/java/com/avast/teamcity/plugins/instaclone/ICCloudInstance.kt:347-371 | a clone job is launched iff the instance has a VM and is RUNNING |
| CloneJob.DestroyAll | vsphere-instaclone-server/src/main/java/com/avast/teamcity/plugins/instaclone/ICCloudInstance.kt:516-531 | all doomed clones are destroyed in order; the job fails iff some destruction throws after all earlier ones went through, and then with that index and message |
| CloneJob.SearchCleanAndDestroy | vsphere-instaclone-server/src/main/java/com/avast/teamcity/plugins/instaclone/ICCloudInstance.kt:506-532 | finishes iff the folder is listed, the family selected and every doomed clone destroyed, and then reports exactly the doomed part of the family; fails iff one of those steps fails, with that step's message; still running iff a destroy is |
| CloneJob.AfterCloneIssued | vsphere-instaclone-server/src/main/java/com/avast/teamcity/plugins/instaclone/ICCloudInstance.kt:411-433 | yields the clone task's VM iff the clone task, the reset, the rename request and the freeze succeed and the rename task settles; still running iff one of those waits is; each failure gives its exact cause chain under "Failed to run clone Task (<temp>)", a reset failure wrapped once more by `rebootVm` |
| CloneJob.DoClone | vsphere-instaclone-server/src/main/java/com/avast/teamcity/plugins/instaclone/ICCloudInstance.kt:373-444 | succeeds iff the clone is requested on a RUNNING instance, every step to the freeze goes through and the clean-up finishes, with the final name, the task's VM and the family's doomed part; still running iff one of the waits is; a non-RUNNING instance, a failed request, a failure after the request and a failed folder listing, family selection or destroy each fail with their exact messages |
| CloneJob.CloneJobCompletion | vsphere-instaclone-server/src/main/java/com/avast/teamcity/plugins/instaclone/ICCloudInstance.kt:360-367 | the job completes normally iff `doClone` succeeded, otherwise with cause "Failed to doClone" whose root cause is `doClone`'s |
| CloneJob.RenameTaskNeverDecides | vsphere-instaclone-server/src/main/java/com/avast/teamcity/plugins/instaclone/ICCloudInstance.kt:250-263 | once the rename task has settled, whether it failed never changes the clone job's outcome |
| CloneJob.OwnCloneIsKept | vsphere-instaclone-server/src/main/java/com/avast/teamcity/plugins/instaclone/ICCloudInstance.kt:435-437 | the clone the job just made, newest of its family, survives the job's own clean-up |
| CloudImage.NewImage | vsphere-instaclone-server/src/main/java/com/avast/teamcity/plugins/instaclone/ICCloudImage.kt:12-28 | a new image has counter 0, no instances and the configured identity and limit |
| CloudImage.Find | vsphere-instaclone-server/src/main/java/com/avast/teamcity/plugins/instaclone/ICCloudImage.kt:65-67 | the entry with that uuid, or none iff no entry carries it |
| CloudImage.Put | vsphere-instaclone-server/src/main/java/com/avast/teamcity/plugins/instaclone/ICCloudImage.kt:39 | `map[uuid] = inst`: the instance is present, entries with other uuids stay, nothing else is added; the size grows iff the uuid was new |
| CloudImage.Remove | vsphere-instaclone-server/src/main/java/com/avast/teamcity/plugins/instaclone/ICCloudImage.kt:70 | `map.remove(uuid)`: exactly the entries with other uuids remain |
| CloudImage.PutIsMapUpdate | vsphere-instaclone-server/src/main/java/com/avast/teamcity/plugins/instaclone/ICCloudImage.kt:39 | the list update is the map update it stands for |
| CloudImage.RemoveIsMapRemoval | vsphere-instaclone-server/src/main/java/com/avast/teamcity/plugins/instaclone/ICCloudImage.kt:70 | the list removal is the map removal it stands for |
| CloudImage.FindIsMapLookup | vsphere-instaclone-server/src/main/java/com/avast/teamcity/plugins/instaclone/ICCloudImage.kt:66 | the list lookup is the map lookup it stands for |
| CloudImage.PutFind | vsphere-instaclone-server/src/main/java/com/avast/teamcity/plugins/instaclone/ICCloudImage.kt:39 | after a put, the uuid finds the instance and every other uuid finds what it found before |
| CloudImage.AllocateName | vsphere-instaclone-server/src/main/java/com/avast/teamcity/plugins/instaclone/ICCloudImage.kt:31-33 | "<name>-<counter>" with the counter before the call, and the counter incremented as an `Int` |
| CloudImage.AllocatedNamesFormula | vsphere-instaclone-server/src/main/java/com/avast/teamcity/plugins/instaclone/ICCloudImage.kt:31-33 | the i-th of n successive allocations uses counter + i while it does not wrap |
| CloudImage.AllocatedNamesDistinct | vsphere-instaclone-server/src/main/java/com/avast/teamcity/plugins/instaclone/ICCloudImage.kt:31-33 | up to 2^32 successive allocations hand out pairwise distinct names, whatever the counter and across its wrap-around |
| CloudImage.AllocatedNameWraps | vsphere-instaclone-server/src/main/java/com/avast/teamcity/plugins/instaclone/ICCloudImage.kt:31-33 | the i-th of n successive allocations uses counter + i as a wrapping 32-bit `Int` |
| CloudImage.AllocatedNamesRepeatAfterWrap | vsphere-instaclone-server/src/main/java/com/avast/teamcity/plugins/instaclone/ICCloudImage.kt:31-33 | the allocation after 2^32 others repeats the first name: the bound in `AllocatedNamesDistinct` is tight |
| CloudImage.CreateFreshInstance | vsphere-instaclone-server/src/main/java/com/avast/teamcity/plugins/instaclone/ICCloudImage.kt:35-41 | the new instance is SCHEDULED_TO_START with a power-on job, no VM, stored under its uuid; nothing else changes |
| CloudImage.CreateRunningInstance | vsphere-instaclone-server/src/main/java/com/avast/teamcity/plugins/instaclone/ICCloudImage.kt:43-47 | adoption succeeds iff the start-time extra reads (`ICCloudInstance.createRunning`), is not null and parses as a `Long`; otherwise the error is the read's exception message, Kotlin's null-cast message or `parseLong`'s; the instance is RUNNING under the given name and VM and stored |
| CloudImage.FindInstanceById | vsphere-instaclone-server/src/main/java/com/avast/teamcity/plugins/instaclone/ICCloudImage.kt:65-67 | the stored instance with that uuid, or none iff none is stored |
| CloudImage.RemoveInstance | vsphere-instaclone-server/src/main/java/com/avast/teamcity/plugins/instaclone/ICCloudImage.kt:69-71 | the instance's uuid is gone, every other uuid finds what it did, the image is otherwise unchanged |
| CloudImage.GetInstances | vsphere-instaclone-server/src/main/java/com/avast/teamcity/plugins/instaclone/ICCloudImage.kt:61-63 | exactly the stored instances, one per uuid |
| Client.FirstTerminal | vsphere-instaclone-server/src/main/java/com/avast/teamcity/plugins/instaclone/ICCloudClient.kt:126 | the first stored instance in a terminal status, or none iff all are live |
| Client.Admit | vsphere-instaclone-server/src/main/java/com/avast/teamcity/plugins/instaclone/ICCloudClient.kt:125-132 | yes leaves room below the limit; no means the image is full of live instances; only terminal instances are evicted |
| Client.CanStartNewInstance | vsphere-instaclone-server/src/main/java/com/avast/teamcity/plugins/instaclone/ICCloudClient.kt:120-133 | a foreign image is refused as not associated; one of ours goes through admission |
| Client.AdmitWithRoom | vsphere-instaclone-server/src/main/java/com/avast/teamcity/plugins/instaclone/ICCloudClient.kt:125 | an image below its limit is admitted untouched |
| Client.AdmitFullOfLiveInstances | vsphere-instaclone-server/src/main/java/com/avast/teamcity/plugins/instaclone/ICCloudClient.kt:125-127 | a full image with no terminal instance is refused with the default reason, untouched |
| Client.FirstValue | vsphere-instaclone-server/src/main/java/com/avast/teamcity/plugins/instaclone/ICCloudClient.kt:57-58 | `firstOrNull` on extra config: the value of the first entry with that key |
| Client.AdoptionUuid | vsphere-instaclone-server/src/main/java/com/avast/teamcity/plugins/instaclone/ICCloudClient.kt:57-61 | a VM is adopted iff it has an instance uuid and carries this profile's uuid; it is adopted under that instance uuid |
| Client.AdoptAll | vsphere-instaclone-server/src/main/java/com/avast/teamcity/plugins/instaclone/ICCloudClient.kt:35-42 | succeeds iff every adoptable VM's start time parses; adopts exactly the adoptable VMs in folder order, all RUNNING with a VM, and stores them |
| Client.SetupImage | vsphere-instaclone-server/src/main/java/com/avast/teamcity/plugins/instaclone/ICCloudClient.kt:30-49 | files the image and every adopted instance under its uuid; other images and instances stay; the client stays well filed |
| Client.FindImageById | vsphere-instaclone-server/src/main/java/com/avast/teamcity/plugins/instaclone/ICCloudClient.kt:96-99 | the image filed under that id, none iff there is none |
| Client.FindInstanceByAgent | vsphere-instaclone-server/src/main/java/com/avast/teamcity/plugins/instaclone/ICCloudClient.kt:101-105 | an instance is found iff some filed instance contains the agent (its uuid parameter) |
| Client.StartNewInstance | vsphere-instaclone-server/src/main/java/com/avast/teamcity/plugins/instaclone/ICCloudClient.kt:69-79 | a SCHEDULED_TO_START instance with the given uuid is filed in the client and in its image; other images untouched |
| Client.StartedInstanceIsFoundByAgent | vsphere-instaclone-server/src/main/java/com/avast/teamcity/plugins/instaclone/ICCloudClient.kt:69-105 | an agent reporting a just-started instance's uuid is matched to that instance |
| Client.RestartInstance | vsphere-instaclone-server/src/main/java/com/avast/teamcity/plugins/instaclone/ICCloudClient.kt:81-83 | restart always fails with "Restart is not supported yet" |
| Client.PoolByName | vsphere-instaclone-server/src/main/java/com/avast/teamcity/plugins/instaclone/ICCloudClient.kt:177 | the id of the first pool with that name, none iff no pool has it |
| Client.ResolveAgentPool | vsphere-instaclone-server/src/main/java/com/avast/teamcity/plugins/instaclone/ICCloudClient.kt:176-181 | a name resolves to its pool or null; an integral number is cut to an `Int` (wrapping); a fractional one is clamped to the `Int` range; null gives null; anything else is the "Invalid agentPool" error |
| Client.FolderPath | vsphere-instaclone-server/src/main/java/com/avast/teamcity/plugins/instaclone/ICCloudClient.kt:147-151 | the configured folder, or else the template path up to its last '/' |
| Client.DeriveImage | vsphere-instaclone-server/src/main/java/com/avast/teamcity/plugins/instaclone/ICCloudClient.kt:143-188 | "invalid template path" without '/'; succeeds iff the template is a VM, the folder a Folder and a configured pool a ResourcePool, and the pool value is valid |
| Client.Init | vsphere-instaclone-server/src/main/java/com/avast/teamcity/plugins/instaclone/ICCloudClient.kt:140-191 | a successful init files one image per configured name, each one derivable, and is well filed |
| Client.InitFailsAtFirstBadEntry | vsphere-instaclone-server/src/main/java/com/avast/teamcity/plugins/instaclone/ICCloudClient.kt:143-190 | init fails iff some entry fails to derive its image or to adopt its VMs, and then with the error of the first such entry in configuration order |
| Client.InitFilesDerivedImages | vsphere-instaclone-server/src/main/java/com/avast/teamcity/plugins/instaclone/ICCloudClient.kt:143-190 | after a successful init, each name is filed with the image its last entry of that name derives, holding the instances adopted from that entry's folder |
| ImageConfig.Bind | vsphere-instaclone-server/src/main/java/com/avast/teamcity/plugins/instaclone/ICImageConfig.kt:9-19 | absent fields take their defaults (unlimited instances, 30 s shutdown, no network); a single network string is a one-element list |
| ImageConfig.TemplateOnlyEntry | vsphere-instaclone-server/src/main/java/com/avast/teamcity/plugins/instaclone/ICImageConfig.kt:14-18 | an entry naming only its template gets every default |
| ImageConfig.SingleNetworkIsArray | vsphere-instaclone-server/src/main/java/com/avast/teamcity/plugins/instaclone/ICImageConfig.kt:16-17 | a single network string and the one-element array bind alike |
| Session.DoLogin | vsphere-instaclone-server/src/main/java/com/avast/teamcity/plugins/instaclone/VimWrapper.kt:19-34 | refuses with the fault's message while the cached session is active; otherwise logs in and caches the new key, or fails with the login's error |
| Session.FirstLoginIgnoresCheck | vsphere-instaclone-server/src/main/java/com/avast/teamcity/plugins/instaclone/VimWrapper.kt:21 | with no cached key the activity check is never consulted |
| Session.Authenticated | vsphere-instaclone-server/src/main/java/com/avast/teamcity/plugins/instaclone/VimWrapper.kt:57-72 | a returning block returns; a non-authentication fault propagates at once; the session only changes through logins |
| Session.NoReloginWhileActive | vsphere-instaclone-server/src/main/java/com/avast/teamcity/plugins/instaclone/VimWrapper.kt:57-72 | an authentication fault while the session is active surfaces instead of looping |
| Session.RetriesOnlyAfterLogins | vsphere-instaclone-server/src/main/java/com/avast/teamcity/plugins/instaclone/VimWrapper.kt:57-72 | the block is retried only after each authentication fault was followed by a successful login |
| Session.FirstRealFault | vsphere-instaclone-server/src/main/java/com/avast/teamcity/plugins/instaclone/VimWrapper.kt:99-106 | the first missing-set entry that is not `NotAuthenticated`, none iff all are |
| Session.MissingError | vsphere-instaclone-server/src/main/java/com/avast/teamcity/plugins/instaclone/VimWrapper.kt:100-104 | an invalid property is reported as "Invalid property '<name>'…"; any other fault by its localized message |
| Session.PropertyRound | vsphere-instaclone-server/src/main/java/com/avast/teamcity/plugins/instaclone/VimWrapper.kt:87-109 | a value iff the read's missing set is empty; a real fault stops with its error; an all-authentication missing set re-logs in, and re-logs in exactly when the login then succeeds |
| Session.GetProperty | vsphere-instaclone-server/src/main/java/com/avast/teamcity/plugins/instaclone/VimWrapper.kt:74-111 | no rounds leave the read retrying with the session unchanged; a value or an error is what some round of reading ended in |
| Session.SessionBeforeLink | vsphere-instaclone-server/src/main/java/com/avast/teamcity/plugins/instaclone/VimWrapper.kt:92-109 | round k starts iff round k-1 started and ended in a re-login, and it starts with the session that re-login left |
| Session.GetPropertyDecided | vsphere-instaclone-server/src/main/java/com/avast/teamcity/plugins/instaclone/VimWrapper.kt:92-109 | a value, an error or a pending retry is what the first round reached through re-logins ended in; a retry otherwise follows a re-login in every round |
| Session.GetPropertyContinues | vsphere-instaclone-server/src/main/java/com/avast/teamcity/plugins/instaclone/VimWrapper.kt:92-109 | after k rounds that all re-logged in, the read carries on from round k with the last new session |
| Session.NotAuthenticatedRetriesWithNewSession | vsphere-instaclone-server/src/main/java/com/avast/teamcity/plugins/instaclone/VimWrapper.kt:99-109 | a missing set of authentication faults only, followed by a successful login, sends the read to its next round with the new session |
| Session.CleanReadReturnsValue | vsphere-instaclone-server/src/main/java/com/avast/teamcity/plugins/instaclone/VimWrapper.kt:93-97 | a first read without missing properties returns its value with the session unchanged |
| Session.InvalidPropertyIsReported | vsphere-instaclone-server/src/main/java/com/avast/teamcity/plugins/instaclone/VimWrapper.kt:99-105 | an invalid-property entry before any other real fault is reported as the invalid-property error |
| Session.ConnectionLoginTest | vsphere-instaclone-server/src/main/java/com/avast/teamcity/plugins/instaclone/VimWrapper.kt:42-53 | passes iff the login and the root-folder read succeed; a login failure is reported as such; logout is always attempted |
| Session.LogoutFailureIgnored | vsphere-instaclone-server/src/main/java/com/avast/teamcity/plugins/instaclone/VimWrapper.kt:46-52 | a failed logout does not change the test's verdict |
| ServiceMessage.Render | vsphere-instaclone-agent/src/main/java/com/avast/teamcity/plugins/instaclone/buildstep/InstaCloneBuildProcess.kt:102-103 | a rendered service message starts with "##teamcity[" and ends with "]" |
| ServiceMessage.Parse | vsphere-instaclone-server/src/main/java/com/avast/teamcity/plugins/instaclone/CreateInstaCloneDetector.kt:60 | only a line of the service-message shape is read, with a non-empty name and plain attribute values |
| ServiceMessage.ParseRender | vsphere-instaclone-agent/src/main/java/com/avast/teamcity/plugins/instaclone/buildstep/InstaCloneBuildProcess.kt:102-103 | reading a rendered well-formed message gives it back |
| ServiceMessage.Lookup | vsphere-instaclone-server/src/main/java/com/avast/teamcity/plugins/instaclone/CreateInstaCloneDetector.kt:120 | an attribute is found iff the message has one with that key, and its value is that attribute's |
| Detector.ReportStatus | vsphere-instaclone-server/src/main/java/com/avast/teamcity/plugins/instaclone/CreateInstaCloneDetector.kt:104-169 | FAIL iff there is a cause, else OK; addressed to the message's uuid; delivered iff the uuid exists and delivery works, otherwise the build is interrupted |
| Detector.Translate | vsphere-instaclone-server/src/main/java/com/avast/teamcity/plugins/instaclone/CreateInstaCloneDetector.kt:30-102 | always some output, starting with the progress line for one of our instances; a completion hook iff the instance is ours, the suffix is present, it may clone and the launch succeeded; an immediate report is always FAIL, addressed to the request's uuid, and delivered iff there is a uuid and delivery works |
| Detector.TranslateClone | vsphere-instaclone-server/src/main/java/com/avast/teamcity/plugins/instaclone/CreateInstaCloneDetector.kt:63-97 | with the suffix known: two output lines; either an immediate report or a hook, never both; the hook iff the instance may clone and the launch succeeded |
| Detector.OnCompletion | vsphere-instaclone-server/src/main/java/com/avast/teamcity/plugins/instaclone/CreateInstaCloneDetector.kt:95-97 | a report iff the job has ended; OK iff it completed normally, otherwise its root cause; addressed to the request's uuid and delivered iff there is one and delivery works |
| Detector.EveryDispatchReports | vsphere-instaclone-server/src/main/java/com/avast/teamcity/plugins/instaclone/CreateInstaCloneDetector.kt:53-101 | every request for one of our instances with a suffix gets exactly one report: at once or on completion |
| CloneProtocol.NamesAgree | vsphere-instaclone-server/src/main/java/com/avast/teamcity/plugins/instaclone/CreateInstaCloneDetector.kt:25-28 | the server reads the message name and attributes the agent writes |
| CloneProtocol.ServerReport | vsphere-instaclone-server/src/main/java/com/avast/teamcity/plugins/instaclone/CreateInstaCloneDetector.kt:63-97 | a handled request with an ended job always gets a report; it is OK iff the clone job succeeded; it is addressed to the request's uuid and delivered iff there is one and delivery works |
| CloneProtocol.ServerVerdict | vsphere-instaclone-server/src/main/java/com/avast/teamcity/plugins/instaclone/CreateInstaCloneDetector.kt:53-101 | a request with a suffix and a uuid for one of our instances gets a delivered report for that uuid whose status is SUCCESS iff the clone job succeeded |
| CloneProtocol.Deliver | vsphere-instaclone-agent/src/main/java/com/avast/teamcity/plugins/instaclone/buildstep/InstacloneHandlerImpl.kt:9-11 | a delivered report reaches the registered process as its status; an undelivered one changes nothing |
| CloneProtocol.StepGetsTheVerdict | vsphere-instaclone-agent/src/main/java/com/avast/teamcity/plugins/instaclone/buildstep/InstaCloneBuildProcess.kt:94-145 | a build step asking for a clone of one of our instances finishes SUCCESS iff the server's clone job succeeded |
| CloneProtocol.StepMarker | vsphere-instaclone-agent/src/main/java/com/avast/teamcity/plugins/instaclone/buildstep/InstaCloneBuildProcess.kt:94-103 | the marker a started step logs parses as a service message carrying the step's suffix and uuid |
| BuildProcess.FirstOutcomeWins | vsphere-instaclone-agent/src/main/java/com/avast/teamcity/plugins/instaclone/buildstep/InstaCloneBuildProcess.kt:138-145 | once the confirmation is done, later completions and cancellations are ignored |
| BuildProcess.GetTimeout | vsphere-instaclone-agent/src/main/java/com/avast/teamcity/plugins/instaclone/buildstep/InstaCloneBuildProcess.kt:84-92 | three minutes without the parameter; an unparsable value fails as `toLong` does; a non-positive value falls back to the default; the result is a positive `Long` |
| BuildProcess.StatusOf | vsphere-instaclone-agent/src/main/java/com/avast/teamcity/plugins/instaclone/buildstep/InstaCloneBuildProcess.kt:138-145 | "OK" means FINISHED_SUCCESS; anything else means FINISHED_FAILED, never INTERRUPTED |
| BuildProcess.MarkerIsServiceMessage | vsphere-instaclone-agent/src/main/java/com/avast/teamcity/plugins/instaclone/buildstep/InstaCloneBuildProcess.kt:102-103 | the logged marker is the rendered service message with the suffix ("null" when absent) and the uuid |
| BuildProcess.PlainConstants | vsphere-instaclone-agent/src/main/java/com/avast/teamcity/plugins/instaclone/buildstep/InstaCloneBuildProcess.kt:147-150 | the message name and attribute keys need no escaping |
| BuildProcess.MarkerReadsBack | vsphere-instaclone-agent/src/main/java/com/avast/teamcity/plugins/instaclone/buildstep/InstaCloneBuildProcess.kt:102-103 | the server reads the suffix and the uuid back out of the marker |
| BuildProcess.NewProcess | vsphere-instaclone-agent/src/main/java/com/avast/teamcity/plugins/instaclone/buildstep/InstaCloneBuildProcess.kt:21-28 | a new step is not started and both its futures are pending |
| BuildProcess.UpdateStatus | vsphere-instaclone-agent/src/main/java/com/avast/teamcity/plugins/instaclone/buildstep/InstaCloneBuildProcess.kt:138-145 | only the first status completes the confirmation; nothing else changes |
| BuildProcess.CallJob | vsphere-instaclone-agent/src/main/java/com/avast/teamcity/plugins/instaclone/buildstep/InstaCloneBuildProcess.kt:94-136 | logs the marker; returns the confirmation when it arrives in time; waits only while it is pending and not timed out; INTERRUPTED only when confirmed so |
| BuildProcess.Start | vsphere-instaclone-agent/src/main/java/com/avast/teamcity/plugins/instaclone/buildstep/InstaCloneBuildProcess.kt:30-38 | registers the uuid first; the step is started iff the executor accepts it, otherwise an error; other processes untouched |
| BuildProcess.RunCall | vsphere-instaclone-agent/src/main/java/com/avast/teamcity/plugins/instaclone/buildstep/InstaCloneBuildProcess.kt:94-136 | the executor job's result is `call`'s; other processes untouched |
| BuildProcess.DispatchStatus | vsphere-instaclone-agent/src/main/java/com/avast/teamcity/plugins/instaclone/buildstep/InstacloneHandlerImpl.kt:6-12 | the server's status reaches a registered process as `updateStatus`; an unknown uuid is ignored |
| BuildProcess.Interrupt | vsphere-instaclone-agent/src/main/java/com/avast/teamcity/plugins/instaclone/buildstep/InstaCloneBuildProcess.kt:48-56 | deregisters; neither future stays pending; a completed value is kept; other registrations unchanged |
| BuildProcess.WaitFor | vsphere-instaclone-agent/src/main/java/com/avast/teamcity/plugins/instaclone/buildstep/InstaCloneBuildProcess.kt:58-82 | every end deregisters the step; a finished job gives its status, a cancelled one INTERRUPTED; it blocks only while the job is pending and the deadline has not passed |
| BuildProcess.ConfirmedRun | vsphere-instaclone-agent/src/main/java/com/avast/teamcity/plugins/instaclone/buildstep/InstaCloneBuildProcess.kt:94-121 | start, the server's answer, `call` and `waitFor` end in the status the server sent |
| BuildProcess.InterruptedRun | vsphere-instaclone-agent/src/main/java/com/avast/teamcity/plugins/instaclone/buildstep/InstaCloneBuildProcess.kt:48-56 | an interrupted step reports INTERRUPTED and a later confirmation changes nothing |
| BuildProcess.UnconfirmedRunFails | vsphere-instaclone-agent/src/main/java/com/avast/teamcity/plugins/instaclone/buildstep/InstaCloneBuildProcess.kt:117-135 | a step whose confirmation never comes times out in `call` and finishes FAILED |
| ProcessRegistry.NewManager | vsphere-instaclone-agent/src/main/java/com/avast/teamcity/plugins/instaclone/buildstep/HandlerBuildProcessManager.kt:14-26 | the map starts empty; the handler is registered iff registration succeeds |
| ProcessRegistry.Register | vsphere-instaclone-agent/src/main/java/com/avast/teamcity/plugins/instaclone/buildstep/HandlerBuildProcessManager.kt:28-30 | maps the uuid to the process, replacing an earlier entry; other entries stay |
| ProcessRegistry.RemoveBuildProcess | vsphere-instaclone-agent/src/main/java/com/avast/teamcity/plugins/instaclone/buildstep/HandlerBuildProcessManager.kt:32-34 | drops that uuid only; an absent uuid is a no-op |
| ProcessRegistry.Dispatch | vsphere-instaclone-agent/src/main/java/com/avast/teamcity/plugins/instaclone/buildstep/InstacloneHandlerImpl.kt:9-11 | delivered iff the uuid is registered, to that process with the status unchanged |
| ProcessRegistry.DispatchSeesRegistration | vsphere-instaclone-agent/src/main/java/com/avast/teamcity/plugins/instaclone/buildstep/HandlerBuildProcessManager.kt:28-30 | a registration is visible to the handler at once |
| ProcessRegistry.DispatchSeesRemoval | vsphere-instaclone-agent/src/main/java/com/avast/teamcity/plugins/instaclone/buildstep/HandlerBuildProcessManager.kt:32-34 | after removal the handler ignores the uuid |
| ProcessRegistry.OtherEntriesUnaffected | vsphere-instaclone-agent/src/main/java/com/avast/teamcity/plugins/instaclone/buildstep/HandlerBuildProcessManager.kt:28-34 | registering or removing one uuid does not change dispatch to another |
| ProcessRegistry.RegisterRemoveFresh | vsphere-instaclone-agent/src/main/java/com/avast/teamcity/plugins/instaclone/buildstep/HandlerBuildProcessManager.kt:28-34 | registering then removing a fresh uuid restores the map |
| RunType.SuffixErrors | vsphere-instaclone-server/src/main/java/com/avast/teamcity/plugins/instaclone/buildstep/VSphereInstacloneRunType.kt:30-39 | at most one suffix error, present iff a suffix is given and does not match `^[a-zA-Z-0-9_]*$` |
| RunType.TimeoutErrors | vsphere-instaclone-server/src/main/java/com/avast/teamcity/plugins/instaclone/buildstep/VSphereInstacloneRunType.kt:40-56 | at most one timeout error: "not defined" when missing, "not a valid number" unless 1-7 digits |
| RunType.CloneNumberLimitErrors | vsphere-instaclone-server/src/main/java/com/avast/teamcity/plugins/instaclone/buildstep/VSphereInstacloneRunType.kt:58-83 | at most one limit error: "not defined", "not a valid number", or ">= 1" for an all-zero number |
| RunType.Validate | vsphere-instaclone-server/src/main/java/com/avast/teamcity/plugins/instaclone/buildstep/VSphereInstacloneRunType.kt:26-87 | no error iff every key is acceptable; errors come in key order; each key's messages are exactly its own check's |
| RunType.NamesDistinct | vsphere-instaclone-server/src/main/java/com/avast/teamcity/plugins/instaclone/buildstep/VSphereInstacloneRunType.kt:110-114 | the three parameter names are distinct |
| RunType.DefaultsAreAccepted | vsphere-instaclone-server/src/main/java/com/avast/teamcity/plugins/instaclone/buildstep/VSphereInstacloneRunType.kt:97-103 | the defaults are "", "180" and "2", and the validator accepts them |
| RunType.AcceptedSuffixIsPlain | vsphere-instaclone-server/src/main/java/com/avast/teamcity/plugins/instaclone/buildstep/VSphereInstacloneRunType.kt:30-39 | an accepted suffix needs no escaping in the agent's marker |
| RunType.AcceptedTimeoutIsUsed | vsphere-instaclone-server/src/main/java/com/avast/teamcity/plugins/instaclone/buildstep/VSphereInstacloneRunType.kt:40-56 | the agent parses an accepted timeout, and uses it when positive |
| RunType.ShortNumberBound | vsphere-instaclone-server/src/main/java/com/avast/teamcity/plugins/instaclone/buildstep/VSphereInstacloneRunType.kt:41 | one to seven digits denote less than 10^7, so `toLong` cannot overflow |
| ConfigProcessor.RequiredErrors | vsphere-instaclone-server/src/main/java/com/avast/teamcity/plugins/instaclone/ConfigPropertiesProcessor.kt:21-23 | exactly the required properties without text are reported, with "Value cannot be empty" |
| ConfigProcessor.TemplateProblem | vsphere-instaclone-server/src/main/java/com/avast/teamcity/plugins/instaclone/ConfigPropertiesProcessor.kt:110-128 | no problem iff the template contains '/'; "cannot be empty" iff it is empty or absent |
| ConfigProcessor.TemplateErrors | vsphere-instaclone-server/src/main/java/com/avast/teamcity/plugins/instaclone/ConfigPropertiesProcessor.kt:105-130 | no error iff no entry has a bad template; at most one error per entry, each against the images property with a non-empty message |
| ConfigProcessor.TemplateErrorsExact | vsphere-instaclone-server/src/main/java/com/avast/teamcity/plugins/instaclone/ConfigPropertiesProcessor.kt:105-130 | every error reported is some bad entry's error, and every bad entry's error is reported |
| ConfigProcessor.ImageErrors | vsphere-instaclone-server/src/main/java/com/avast/teamcity/plugins/instaclone/ConfigPropertiesProcessor.kt:25-44 | a parse error gives "Parsing JSON error: …"; an empty map gives "no image specification"; otherwise the template errors |
| ConfigProcessor.Collected | vsphere-instaclone-server/src/main/java/com/avast/teamcity/plugins/instaclone/ConfigPropertiesProcessor.kt:19-44 | the errors before the account check are empty iff the required properties and the images are clean |
| ConfigProcessor.NotFound | vsphere-instaclone-server/src/main/java/com/avast/teamcity/plugins/instaclone/ConfigPropertiesProcessor.kt:48-55 | the account error names the account property |
| ConfigProcessor.ConnectionFailed | vsphere-instaclone-server/src/main/java/com/avast/teamcity/plugins/instaclone/ConfigPropertiesProcessor.kt:83-90 | the connection error names the connection-info property |
| ConfigProcessor.Process | vsphere-instaclone-server/src/main/java/com/avast/teamcity/plugins/instaclone/ConfigPropertiesProcessor.kt:19-65 | no error iff clean, the account exists and the connection works; the connection is tested iff clean with a known account; a known account's hash is written; a missing account is reported last |
| ConfigProcessor.AcceptedImagesHaveTemplatePaths | vsphere-instaclone-server/src/main/java/com/avast/teamcity/plugins/instaclone/ConfigPropertiesProcessor.kt:105-130 | every image of an accepted profile passes the client's template-path check |
| ProfileData.BoolToString | vsphere-instaclone-server/src/main/java/com/avast/teamcity/plugins/instaclone/web/service/profile/CloudProfileDataImpl.kt:52 | renders "true" or "false" |
| ProfileData.BoolToStringReadsBack | vsphere-instaclone-server/src/main/java/com/avast/teamcity/plugins/instaclone/web/service/profile/CloudProfileDataImpl.kt:52 | the rendering is injective |
| ProfileData.IdleMinutes | vsphere-instaclone-server/src/main/java/com/avast/teamcity/plugins/instaclone/web/service/profile/CloudProfileDataImpl.kt:53-57 | "" exactly when no idle time is set |
| ProfileData.ProfileProperties | vsphere-instaclone-server/src/main/java/com/avast/teamcity/plugins/instaclone/web/service/profile/CloudProfileDataImpl.kt:46-63 | the custom properties plus the five field keys, the fields overriding custom values |
| ProfileData.IdleTimeInWholeMinutes | vsphere-instaclone-server/src/main/java/com/avast/teamcity/plugins/instaclone/web/service/profile/CloudProfileDataImpl.kt:54 | dividing by 60 then 1000 equals dividing by 60000, reads back as that number, and brackets the milliseconds |
| ProfileData.ImagesParameters | vsphere-instaclone-server/src/main/java/com/avast/teamcity/plugins/instaclone/web/service/profile/CloudProfileDataImpl.kt:37-40 | the stored images, unchanged and in order |
| ProfileData.Equals | vsphere-instaclone-server/src/main/java/com/avast/teamcity/plugins/instaclone/web/service/profile/CloudProfileDataImpl.kt:65-74 | equal iff the other object is a profile with the same seven fields |
| ProfileData.EqualsIsAnEquivalence | vsphere-instaclone-server/src/main/java/com/avast/teamcity/plugins/instaclone/web/service/profile/CloudProfileDataImpl.kt:65-74 | reflexive, symmetric, transitive and false for null |
| ProfileData.StringHash | vsphere-instaclone-server/src/main/java/com/avast/teamcity/plugins/instaclone/web/service/profile/CloudProfileDataImpl.kt:77-79 | `String.hashCode` is an `Int` |
| ProfileData.ObjectsHash | vsphere-instaclone-server/src/main/java/com/avast/teamcity/plugins/instaclone/web/service/profile/CloudProfileDataImpl.kt:77-79 | `Objects.hash` is an `Int` |
| ProfileData.ObjectsHashIsPoly | vsphere-instaclone-server/src/main/java/com/avast/teamcity/plugins/instaclone/web/service/profile/CloudProfileDataImpl.kt:77-79 | `Objects.hash` equals the documented polynomial 31-fold modulo 2^32 |
| ProfileData.FieldHashes | vsphere-instaclone-server/src/main/java/com/avast/teamcity/plugins/instaclone/web/service/profile/CloudProfileDataImpl.kt:77-79 | one hash per field, seven in all |
| ProfileData.HashCode | vsphere-instaclone-server/src/main/java/com/avast/teamcity/plugins/instaclone/web/service/profile/CloudProfileDataImpl.kt:76-80 | an `Int` congruent to the polynomial over the seven field hashes |
| ProfileData.EqualProfilesHashAlike | vsphere-instaclone-server/src/main/java/com/avast/teamcity/plugins/instaclone/web/service/profile/CloudProfileDataImpl.kt:65-80 | equal profiles have equal hash codes |
| ProfilesService.RemoveVCenterAccount | vsphere-instaclone-server/src/main/java/com/avast/teamcity/plugins/instaclone/web/service/CloudProfilesService.kt:284-291 | the same properties without password, username and account hash |
| ProfilesService.ListingHasNoSecrets | vsphere-instaclone-server/src/main/java/com/avast/teamcity/plugins/instaclone/web/service/CloudProfilesService.kt:284-291 | a listing holds no credential or hash, and cleaning twice changes nothing |
| ProfilesService.UpdateAccountHash | vsphere-instaclone-server/src/main/java/com/avast/teamcity/plugins/instaclone/web/service/CloudProfilesService.kt:131-135 | a copy with only the hash replaced |
| ProfilesService.ShouldUpdateProfile | vsphere-instaclone-server/src/main/java/com/avast/teamcity/plugins/instaclone/web/service/CloudProfilesService.kt:137-139 | true iff the stored hash is missing or differs |
| ProfilesService.HashUpdateSettles | vsphere-instaclone-server/src/main/java/com/avast/teamcity/plugins/instaclone/web/service/CloudProfilesService.kt:131-139 | after writing the hash no update is needed; a settled profile is left as it is |
| ProfilesService.ResetTerminateConditions | vsphere-instaclone-server/src/main/java/com/avast/teamcity/plugins/instaclone/web/service/CloudProfilesService.kt:222-226 | the three terminate conditions are dropped, everything else stays |
| ProfilesService.UpdateEnabledParameterIfPresent | vsphere-instaclone-server/src/main/java/com/avast/teamcity/plugins/instaclone/web/service/CloudProfilesService.kt:228-235 | an existing "enabled" key gets the flag's text; no key is added; others stay |
| ProfilesService.UpdateAccountProperties | vsphere-instaclone-server/src/main/java/com/avast/teamcity/plugins/instaclone/web/service/VCenterAccountService.kt:149-156 | an unknown account fails "Cannot find vCenterAccount by ID …"; a known one sets its id and hash and keeps everything else |
| ProfilesService.UpdatePropImagesParameterIfPresent | vsphere-instaclone-server/src/main/java/com/avast/teamcity/plugins/instaclone/web/service/CloudProfilesService.kt:237-257 | an unparsable images JSON fails; otherwise only the images value is replaced by its reformatted text |
| ProfilesService.Templates | vsphere-instaclone-server/src/main/java/com/avast/teamcity/plugins/instaclone/web/service/CloudProfilesService.kt:75 | exactly the templates the entries define |
| ProfilesService.GetProfileTemplates | vsphere-instaclone-server/src/main/java/com/avast/teamcity/plugins/instaclone/web/service/CloudProfilesService.kt:69-79 | nothing for a blank or unreadable images JSON, otherwise the entries' templates |
| ProfilesService.MergeProperties | vsphere-instaclone-server/src/main/java/com/avast/teamcity/plugins/instaclone/web/service/CloudProfilesService.kt:195-206 | fails iff the account is unknown or the images JSON is unreadable; otherwise the merge holds key by key |
| ProfilesService.MergeFacts | vsphere-instaclone-server/src/main/java/com/avast/teamcity/plugins/instaclone/web/service/CloudProfilesService.kt:195-206 | a successful merge used a known account and holds key by key |
| ProfilesService.UpdateProfile | vsphere-instaclone-server/src/main/java/com/avast/teamcity/plugins/instaclone/web/service/CloudProfilesService.kt:187-220 | a missing profile fails with its ids; a found one fails only as the merge does; the update keeps the cloud code and takes the request's fields, falling back to the stored ones |
| ProfilesService.CreateProfile | vsphere-instaclone-server/src/main/java/com/avast/teamcity/plugins/instaclone/web/service/CloudProfilesService.kt:142-185 | succeeds iff the name is new, the account is known and the JSON reads; a duplicate name fails with the source's message; the profile gets a fresh uuid and no images |
| ProfilesService.RefreshProfile | vsphere-instaclone-server/src/main/java/com/avast/teamcity/plugins/instaclone/web/service/CloudProfilesService.kt:109-129 | a profile is updated iff its stored account hash is stale |
| ProfilesService.RefreshSettles | vsphere-instaclone-server/src/main/java/com/avast/teamcity/plugins/instaclone/web/service/CloudProfilesService.kt:109-139 | a refreshed profile carries the new hash, so refreshing again does nothing, and its other fields are kept |
| PropertyCollector.CreateObjectSpec | vsphere-instaclone-server/src/main/java/com/avast/teamcity/plugins/instaclone/utils/PropertyCollectorUtil.java:67-73 | the spec holds the object, skip flag and selection set given |
| PropertyCollector.CreatePropertySpec | vsphere-instaclone-server/src/main/java/com/avast/teamcity/plugins/instaclone/utils/PropertyCollectorUtil.java:75-81 | the spec holds the type, all-flag and path set given |
| PropertyCollector.CreateSelectionSpec | vsphere-instaclone-server/src/main/java/com/avast/teamcity/plugins/instaclone/utils/PropertyCollectorUtil.java:83-90 | one selection per name, in order |
| PropertyCollector.Selections | vsphere-instaclone-server/src/main/java/com/avast/teamcity/plugins/instaclone/utils/PropertyCollectorUtil.java:83-90 | reference definition: the i-th selection names the i-th name |
| PropertyCollector.CreateSelectionSpecAgrees | vsphere-instaclone-server/src/main/java/com/avast/teamcity/plugins/instaclone/utils/PropertyCollectorUtil.java:83-90 | the loop builds the same selections as the reference |
| PropertyCollector.CreateTraversalSpec | vsphere-instaclone-server/src/main/java/com/avast/teamcity/plugins/instaclone/utils/PropertyCollectorUtil.java:96-104 | a traversal with the given fields, never skipped |
| PropertyCollector.TraversalTo | vsphere-instaclone-server/src/main/java/com/avast/teamcity/plugins/instaclone/utils/PropertyCollectorUtil.java:92-94 | a traversal whose selections name the given traversals |
| PropertyCollector.BuildPropertySpecArray | vsphere-instaclone-server/src/main/java/com/avast/teamcity/plugins/instaclone/utils/PropertyCollectorUtil.java:113-125 | fails iff some row is empty (as the array index does); otherwise a spec per row whose type is the row's head, paths its tail, all-flag iff no paths |
| PropertyCollector.PropertySpecsReadBack | vsphere-instaclone-server/src/main/java/com/avast/teamcity/plugins/instaclone/utils/PropertyCollectorUtil.java:113-125 | each spec gives its row back |
| PropertyCollector.NoFolderTraversals | vsphere-instaclone-server/src/main/java/com/avast/teamcity/plugins/instaclone/utils/PropertyCollectorUtil.java:158-194 | the seven traversals below folders |
| PropertyCollector.BuildFullTraversal | vsphere-instaclone-server/src/main/java/com/avast/teamcity/plugins/instaclone/utils/PropertyCollectorUtil.java:136-151 | the folder walk followed by the seven others |
| PropertyCollector.BuildFullTraversalV4 | vsphere-instaclone-server/src/main/java/com/avast/teamcity/plugins/instaclone/utils/PropertyCollectorUtil.java:202-237 | the wider folder walk, datastore, network and vApp traversals, then the seven others |
| PropertyCollector.FullTraversalIsClosed | vsphere-instaclone-server/src/main/java/com/avast/teamcity/plugins/instaclone/utils/PropertyCollectorUtil.java:136-194 | every traversal the set refers to is defined in it |
| PropertyCollector.FullTraversalV4IsClosed | vsphere-instaclone-server/src/main/java/com/avast/teamcity/plugins/instaclone/utils/PropertyCollectorUtil.java:158-237 | every traversal the V4 set refers to is defined in it |
| PropertyCollector.TraversalNamesAreUnique | vsphere-instaclone-server/src/main/java/com/avast/teamcity/plugins/instaclone/utils/PropertyCollectorUtil.java:136-237 | no traversal name is defined twice in either set |
| PropertyCollector.ConvertProperty | vsphere-instaclone-server/src/main/java/com/avast/teamcity/plugins/instaclone/utils/PropertyCollectorUtil.java:30-65 | null is rejected with the source's message; an `ArrayOf…` wrapper yields its unwrapped value; anything else passes through |

## Left out

- I/O, SOAP calls, coroutines, executors, locks, clocks and random uuids are not modelled. Their results are inputs: scripts of answers, a `millis` value, a fresh uuid. Running out of script means "still running". Concurrency between jobs is not modelled.
- The one-second sleeps and the 20-second initial freeze delay are not modelled. Only the count of freeze polls, 80, is.
- `getEthernetDevices`, `getLocationSpec` and the power-on bootstrap JSON are left out. These are network backing selection and JSON building; the bootstrap document is opaque in `PowerOnExtraConfig`.
- `ICCloudClient` constructs `ICCloudImage` with an argument list that does not fit the image's constructor: the template is missing and the references are shifted. The model binds the fields by name: template, instance folder, resource pool, no datastore.
- The update and create request classes have no `vCenterAccount` field, yet the service reads one. The request datatypes carry the account id by name.
- `ICCloudClientFactory.getImageConfigMapper` is not part of this model. Jackson's parse and pretty-print are inputs: `Parsed` and `reformatted`.
- `ICCloudClientFactory.parseIcImageConfig` (Jackson binding) is an input. Its defaults are modelled in `ImageConfig.Bind`.
- The vCenter account store, RSA/AES decryption and `VCenterAccount.hash()` are not modelled. Accounts are a map and their hash is an opaque string.
- `translateProjectId`, `findProfiles`, `getSimpleProfileInfos`, `removeProfile` and TeamCity's `CloudManagerBase` are left out. They are lookups in TeamCity's own stores; the found profile or the existing names are inputs.
- The web controllers, the JSP paths and the plug-in registration are left out, as UI glue.
- The reflection branch of `convertProperty` is an input (`unwrapped`). It calls a getter chosen by class name.
- `ServiceMessage.Parse`: a reader for the subset this protocol writes, not TeamCity's full parser with `|` escapes. It is enough to read back any marker whose suffix passes the runner validator.
- `ProfileData.StringHash`: hashes characters by code point, not by UTF-16 unit. `Long`, `Map` and `Collection` hash codes are function parameters, the same for equal values.
- `BuildProcess.Start`: a rejected submission leaves the uuid registered, as in the source. The failure is returned as an error value rather than thrown.
- `getManagedProperty` and `getFolderVirtualMachines` of the vSphere wrapper are left out. Folder listings come in as `FolderVm` sequences, and `PropertyCollector` models the helpers they build on.
- The regular expressions (`^[a-zA-Z-0-9_]*$`, `^[0-9]{1,7}+$`, `.+?@(\d+)`) are hand-coded as predicates, with the matching semantics these patterns have.
- The class in `[a-zA-Z-0-9_]` is letters, digits, '-' and '_': Java reads a '-' that follows a range as a literal.
- Text.ParseLong: reads ASCII digits only. Java's `Long.parseLong` also takes other Unicode decimal digits through `Character.digit`, so "٣٠" reads as 30 there and fails here. `BuildProcess.GetTimeout`, `Client.AdoptAll` and `CloudImage.CreateRunningInstance` inherit this.
- Lifecycle.PowerOnLoop: each power-on attempt is one outcome (a VM, a `DuplicateName` fault, another failure). An attempt whose clone task has not settled is represented by ending the script before it, so the image shown is the one before that attempt allocated its name.
- Client.ResolveAgentPool: a fractional JSON number comes in as its `Double` value already rounded toward zero (`PoolFractional`). The decimal-to-`Double` rounding is floating point and not modelled. For example, `2.9999999999999999` is `3.0` as a `Double`, so the model is given 3 for it.
- Lifecycle.Terminate: whether the power-on job is still in its retry loop is read at `terminate`. The model takes the job not to advance between `terminate` and the stop job's `cancelAndJoin`, since interleavings of the two coroutines are not modelled.

=== FILE: build_process.dfy ===
/** `InstaCloneBuildProcess`: the agent-side build step that asks the server
    for a clone and waits for the server's confirmation.

    The process runs `call` on its own executor; `waitFor` waits for that
    job. The confirmation arrives through the correlation map
    (`ProcessRegistry`) as `updateStatus`. Both futures are single-assignment
    values, and time is reduced to "the wait has timed out" flags. */
module BuildProcess {
  import opened Wrappers
  import opened Numeric
  import opened Text
  import opened ServiceMessage
  import opened ProcessRegistry

  datatype BuildStatus = FinishedSuccess | FinishedFailed | Interrupted

  /** A `CompletableFuture` / executor `Future`: not done, completed with a
      value, or cancelled. */
  datatype Future<T> = Pending | Completed(value: T) | Cancelled

  /** `complete`: only the first completion or cancellation takes effect. */
  function Complete<T>(f: Future<T>, v: T): (r: Future<T>)
    ensures f.Pending? ==> r == Completed(v)
    ensures !f.Pending? ==> r == f
  {
    if f.Pending? then Completed(v) else f
  }

  /** `cancel`: a done future stays as it is. */
  function Cancel<T>(f: Future<T>): (r: Future<T>)
    ensures f.Pending? ==> r == Cancelled
    ensures !f.Pending? ==> r == f
  {
    if f.Pending? then Cancelled else f
  }

  /** Once done, a future ignores every later completion and cancellation. */
  lemma FirstOutcomeWins<T>(f: Future<T>, v: T, w: T)
    ensures Complete(Complete(f, v), w) == Complete(f, v)
    ensures Cancel(Complete(f, v)) == Complete(f, v)
    ensures Complete(Cancel(f), w) == Cancel(f)
  {
  }

  const MessageName: string := "createVCenterInstaClone"
  const SuffixParameter: string := "templateNameSuffix"
  const TimeoutParameter: string := "templateTimeout"
  const UuidAttribute: string := "uuid"
  const DefaultMinutesTimeout: int := 3
  /** `waitFor` allows the job one minute beyond the confirmation timeout. */
  const GraceSeconds: int := 60

  /** `getTimeout`: the runner's `templateTimeout` in seconds, parsed with
      `toLong()` (so a non-number throws); missing or not positive means
      three minutes. */
  function GetTimeout(params: map<string, string>): (r: Result<int, string>)
    ensures TimeoutParameter !in params ==> r == Success(DefaultMinutesTimeout * 60)
    ensures TimeoutParameter in params ==> (r.Failure? <==> ParseLong(params[TimeoutParameter]).None?)
    ensures TimeoutParameter in params && ParseLong(params[TimeoutParameter]).Some? ==>
      var t := ParseLong(params[TimeoutParameter]).value;
      r == Success(if t <= 0 then 180 else t)
    ensures r.Success? ==> 0 < r.value && IsLong(r.value)
  {
    if TimeoutParameter !in params then Success(DefaultMinutesTimeout * 60)
    else match ParseLong(params[TimeoutParameter])
      case None => Failure("For input string: \"" + params[TimeoutParameter] + "\"")
      case Some(t) => if t <= 0 then Success(DefaultMinutesTimeout * 60) else Success(t)
  }

  /** The status string the server sends: "OK" is success, anything else
      is failure. */
  function StatusOf(status: string): (r: BuildStatus)
    ensures r == FinishedSuccess <==> status == "OK"
    ensures r != Interrupted
  {
    if status == "OK" then FinishedSuccess else FinishedFailed
  }

  /** The service message `call` writes to the build log. A missing suffix
      parameter is rendered by the string template as "null". */
  function Marker(suffix: Option<string>, uuid: string): string {
    "##teamcity[" + MessageName + " " + SuffixParameter + "='" + Template(suffix) + "' uuid='" + uuid + "']"
  }

  /** The marker is the service message named `createVCenterInstaClone`
      with the suffix and the step's uuid as attributes, in that order. */
  lemma MarkerIsServiceMessage(suffix: Option<string>, uuid: string)
    ensures Marker(suffix, uuid) ==
      Render(Message(MessageName, [Attribute(SuffixParameter, Template(suffix)), Attribute(UuidAttribute, uuid)]))
  {
    var attrs := [Attribute(SuffixParameter, Template(suffix)), Attribute(UuidAttribute, uuid)];
    assert RenderAttributes(attrs) ==
      RenderAttribute(attrs[0]) + (RenderAttribute(attrs[1]) + RenderAttributes(attrs[2..]));
  }

  lemma PlainConstants()
    ensures PlainName(MessageName) && PlainName(SuffixParameter) && PlainName(UuidAttribute)
  {
    assert PlainName(MessageName);
    assert PlainName(SuffixParameter);
  }

  /** A suffix and a uuid that need no escaping come back out of the marker
      as the two attributes the server looks up. */
  lemma MarkerReadsBack(suffix: string, uuid: string)
    requires PlainValue(suffix) && PlainValue(uuid)
    ensures Parse(Marker(Some(suffix), uuid)).Some?
    ensures Parse(Marker(Some(suffix), uuid)).value.name == MessageName
    ensures Lookup(Parse(Marker(Some(suffix), uuid)).value.attributes, SuffixParameter) == Some(suffix)
    ensures Lookup(Parse(Marker(Some(suffix), uuid)).value.attributes, UuidAttribute) == Some(uuid)
  {
    var m := Message(MessageName, [Attribute(SuffixParameter, suffix), Attribute(UuidAttribute, uuid)]);
    PlainConstants();
    ParseRender(m);
    MarkerIsServiceMessage(Some(suffix), uuid);
    assert m.attributes[1..] == [Attribute(UuidAttribute, uuid)];
  }

  // ---- one process ---------------------------------------------------------------

  /** One build step: its correlation uuid, its runner parameters, the
      confirmation future and the executor job running `call`. */
  datatype Process = Process(uuid: string, params: map<string, string>, started: bool,
                             confirm: Future<BuildStatus>, job: Future<BuildStatus>)

  function NewProcess(uuid: string, params: map<string, string>): (r: Process)
    ensures r.uuid == uuid && !r.started && r.confirm.Pending? && r.job.Pending?
  {
    Process(uuid, params, false, Pending, Pending)
  }

  /** `updateStatus` of the process: completes the confirmation. */
  function UpdateStatus(p: Process, status: string): (r: Process)
    ensures p.confirm.Pending? ==> r.confirm == Completed(StatusOf(status))
    ensures !p.confirm.Pending? ==> r == p
    ensures r == p.(confirm := r.confirm)
  {
    p.(confirm := Complete(p.confirm, StatusOf(status)))
  }

  /** What `call` yields: the marker it logged, and its status once the
      wait for the confirmation has ended (`None` while it still waits). */
  datatype CallEnd = CallEnd(marker: string, status: Option<BuildStatus>)

  /** `call`: logs the marker, then waits for the confirmation. Every
      throwable (an unreadable timeout, a cancelled confirmation, the wait
      timing out) ends in FINISHED_FAILED. */
  function CallJob(p: Process, timedOut: bool): (r: CallEnd)
    ensures r.marker == Marker(if SuffixParameter in p.params then Some(p.params[SuffixParameter]) else None, p.uuid)
    ensures p.confirm.Completed? && GetTimeout(p.params).Success? ==> r.status == Some(p.confirm.value)
    ensures r.status.Some? && r.status.value != FinishedFailed ==> p.confirm == Completed(r.status.value)
    ensures r.status.None? <==> GetTimeout(p.params).Success? && p.confirm.Pending? && !timedOut
    ensures r.status != Some(Interrupted) || p.confirm == Completed(Interrupted)
  {
    var marker := Marker(if SuffixParameter in p.params then Some(p.params[SuffixParameter]) else None, p.uuid);
    var status :=
      if GetTimeout(p.params).Failure? then Some(FinishedFailed)
      else match p.confirm
        case Completed(s) => Some(s)
        case Cancelled => Some(FinishedFailed)
        case Pending => if timedOut then Some(FinishedFailed) else None;
    CallEnd(marker, status)
  }

  // ---- the agent: processes and the shared map -----------------------------------------

  /** Every process known to the agent, by uuid, and the manager whose map
      the handler shares. A registered uuid names its own process. */
  datatype Agent = Agent(manager: Manager<string>, processes: map<string, Process>)

  predicate Consistent(a: Agent) {
    && (forall u :: u in a.processes ==> a.processes[u].uuid == u)
    && (forall u :: u in a.manager.processMap ==> a.manager.processMap[u] == u && u in a.processes)
  }

  predicate Registered(a: Agent, uuid: string) {
    uuid in a.manager.processMap
  }

  datatype Step = Step(agent: Agent, error: Option<string>)

  /** `start`: registers the uuid first, then submits `call`. A rejected
      submission throws, and the registration stays behind. */
  function Start(a: Agent, uuid: string, submitted: bool): (r: Step)
    requires Consistent(a) && uuid in a.processes && !a.processes[uuid].started
    ensures Consistent(r.agent) && Registered(r.agent, uuid)
    ensures r.error.None? <==> submitted
    ensures r.agent.processes[uuid].started <==> submitted
    ensures forall u :: u in a.processes && u != uuid ==> u in r.agent.processes && r.agent.processes[u] == a.processes[u]
    ensures r.agent.processes.Keys == a.processes.Keys
  {
    var registered := a.(manager := a.manager.(processMap := Register(a.manager.processMap, uuid, uuid)));
    if submitted then
      Step(registered.(processes := a.processes[uuid := a.processes[uuid].(started := true)]), None)
    else Step(registered, Some("java.util.concurrent.RejectedExecutionException"))
  }

  /** The executor job finishes `call`, or keeps waiting. */
  function RunCall(a: Agent, uuid: string, timedOut: bool): (r: Agent)
    requires Consistent(a) && uuid in a.processes
    ensures Consistent(r) && r.manager == a.manager && r.processes.Keys == a.processes.Keys
    ensures var p := a.processes[uuid];
      CallJob(p, timedOut).status.Some? ==> r.processes[uuid].job == Complete(p.job, CallJob(p, timedOut).status.value)
    ensures forall u :: u in a.processes && u != uuid ==> r.processes[u] == a.processes[u]
  {
    var p := a.processes[uuid];
    match CallJob(p, timedOut).status
    case None => a
    case Some(s) => a.(processes := a.processes[uuid := p.(job := Complete(p.job, s))])
  }

  /** The server's `updateStatus(uuid, status)` reaching the agent: the
      handler looks the uuid up in the shared map and forwards the status;
      the map itself does not change. */
  function DispatchStatus(a: Agent, uuid: string, status: string): (r: Agent)
    requires Consistent(a)
    ensures Consistent(r) && r.manager == a.manager && r.processes.Keys == a.processes.Keys
    ensures !Registered(a, uuid) ==> r == a
    ensures Registered(a, uuid) ==> r.processes[uuid] == UpdateStatus(a.processes[uuid], status)
    ensures forall u :: u in a.processes && u != uuid ==> r.processes[u] == a.processes[u]
  {
    match Dispatch(a.manager.processMap, uuid, status)
    case Ignored => a
    case Delivered(k, s) => a.(processes := a.processes[k := UpdateStatus(a.processes[k], s)])
  }

  /** `interrupt`: deregisters, cancels a pending confirmation, cancels the job. */
  function Interrupt(a: Agent, uuid: string): (r: Agent)
    requires Consistent(a) && uuid in a.processes
    ensures Consistent(r) && !Registered(r, uuid) && r.processes.Keys == a.processes.Keys
    ensures !r.processes[uuid].confirm.Pending? && !r.processes[uuid].job.Pending?
    ensures a.processes[uuid].confirm.Completed? ==> r.processes[uuid].confirm == a.processes[uuid].confirm
    ensures a.processes[uuid].job.Completed? ==> r.processes[uuid].job == a.processes[uuid].job
    ensures forall u :: u in a.processes && u != uuid ==> r.processes[u] == a.processes[u]
    ensures forall u :: u != uuid ==> (Registered(r, u) <==> Registered(a, u))
  {
    var p := a.processes[uuid];
    var p' := p.(confirm := Cancel(p.confirm), job := Cancel(p.job));
    Agent(a.manager.(processMap := RemoveBuildProcess(a.manager.processMap, uuid)), a.processes[uuid := p'])
  }

  datatype WaitEnd = Returned(status: BuildStatus) | Raised(message: string) | Blocked

  const TimeoutMessage: string := "Timeout on Instaclone buildprocess"

  /** `waitFor`: waits up to `getTimeout()` plus a minute for the job. A
      cancelled job means INTERRUPTED, a timeout raises; whatever the
      outcome, the `finally` deregisters the uuid. */
  function WaitFor(a: Agent, uuid: string, deadlinePassed: bool): (r: (WaitEnd, Agent))
    requires Consistent(a) && uuid in a.processes
    ensures Consistent(r.1) && r.1.processes == a.processes
    ensures !r.0.Blocked? ==> !Registered(r.1, uuid)
    ensures r.0.Blocked? ==> r.1 == a
    ensures forall u :: u != uuid ==> (Registered(r.1, u) <==> Registered(a, u))
    ensures a.processes[uuid].job.Completed? && GetTimeout(a.processes[uuid].params).Success? && GetTimeout(a.processes[uuid].params).value + GraceSeconds <= LongMax ==>
      r.0 == Returned(a.processes[uuid].job.value)
    ensures a.processes[uuid].job.Cancelled? && GetTimeout(a.processes[uuid].params).Success? && GetTimeout(a.processes[uuid].params).value + GraceSeconds <= LongMax ==>
      r.0 == Returned(Interrupted)
    ensures r.0.Blocked? ==> a.processes[uuid].job.Pending? && !deadlinePassed
  {
    var p := a.processes[uuid];
    var end :=
      match GetTimeout(p.params)
      case Failure(e) => Raised(e)
      case Success(t) =>
        if t + GraceSeconds > LongMax then Raised("long overflow")
        else match p.job
          case Completed(s) => Returned(s)
          case Cancelled => Returned(Interrupted)
          case Pending => if deadlinePassed then Raised(TimeoutMessage) else Blocked;
    if end.Blocked? then (end, a)
    else (end, a.(manager := a.manager.(processMap := RemoveBuildProcess(a.manager.processMap, uuid))))
  }

  /** `isFinished` and `isInterrupted`. */
  predicate IsFinished(p: Process) {
    !p.job.Pending?
  }

  predicate IsInterrupted(p: Process) {
    p.job.Cancelled? && IsFinished(p)
  }

  // ---- whole runs ------------------------------------------------------------------------

  /** The run the agent's own test exercises: start, the server answers
      "OK", the job's wait ends, and `waitFor` returns FINISHED_SUCCESS with
      the uuid deregistered. With any other status it returns
      FINISHED_FAILED. */
  lemma {:induction false} ConfirmedRun(a: Agent, uuid: string, status: string, timedOut: bool)
    requires Consistent(a) && uuid in a.processes && a.processes[uuid] == NewProcess(uuid, a.processes[uuid].params)
    requires GetTimeout(a.processes[uuid].params).Success? && GetTimeout(a.processes[uuid].params).value + GraceSeconds <= LongMax
    ensures
      var a1 := Start(a, uuid, true).agent;
      var a2 := DispatchStatus(a1, uuid, status);
      var a3 := RunCall(a2, uuid, timedOut);
      var w := WaitFor(a3, uuid, false);
      && w.0 == Returned(StatusOf(status))
      && !Registered(w.1, uuid)
  {
    var a1 := Start(a, uuid, true).agent;
    assert Registered(a1, uuid);
    var a2 := DispatchStatus(a1, uuid, status);
    assert a2.processes[uuid].confirm == Completed(StatusOf(status));
    assert a2.processes[uuid].params == a.processes[uuid].params;
    var a3 := RunCall(a2, uuid, timedOut);
    assert a3.processes[uuid].job == Completed(StatusOf(status));
  }

  /** An interrupted step reports INTERRUPTED, and a confirmation arriving
      afterwards is ignored because the uuid is no longer registered. */
  lemma {:induction false} InterruptedRun(a: Agent, uuid: string, status: string)
    requires Consistent(a) && uuid in a.processes && a.processes[uuid] == NewProcess(uuid, a.processes[uuid].params)
    requires GetTimeout(a.processes[uuid].params).Success? && GetTimeout(a.processes[uuid].params).value + GraceSeconds <= LongMax
    ensures
      var a1 := Interrupt(Start(a, uuid, true).agent, uuid);
      && DispatchStatus(a1, uuid, status) == a1
      && WaitFor(a1, uuid, false).0 == Returned(Interrupted)
  {
    var a0 := Start(a, uuid, true).agent;
    assert a0.processes[uuid].job.Pending?;
    var a1 := Interrupt(a0, uuid);
    assert a1.processes[uuid].job.Cancelled?;
    assert a1.processes[uuid].params == a.processes[uuid].params;
  }

  /** A step whose confirmation never comes fails: `call` times out with
      FINISHED_FAILED, and `waitFor` returns it. */
  lemma {:induction false} UnconfirmedRunFails(a: Agent, uuid: string)
    requires Consistent(a) && uuid in a.processes && a.processes[uuid] == NewProcess(uuid, a.processes[uuid].params)
    requires GetTimeout(a.processes[uuid].params).Success? && GetTimeout(a.processes[uuid].params).value + GraceSeconds <= LongMax
    ensures
      var a1 := RunCall(Start(a, uuid, true).agent, uuid, true);
      WaitFor(a1, uuid, false).0 == Returned(FinishedFailed)
  {
    var a0 := Start(a, uuid, true).agent;
    assert a0.processes[uuid].confirm.Pending? && a0.processes[uuid].job.Pending?;
    var a1 := RunCall(a0, uuid, true);
    assert a1.processes[uuid].job == Completed(FinishedFailed);
    assert a1.processes[uuid].params == a.processes[uuid].params;
  }
}

=== FILE: client.dfy ===
/** `ICCloudClient`: the profile's images and instances, admission of new
    instances, adoption of running VMs at start-up, and the derivation of
    each image from its configuration. */
module Client {
  import opened Wrappers
  import opened Numeric
  import opened Text
  import opened VimTypes
  import opened InstanceState
  import opened CloudImage
  import opened ImageConfig

  /** The client's own maps: images by id and instances by uuid. The
      instance map is written on start and adoption and never pruned. */
  datatype ClientState = ClientState(uuid: string, images: map<string, Image>, instances: map<string, Instance>)

  /** Every instance is filed under its own uuid. */
  predicate WellFiled(c: ClientState) {
    forall u :: u in c.instances ==> c.instances[u].uuid == u
  }

  // ---- admission ------------------------------------------------------------------

  /** The image admission is asked about: one of this plug-in's images, or
      an image of another cloud profile type. */
  datatype ImageRef = IC(image: Image) | Foreign

  datatype Reason = NotAssociated | DefaultNegative

  datatype Admission = Yes(image: Image) | No(reason: Reason, image: Image)

  const NotAssociatedMessage: string := "The image is not associated with this profile"

  /** The first instance in map iteration order whose status is terminal. */
  function FirstTerminal(s: seq<Instance>): (r: Option<Instance>)
    ensures r.Some? ==> r.value in s && IsTerminal(r.value.status)
    ensures r.None? <==> forall i :: i in s ==> !IsTerminal(i.status)
  {
    if |s| == 0 then None
    else if IsTerminal(s[0].status) then Some(s[0])
    else FirstTerminal(s[1..])
  }

  /** Removing one stored instance keeps every other one and adds none. */
  lemma RemoveKeepsOthers(img: Image, victim: Instance)
    requires victim in img.instances
    ensures forall i :: i in RemoveInstance(img, victim).instances ==> i in img.instances && i.uuid != victim.uuid
    ensures forall i :: i in img.instances && i.uuid != victim.uuid ==> i in RemoveInstance(img, victim).instances
  {
    var smaller := RemoveInstance(img, victim);
    forall i | i in smaller.instances ensures i in img.instances && i.uuid != victim.uuid {
      UniqueEntry(smaller.instances, i);
      assert FindInstanceById(smaller, i.uuid) == Some(i);
    }
    forall i | i in img.instances && i.uuid != victim.uuid ensures i in smaller.instances {
      UniqueEntry(img.instances, i);
      assert FindInstanceById(smaller, i.uuid) == Some(i);
    }
  }

  /** The eviction loop of `canStartNewInstanceWithDetails`: while the image
      is full, drop the first terminal instance; with none left, refuse. */
  function Admit(img: Image): (r: Admission)
    ensures r.Yes? ==> |r.image.instances| < img.maxInstances
    ensures r.Yes? ==> |r.image.instances| == |img.instances| || |r.image.instances| == img.maxInstances - 1
    ensures r.No? ==> r.reason == DefaultNegative && |r.image.instances| >= img.maxInstances
    ensures r.No? ==> forall i :: i in r.image.instances ==> !IsTerminal(i.status)
    ensures forall i :: i in r.image.instances ==> i in img.instances
    ensures forall i :: i in img.instances && i !in r.image.instances ==> IsTerminal(i.status)
    ensures r.image == img.(instances := r.image.instances)
    decreases |img.instances|
  {
    if |img.instances| < img.maxInstances then Yes(img)
    else match FirstTerminal(img.instances)
      case None => No(DefaultNegative, img)
      case Some(victim) =>
        UniqueEntry(img.instances, victim);
        RemoveKeepsOthers(img, victim);
        Admit(RemoveInstance(img, victim))
  }

  /** `canStartNewInstanceWithDetails`. */
  function CanStartNewInstance(ref: ImageRef): (r: Admission)
    ensures ref.Foreign? ==> r.No? && r.reason == NotAssociated
    ensures ref.IC? ==> r == Admit(ref.image)
  {
    match ref
    case Foreign => No(NotAssociated, NewImage("", "", Mor("", ""), None, None, 0, [], 0, None, ""))
    case IC(img) => Admit(img)
  }

  /** An image with room is admitted untouched. */
  lemma AdmitWithRoom(img: Image)
    requires |img.instances| < img.maxInstances
    ensures Admit(img) == Yes(img)
  {
  }

  /** A full image with only live instances is refused untouched. */
  lemma AdmitFullOfLiveInstances(img: Image)
    requires |img.instances| >= img.maxInstances
    requires forall i :: i in img.instances ==> !IsTerminal(i.status)
    ensures Admit(img) == No(DefaultNegative, img)
  {
  }

  // ---- adoption ---------------------------------------------------------------------

  /** One entry of a VM's `config.extraConfig`. */
  datatype OptionValue = OptionValue(key: string, value: Option<string>)

  /** A child of the image's instance folder, with the properties adoption
      reads from it: its extras, its name and the read of its recorded start
      time (the message of the exception the read threw, or the value, which
      may be null). */
  datatype Child = Child(mor: Mor, extraConfig: seq<OptionValue>, name: string,
                         startTime: Result<Option<string>, string>)

  /** The value of the first entry with `key`; `None` when there is no such
      entry or the first one holds null. */
  function FirstValue(extra: seq<OptionValue>, key: string): (r: Option<string>)
    ensures r.Some? ==>
      exists i :: 0 <= i < |extra| && extra[i] == OptionValue(key, r) && (forall j :: 0 <= j < i ==> extra[j].key != key)
    ensures r.None? ==> forall i :: 0 <= i < |extra| && extra[i].key == key ==>
      extra[i].value.None? || exists j :: 0 <= j < i && extra[j].key == key
  {
    if |extra| == 0 then None
    else if extra[0].key == key then extra[0].value
    else
      var r := FirstValue(extra[1..], key);
      assert forall i :: 1 <= i < |extra| ==> extra[i] == extra[1..][i - 1];
      if r.Some? then
        var i :| 0 <= i < |extra[1..]| && extra[1..][i] == OptionValue(key, r)
          && forall j :: 0 <= j < i ==> extra[1..][j].key != key;
        assert extra[i + 1] == OptionValue(key, r);
        r
      else r
  }

  /** The uuid a VM is adopted under: the value of its first instance-uuid
      entry, provided some profile-uuid entry equals this client's uuid. */
  function AdoptionUuid(extra: seq<OptionValue>, clientUuid: string): (r: Option<string>)
    ensures r.Some? <==> FirstValue(extra, KeyInstanceUuid).Some? && OptionValue(KeyProfileUuid, Some(clientUuid)) in extra
    ensures r.Some? ==> r == FirstValue(extra, KeyInstanceUuid)
  {
    match FirstValue(extra, KeyInstanceUuid)
    case None => None
    case Some(u) => if OptionValue(KeyProfileUuid, Some(clientUuid)) in extra then Some(u) else None
  }

  /** A folder child that adoption picks up: a VM carrying this profile's marks. */
  predicate Adoptable(child: Child, clientUuid: string) {
    child.mor.kind == VirtualMachineType && AdoptionUuid(child.extraConfig, clientUuid).Some?
  }

  /** Reference definition: the uuids adoption should produce, in folder order. */
  function AdoptedUuids(children: seq<Child>, clientUuid: string): seq<string> {
    if |children| == 0 then []
    else
      var head := if Adoptable(children[0], clientUuid) then [AdoptionUuid(children[0].extraConfig, clientUuid).value] else [];
      head + AdoptedUuids(children[1..], clientUuid)
  }

  function Uuids(s: seq<Instance>): seq<string> {
    if |s| == 0 then [] else [s[0].uuid] + Uuids(s[1..])
  }

  /** Every adoptable child has a start time that parses as a `Long`. */
  predicate StartTimesParse(children: seq<Child>, clientUuid: string) {
    forall k :: 0 <= k < |children| && Adoptable(children[k], clientUuid) ==>
      && children[k].startTime.Success? && children[k].startTime.value.Some?
      && ParseLong(children[k].startTime.value.value).Some?
  }

  datatype Adoption = Adoption(image: Image, adopted: seq<Instance>)

  /** The `mapNotNull` of `setupImage`: each adoptable VM becomes a RUNNING
      instance of the image (`createRunningInstance`); the first unreadable
      start time aborts the whole set-up. */
  function AdoptAll(img: Image, children: seq<Child>, clientUuid: string): (r: Result<Adoption, string>)
    ensures r.Success? <==> StartTimesParse(children, clientUuid)
    ensures r.Success? ==> Uuids(r.value.adopted) == AdoptedUuids(children, clientUuid)
    ensures r.Success? ==> forall i :: i in r.value.adopted ==> i.status == Running && i.vm.Some?
    ensures r.Success? ==> r.value.image == img.(instances := r.value.image.instances)
    ensures r.Success? ==> forall u :: u in AdoptedUuids(children, clientUuid) ==> FindInstanceById(r.value.image, u).Some?
    ensures r.Success? ==> forall u :: u !in AdoptedUuids(children, clientUuid) ==>
      FindInstanceById(r.value.image, u) == FindInstanceById(img, u)
    decreases |children|
  {
    if |children| == 0 then Success(Adoption(img, []))
    else
      var c := children[0];
      assert forall k :: 1 <= k < |children| ==> children[k] == children[1..][k - 1];
      if !Adoptable(c, clientUuid) then
        AdoptAll(img, children[1..], clientUuid)
      else match CreateRunningInstance(img, AdoptionUuid(c.extraConfig, clientUuid).value, c.name, c.mor, c.startTime)
        case Failure(e) => Failure(e)
        case Success(created) =>
          match AdoptAll(created.image, children[1..], clientUuid)
          case Failure(e) => Failure(e)
          case Success(rest) =>
            assert ([created.instance] + rest.adopted)[1..] == rest.adopted;
            Success(Adoption(rest.image, [created.instance] + rest.adopted))
  }

  /** The instances of `adopted` filed one after another under their uuids. */
  function FileAll(m: map<string, Instance>, adopted: seq<Instance>): (r: map<string, Instance>)
    ensures r.Keys == m.Keys + set u | u in Uuids(adopted)
    ensures forall u :: u in m && u !in Uuids(adopted) ==> r[u] == m[u]
    ensures (forall u :: u in m ==> m[u].uuid == u) ==> forall u :: u in r ==> r[u].uuid == u
    decreases |adopted|
  {
    if |adopted| == 0 then m
    else FileAll(m[adopted[0].uuid := adopted[0]], adopted[1..])
  }

  /** `setupImage`: adopt the folder's VMs, file them in the client's
      instance map, and register the image under its id. */
  function SetupImage(c: ClientState, img: Image, children: seq<Child>): (r: Result<ClientState, string>)
    ensures r.Success? <==> StartTimesParse(children, c.uuid)
    ensures r.Success? ==> r.value.uuid == c.uuid
    ensures r.Success? ==> r.value.images.Keys == c.images.Keys + {img.id}
    ensures r.Success? ==> r.value.images[img.id] == img.(instances := r.value.images[img.id].instances)
    ensures r.Success? ==> forall id :: id in c.images && id != img.id ==> r.value.images[id] == c.images[id]
    ensures r.Success? ==> r.value.instances.Keys == c.instances.Keys + set u | u in AdoptedUuids(children, c.uuid)
    ensures r.Success? ==> forall u :: u in AdoptedUuids(children, c.uuid) ==> FindInstanceById(r.value.images[img.id], u).Some?
    ensures r.Success? && WellFiled(c) ==> WellFiled(r.value)
  {
    match AdoptAll(img, children, c.uuid)
    case Failure(e) => Failure(e)
    case Success(a) =>
      Success(c.(instances := FileAll(c.instances, a.adopted), images := c.images[img.id := a.image]))
  }

  // ---- lookups ------------------------------------------------------------------------

  /** `findImageById`. */
  function FindImageById(c: ClientState, id: string): (r: Option<Image>)
    ensures r.Some? <==> id in c.images
    ensures r.Some? ==> r.value == c.images[id]
  {
    if id in c.images then Some(c.images[id]) else None
  }

  /** `findInstanceByAgent`: the instance filed under the uuid the agent
      reports in its configuration parameters. */
  function FindInstanceByAgent(c: ClientState, agentParameters: map<string, string>): (r: Option<Instance>)
    requires WellFiled(c)
    ensures r.Some? <==> exists u :: u in c.instances && ContainsAgent(c.instances[u], agentParameters)
    ensures r.Some? ==> r.value in c.instances.Values && ContainsAgent(r.value, agentParameters)
  {
    if InstanceUuidParameter !in agentParameters then None
    else
      var u := agentParameters[InstanceUuidParameter];
      if u in c.instances then
        assert ContainsAgent(c.instances[u], agentParameters);
        Some(c.instances[u])
      else None
  }

  // ---- starting, restarting, terminating -------------------------------------------------

  datatype Started = Started(instance: Instance, client: ClientState)

  /** `startNewInstance`: the image creates and stores a fresh instance,
      and the client files it under its uuid. */
  function StartNewInstance(c: ClientState, imageId: string, uuid: string, startTime: int): (r: Started)
    requires imageId in c.images
    ensures r.instance.status == ScheduledToStart && r.instance.uuid == uuid && r.instance.imageId == c.images[imageId].id
    ensures r.client.instances == c.instances[uuid := r.instance]
    ensures r.client.images.Keys == c.images.Keys
    ensures FindInstanceById(r.client.images[imageId], uuid) == Some(r.instance)
    ensures forall id :: id in c.images && id != imageId ==> r.client.images[id] == c.images[id]
  {
    var created := CreateFreshInstance(c.images[imageId], uuid, startTime);
    Started(created.instance, c.(images := c.images[imageId := created.image], instances := c.instances[uuid := created.instance]))
  }

  /** An agent that reports the uuid of a just-started instance is matched to it. */
  lemma StartedInstanceIsFoundByAgent(c: ClientState, imageId: string, uuid: string, startTime: int,
                                      agentParameters: map<string, string>)
    requires imageId in c.images && WellFiled(c)
    requires InstanceUuidParameter in agentParameters && agentParameters[InstanceUuidParameter] == uuid
    ensures WellFiled(StartNewInstance(c, imageId, uuid, startTime).client)
    ensures FindInstanceByAgent(StartNewInstance(c, imageId, uuid, startTime).client, agentParameters)
      == Some(StartNewInstance(c, imageId, uuid, startTime).instance)
  {
  }

  const RestartNotSupported: string := "Restart is not supported yet"

  /** `restartInstance` always throws. */
  function RestartInstance(c: ClientState, inst: Instance): (r: Result<ClientState, string>)
    ensures r == Failure(RestartNotSupported)
  {
    Failure(RestartNotSupported)
  }

  // ---- image derivation ------------------------------------------------------------------

  /** An agent pool of the server: its id and name. */
  datatype AgentPool = AgentPool(id: int, name: string)

  const InvalidAgentPool: string := "Invalid agentPool, must be either pool name or id"

  /** The first pool with that name. */
  function PoolByName(pools: seq<AgentPool>, name: string): (r: Option<int>)
    ensures r.Some? ==>
      exists k :: 0 <= k < |pools| && pools[k].name == name && pools[k].id == r.value && (forall j :: 0 <= j < k ==> pools[j].name != name)
    ensures r.None? <==> forall k :: 0 <= k < |pools| ==> pools[k].name != name
  {
    if |pools| == 0 then None
    else if pools[0].name == name then Some(pools[0].id)
    else
      var r := PoolByName(pools[1..], name);
      assert forall k :: 1 <= k < |pools| ==> pools[k] == pools[1..][k - 1];
      if r.Some? then
        var k :| 0 <= k < |pools[1..]| && pools[1..][k].name == name && pools[1..][k].id == r.value
          && forall j :: 0 <= j < k ==> pools[1..][j].name != name;
        assert pools[k + 1].name == name;
        r
      else r
  }

  /** The `when` over the configured `agentPool`: a name resolves to the
      first pool of that name (or to no pool), an integral number is cut to
      its low 32 bits, a fractional one is clamped to the `Int` range, null
      means no pool, anything else is rejected. */
  function ResolveAgentPool(value: AgentPoolValue, pools: seq<AgentPool>): (r: Result<Option<int>, string>)
    ensures r.Failure? <==> value.PoolOther?
    ensures r.Failure? ==> r.error == InvalidAgentPool
    ensures value.PoolNull? ==> r == Success(None)
    ensures value.PoolNumber? ==>
      r.Success? && r.value.Some? && IsInt(r.value.value) && (r.value.value - value.n) % 0x1_0000_0000 == 0
    ensures value.PoolFractional? ==>
      && r.Success? && r.value.Some? && IsInt(r.value.value)
      && (IsInt(value.truncated) ==> r.value.value == value.truncated)
      && (value.truncated > IntMax ==> r.value.value == IntMax)
      && (value.truncated < IntMin ==> r.value.value == IntMin)
    ensures value.PoolName? ==> r.Success? && (r.value.Some? <==> exists k :: 0 <= k < |pools| && pools[k].name == value.name)
  {
    match value
    case PoolName(n) => Success(PoolByName(pools, n))
    case PoolNumber(n) => Success(Some(WrapInt(n)))
    case PoolFractional(t) => Success(Some(ClampInt(t)))
    case PoolNull => Success(None)
    case PoolOther => Failure(InvalidAgentPool)
  }

  /** The inventory paths `findByInventoryPath` resolves. */
  type Inventory = map<string, Mor>

  /** An inventory lookup that yields an object of the given kind. */
  predicate Resolves(inventory: Inventory, path: string, kind: string) {
    path in inventory && inventory[path].kind == kind
  }

  /** The instance folder: the configured one, or the template's parent path. */
  function FolderPath(config: ICImageConfig): (r: string)
    requires '/' in config.template.GetOr("")
    ensures config.instanceFolder.Some? ==> r == config.instanceFolder.value
    ensures config.instanceFolder.None? ==> config.template.value == r + "/" + SubstringAfterLast(config.template.value, '/')
  {
    var t := config.template.GetOr("");
    var sep := LastIndexOf(t, '/');
    assert t == t[..sep] + "/" + t[sep + 1..];
    config.instanceFolder.GetOr(t[..sep])
  }

  /** One step of the client's `init`: checks the configuration against the
      inventory in the source's order and builds the image. */
  function DeriveImage(imageName: string, config: ICImageConfig, inventory: Inventory, pools: seq<AgentPool>): (r: Result<Image, string>)
    ensures '/' !in config.template.GetOr("") ==> r == Failure("invalid template path: " + config.template.GetOr(""))
    ensures r.Success? <==>
      && '/' in config.template.GetOr("")
      && Resolves(inventory, config.template.value, VirtualMachineType)
      && Resolves(inventory, FolderPath(config), FolderType)
      && (config.resourcePool.Some? ==> Resolves(inventory, config.resourcePool.value, ResourcePoolType))
      && !config.agentPool.PoolOther?
    ensures r.Success? ==>
      && r.value.id == imageName && r.value.name == imageName
      && r.value.instanceFolder == inventory[FolderPath(config)]
      && r.value.resourcePool == (if config.resourcePool.Some? then Some(inventory[config.resourcePool.value]) else None)
      && r.value.maxInstances == config.maxInstances && r.value.networks == config.network
      && r.value.shutdownTimeoutSeconds == config.shutdownTimeoutSeconds
      && r.value.agentPool == ResolveAgentPool(config.agentPool, pools).value
      && r.value.imageTemplate == config.template.value
      && r.value.instanceCounter == 0 && r.value.instances == []
  {
    var template := config.template.GetOr("");
    if LastIndexOf(template, '/') == -1 then Failure("invalid template path: " + template)
    else
      var folderPath := FolderPath(config);
      if !Resolves(inventory, template, VirtualMachineType) then Failure("Not a VM: " + template)
      else if !Resolves(inventory, folderPath, FolderType) then Failure("Not a folder: " + folderPath)
      else if config.resourcePool.Some? && !Resolves(inventory, config.resourcePool.value, ResourcePoolType) then
        Failure("ResourcePool not found: " + config.resourcePool.value)
      else match ResolveAgentPool(config.agentPool, pools)
        case Failure(e) => Failure(e)
        case Success(pool) =>
          var rp := if config.resourcePool.Some? then Some(inventory[config.resourcePool.value]) else None;
          Success(NewImage(imageName, imageName, inventory[folderPath], rp, None, config.maxInstances,
                           config.network, config.shutdownTimeoutSeconds, pool, template))
  }

  /** An image entry of the profile. */
  datatype ImageEntry = ImageEntry(name: string, config: ICImageConfig, children: seq<Child>)

  /** The client's `init`: derive and set up every configured image in
      order; the first failure aborts the construction. */
  function Init(uuid: string, entries: seq<ImageEntry>, inventory: Inventory, pools: seq<AgentPool>): (r: Result<ClientState, string>)
    ensures r.Success? ==> r.value.uuid == uuid && WellFiled(r.value)
    ensures r.Success? ==> r.value.images.Keys == set e | e in entries :: e.name
    ensures r.Success? ==> forall e :: e in entries ==> DeriveImage(e.name, e.config, inventory, pools).Success?
    decreases |entries|
  {
    if |entries| == 0 then Success(ClientState(uuid, map[], map[]))
    else
      var prefix := entries[..|entries| - 1];
      var last := entries[|entries| - 1];
      assert entries == prefix + [last];
      match Init(uuid, prefix, inventory, pools)
      case Failure(e) => Failure(e)
      case Success(c) =>
        match DeriveImage(last.name, last.config, inventory, pools)
        case Failure(e) => Failure(e)
        case Success(img) =>
          InitStep(uuid, entries, prefix, last, c, img, inventory, pools);
          SetupImage(c, img, last.children)
  }

  /** What deriving and setting up one entry gives on its own: the image
      with its adopted instances, or the error that aborts `init`. It does
      not depend on the images set up before. */
  function EntryOutcome(e: ImageEntry, uuid: string, inventory: Inventory, pools: seq<AgentPool>): Result<Adoption, string> {
    match DeriveImage(e.name, e.config, inventory, pools)
    case Failure(m) => Failure(m)
    case Success(img) => AdoptAll(img, e.children, uuid)
  }

  /** The outcome of every entry on its own, in entry order. */
  function Outcomes(entries: seq<ImageEntry>, uuid: string, inventory: Inventory, pools: seq<AgentPool>)
    : (os: seq<Result<Adoption, string>>)
    ensures |os| == |entries|
    ensures forall j :: 0 <= j < |entries| ==> os[j] == EntryOutcome(entries[j], uuid, inventory, pools)
  {
    seq(|entries|, j requires 0 <= j < |entries| => EntryOutcome(entries[j], uuid, inventory, pools))
  }

  /** `k` is the first failed outcome. */
  predicate FirstFailure(os: seq<Result<Adoption, string>>, k: int) {
    0 <= k < |os| && os[k].Failure? && forall j :: 0 <= j < k ==> os[j].Success?
  }

  /** No later entry has the same image name. */
  predicate LastOfName(entries: seq<ImageEntry>, k: int) {
    0 <= k < |entries| && forall j :: k < j < |entries| ==> entries[j].name != entries[k].name
  }

  /** One more entry: `init` of the entries before it, then that entry's
      own outcome filed under its name. */
  lemma InitLast(uuid: string, entries: seq<ImageEntry>, inventory: Inventory, pools: seq<AgentPool>)
    requires |entries| > 0
    ensures var last := entries[|entries| - 1];
      var p := Init(uuid, entries[..|entries| - 1], inventory, pools);
      var o := EntryOutcome(last, uuid, inventory, pools);
      var r := Init(uuid, entries, inventory, pools);
      && (p.Failure? ==> r == p)
      && (p.Success? && o.Failure? ==> r == Failure(o.error))
      && (p.Success? && o.Success? ==> r.Success? && r.value.images == p.value.images[last.name := o.value.image])
  {
    var last := entries[|entries| - 1];
    var p := Init(uuid, entries[..|entries| - 1], inventory, pools);
    if p.Success? {
      match DeriveImage(last.name, last.config, inventory, pools)
      case Failure(_) =>
      case Success(img) =>
        assert img.id == last.name;
        assert Init(uuid, entries, inventory, pools) == SetupImage(p.value, img, last.children);
    }
  }

  /** The outcomes of the entries before the last are the outcomes of that prefix. */
  lemma OutcomesPrefix(uuid: string, entries: seq<ImageEntry>, inventory: Inventory, pools: seq<AgentPool>)
    requires |entries| > 0
    ensures Outcomes(entries[..|entries| - 1], uuid, inventory, pools)
         == Outcomes(entries, uuid, inventory, pools)[..|entries| - 1]
  {
  }

  /** `init` fails iff some entry fails on its own, and then with the error
      of the first such entry. */
  lemma {:induction false} InitFailsAtFirstBadEntry(uuid: string, entries: seq<ImageEntry>, inventory: Inventory,
                                                    pools: seq<AgentPool>)
    ensures var r := Init(uuid, entries, inventory, pools);
      var os := Outcomes(entries, uuid, inventory, pools);
      && (r.Failure? <==> exists k :: 0 <= k < |os| && os[k].Failure?)
      && (r.Failure? ==> exists k :: FirstFailure(os, k) && r.error == os[k].error)
    decreases |entries|
  {
    if |entries| > 0 {
      InitFailsAtFirstBadEntry(uuid, entries[..|entries| - 1], inventory, pools);
      InitLast(uuid, entries, inventory, pools);
      OutcomesPrefix(uuid, entries, inventory, pools);
      FirstFailureStep(Outcomes(entries, uuid, inventory, pools),
                       Init(uuid, entries[..|entries| - 1], inventory, pools), Init(uuid, entries, inventory, pools));
    }
  }

  /** The induction step of `InitFailsAtFirstBadEntry`, over the outcomes alone. */
  lemma FirstFailureStep(os: seq<Result<Adoption, string>>, p: Result<ClientState, string>, r: Result<ClientState, string>)
    requires |os| > 0
    requires var q := os[..|os| - 1];
      && (p.Failure? <==> exists k :: 0 <= k < |q| && q[k].Failure?)
      && (p.Failure? ==> exists k :: FirstFailure(q, k) && p.error == q[k].error)
    requires p.Failure? ==> r == p
    requires p.Success? && os[|os| - 1].Failure? ==> r == Failure(os[|os| - 1].error)
    requires p.Success? && os[|os| - 1].Success? ==> r.Success?
    ensures r.Failure? <==> exists k :: 0 <= k < |os| && os[k].Failure?
    ensures r.Failure? ==> exists k :: FirstFailure(os, k) && r.error == os[k].error
  {
    var q := os[..|os| - 1];
    if p.Failure? {
      var k :| FirstFailure(q, k) && p.error == q[k].error;
      assert q[k] == os[k];
      assert FirstFailure(os, k);
    } else {
      forall j | 0 <= j < |q| ensures os[j].Success? {
        assert q[j] == os[j];
      }
      if os[|os| - 1].Failure? {
        assert FirstFailure(os, |os| - 1);
      }
    }
  }

  /** A successful `init` files every configured name with the image its
      last entry of that name derives, holding the instances adopted from
      that entry's folder. */
  lemma {:induction false} InitFilesDerivedImages(uuid: string, entries: seq<ImageEntry>, inventory: Inventory,
                                                  pools: seq<AgentPool>)
    ensures var r := Init(uuid, entries, inventory, pools);
      var os := Outcomes(entries, uuid, inventory, pools);
      r.Success? ==> forall k :: LastOfName(entries, k) ==>
        entries[k].name in r.value.images && os[k].Success? && r.value.images[entries[k].name] == os[k].value.image
    decreases |entries|
  {
    var r := Init(uuid, entries, inventory, pools);
    if |entries| > 0 && r.Success? {
      var prefix := entries[..|entries| - 1];
      InitFilesDerivedImages(uuid, prefix, inventory, pools);
      InitLast(uuid, entries, inventory, pools);
      OutcomesPrefix(uuid, entries, inventory, pools);
      var p := Init(uuid, prefix, inventory, pools);
      FilesStep(entries, Outcomes(entries, uuid, inventory, pools), p.value.images, r.value.images);
    }
  }

  /** The induction step of `InitFilesDerivedImages`, over the outcomes alone. */
  lemma FilesStep(entries: seq<ImageEntry>, os: seq<Result<Adoption, string>>, pm: map<string, Image>, rm: map<string, Image>)
    requires |entries| == |os| > 0
    requires var n := |entries| - 1;
      forall k :: LastOfName(entries[..n], k) ==>
        entries[..n][k].name in pm && os[..n][k].Success? && pm[entries[..n][k].name] == os[..n][k].value.image
    requires os[|os| - 1].Success? && rm == pm[entries[|entries| - 1].name := os[|os| - 1].value.image]
    ensures forall k :: LastOfName(entries, k) ==>
      entries[k].name in rm && os[k].Success? && rm[entries[k].name] == os[k].value.image
  {
    var n := |entries| - 1;
    forall k | LastOfName(entries, k)
      ensures entries[k].name in rm && os[k].Success? && rm[entries[k].name] == os[k].value.image
    {
      if k < n {
        assert entries[..n][k] == entries[k] && os[..n][k] == os[k];
        assert LastOfName(entries[..n], k) by {
          forall j | k < j < n ensures entries[..n][j].name != entries[..n][k].name {
            assert entries[..n][j] == entries[j];
          }
        }
        assert entries[k].name != entries[n].name;
      }
    }
  }

  /** Setting up the next image keeps what `Init` promises of the images so far. */
  lemma InitStep(uuid: string, entries: seq<ImageEntry>, prefix: seq<ImageEntry>, last: ImageEntry,
                 c: ClientState, img: Image, inventory: Inventory, pools: seq<AgentPool>)
    requires entries == prefix + [last]
    requires c.uuid == uuid && WellFiled(c)
    requires c.images.Keys == set e | e in prefix :: e.name
    requires forall e :: e in prefix ==> DeriveImage(e.name, e.config, inventory, pools).Success?
    requires DeriveImage(last.name, last.config, inventory, pools) == Success(img)
    ensures var r := SetupImage(c, img, last.children);
      r.Success? ==>
        && r.value.uuid == uuid && WellFiled(r.value)
        && r.value.images.Keys == (set e | e in entries :: e.name)
        && forall e :: e in entries ==> DeriveImage(e.name, e.config, inventory, pools).Success?
  {
    assert img.id == last.name;
    assert forall e :: e in entries <==> e in prefix || e == last;
    assert (set e | e in entries :: e.name) == (set e | e in prefix :: e.name) + {last.name};
  }
}

=== FILE: clone_family.dfy ===
/** Naming and selection of instant clones ("multiple images").

    A build can ask the running instance to be instant-cloned under the name
    `<image><-suffix>@<millis>`. Clones of one family are the frozen VMs of
    the image's instance folder whose names start with the family prefix and
    carry a positive clone number after an '@'. The newest clone of a
    template that ends with '@' is the one new instances are cloned from,
    and after each successful clone only the two newest clones of the
    family are kept. */
module CloneFamily {
  import opened Wrappers
  import opened Numeric
  import opened Text
  import opened VimTypes

  const MultipleValueSeparator: string := "@"
  const SuffixSeparator: string := "-"
  const TempPrefix: string := "temp-"

  /** How many of the newest clones survive a clean-up. */
  const LeaveMultipleImagesCount: nat := 2

  // ---- clone names -----------------------------------------------------------

  /** A non-empty template-name suffix gets a leading '-' unless it already
      has one; the empty suffix stays empty. */
  function NormalizeSuffix(suffix: string): (r: string)
    ensures suffix == [] ==> r == []
    ensures suffix != [] ==> StartsWith(r, SuffixSeparator)
    ensures StartsWith(suffix, SuffixSeparator) ==> r == suffix
    ensures r == suffix || r == SuffixSeparator + suffix
  {
    if suffix != [] && !StartsWith(suffix, SuffixSeparator) then SuffixSeparator + suffix else suffix
  }

  lemma NormalizeSuffixIdempotent(suffix: string)
    ensures NormalizeSuffix(NormalizeSuffix(suffix)) == NormalizeSuffix(suffix)
  {
    if suffix != [] && !StartsWith(suffix, SuffixSeparator) {
      assert StartsWith(SuffixSeparator + suffix, SuffixSeparator);
    }
  }

  /** The final name of a clone taken at `millis`. */
  function CloneName(imageName: string, suffix: string, millis: int): string {
    imageName + NormalizeSuffix(suffix) + MultipleValueSeparator + IntToString(millis)
  }

  /** The name a clone carries until it has been rebooted and renamed. */
  function TempCloneName(cloneName: string): string {
    TempPrefix + cloneName
  }

  // ---- clone numbers -----------------------------------------------------------

  /** The characters Java's '.' does not match. */
  predicate IsLineTerminator(c: char) {
    c == '\n' || c == '\r' || c == '\U{0085}' || c == '\U{2028}' || c == '\U{2029}'
  }

  /** An '@' at `p` where the pattern `.+?@(\d+)` can match: it has a
      non-line-terminator character before it and a digit after it. */
  predicate MarkerAt(s: string, p: int) {
    1 <= p && p + 1 < |s| && s[p] == '@' && !IsLineTerminator(s[p - 1]) && IsDigit(s[p + 1])
  }

  predicate HasMarker(s: string) {
    exists p :: 0 <= p < |s| && MarkerAt(s, p)
  }

  /** The leftmost marker at or after `from`. */
  function FirstMarker(s: string, from: nat): (r: Option<nat>)
    ensures r.Some? ==> from <= r.value < |s| && MarkerAt(s, r.value)
    ensures r.Some? ==> forall q :: from <= q < r.value ==> !MarkerAt(s, q)
    ensures r.None? ==> forall q :: from <= q < |s| ==> !MarkerAt(s, q)
    decreases |s| - from
  {
    if from >= |s| then None
    else if MarkerAt(s, from) then Some(from)
    else FirstMarker(s, from + 1)
  }

  /** The maximal run of digits starting at `from`. */
  function DigitRun(s: string, from: nat): (r: string)
    requires from <= |s|
    ensures from + |r| <= |s| && r == s[from..from + |r|]
    ensures AllDigits(r)
    ensures from + |r| == |s| || !IsDigit(s[from + |r|])
    decreases |s| - from
  {
    if from < |s| && IsDigit(s[from]) then [s[from]] + DigitRun(s, from + 1) else []
  }

  /** The clone number of a VM name: the digits of the first match of
      `.+?@(\d+)`, read as a Long; 0 when the pattern does not match; the
      Long parse fails when the digits do not fit. */
  function ParseCloneNumber(name: string): (r: Result<nat, string>)
    ensures !HasMarker(name) ==> r == Success(0)
    ensures r.Success? ==> r.value <= LongMax
    ensures r.Success? && r.value > 0 ==> HasMarker(name)
    ensures r.Failure? ==> HasMarker(name)
    ensures HasMarker(name) ==>
      var digits := DigitRun(name, FirstMarker(name, 0).value + 1);
      && (r.Success? <==> DigitsValue(digits) <= LongMax)
      && (r.Success? ==> r.value == DigitsValue(digits))
      && (r.Failure? ==> r.error == "For input string: \"" + digits + "\"")
  {
    match FirstMarker(name, 0)
    case None => Success(0)
    case Some(p) =>
      var digits := DigitRun(name, p + 1);
      var v := DigitsValue(digits);
      if v <= LongMax then Success(v) else Failure("For input string: \"" + digits + "\"")
  }

  /** A clone named with a millisecond stamp reads back as that stamp, as
      long as the image name and suffix hold no '@' and end in a character
      the pattern's '.' accepts. */
  lemma {:induction false} CloneNameParsesBack(imageName: string, suffix: string, millis: int)
    requires 0 <= millis <= LongMax
    requires '@' !in imageName + NormalizeSuffix(suffix)
    requires |imageName + NormalizeSuffix(suffix)| >= 1
    requires !IsLineTerminator((imageName + NormalizeSuffix(suffix))[|imageName + NormalizeSuffix(suffix)| - 1])
    ensures ParseCloneNumber(CloneName(imageName, suffix, millis)) == Success(millis)
  {
    var head := imageName + NormalizeSuffix(suffix);
    var digits := NatToString(millis);
    var s := CloneName(imageName, suffix, millis);
    assert s == head + "@" + digits;
    var p := |head|;
    assert s[p] == '@' && s[p - 1] == head[p - 1] && s[p + 1] == digits[0];
    assert MarkerAt(s, p);
    forall q | 0 <= q < p
      ensures !MarkerAt(s, q)
    {
      assert s[q] == head[q];
    }
    FirstMarkerIsLeftmost(s, 0, p);
    var run := DigitRun(s, p + 1);
    assert s[p + 1..] == digits;
    DigitRunOfTail(s, p + 1);
    assert run == digits;
  }

  /** Wherever the leftmost marker of a name sits, the clone number is the
      run of digits after it: a number that fits in a Long, or the Long
      parse's error naming those digits. */
  lemma ParseCloneNumberAtLeftmostMarker(name: string, p: nat)
    requires MarkerAt(name, p) && forall q :: 0 <= q < p ==> !MarkerAt(name, q)
    ensures var digits := DigitRun(name, p + 1);
      && |digits| >= 1
      && (ParseCloneNumber(name).Success? <==> DigitsValue(digits) <= LongMax)
      && (ParseCloneNumber(name).Success? ==> ParseCloneNumber(name).value == DigitsValue(digits))
      && (ParseCloneNumber(name).Failure? ==> ParseCloneNumber(name).error == "For input string: \"" + digits + "\"")
  {
    FirstMarkerIsLeftmost(name, 0, p);
  }

  lemma {:induction false} FirstMarkerIsLeftmost(s: string, from: nat, p: nat)
    requires from <= p && MarkerAt(s, p)
    requires forall q :: from <= q < p ==> !MarkerAt(s, q)
    ensures FirstMarker(s, from) == Some(p)
    decreases p - from
  {
    if from < p {
      FirstMarkerIsLeftmost(s, from + 1, p);
    }
  }

  /** When everything from `from` to the end is a digit, the run is the whole tail. */
  lemma {:induction false} DigitRunOfTail(s: string, from: nat)
    requires from <= |s| && AllDigits(s[from..])
    ensures DigitRun(s, from) == s[from..]
    decreases |s| - from
  {
    if from < |s| {
      assert IsDigit(s[from..][0]);
      assert s[from + 1..] == s[from..][1..];
      DigitRunOfTail(s, from + 1);
    }
  }

  // ---- family selection ----------------------------------------------------------

  /** A VM of the instance folder: its reference, its name, and the read of
      its `runtime.instantCloneFrozen` flag (a failed read carries the
      exception's message). */
  datatype FolderVm = FolderVm(mor: Mor, name: string, frozen: Result<bool, string>)

  /** A member of a clone family with its clone number. */
  datatype Candidate = Candidate(mor: Mor, name: string, cloneNumber: nat)

  /** The name prefix of a family: core name and suffix, followed by '@'
      unless the image's template already ends with '@'. */
  function FamilyPrefix(core: string, suffix: string, templateEndsWithAt: bool): (r: string)
    ensures StartsWith(r, core + suffix)
    ensures EndsWith(r, MultipleValueSeparator) <==> (templateEndsWithAt ==> EndsWith(core + suffix, MultipleValueSeparator))
  {
    core + suffix + if templateEndsWithAt then "" else MultipleValueSeparator
  }

  datatype Verdict = Skipped | Member(candidate: Candidate) | Broken(message: string)

  /** What the selection pipeline makes of one VM: VMs off the prefix and
      VMs with clone number 0 are skipped before the frozen flag is read;
      an unparsable number or an unreadable flag breaks the selection. */
  function Classify(vm: FolderVm, prefix: string): (r: Verdict)
    ensures r.Member? <==>
      StartsWith(vm.name, prefix) && vm.frozen == Success(true)
      && ParseCloneNumber(vm.name).Success? && ParseCloneNumber(vm.name).value > 0
    ensures r.Member? ==> r.candidate == Candidate(vm.mor, vm.name, ParseCloneNumber(vm.name).value)
    ensures r.Broken? ==> StartsWith(vm.name, prefix) && HasMarker(vm.name)
    ensures r.Broken? <==>
      (StartsWith(vm.name, prefix)
       && (ParseCloneNumber(vm.name).Failure? || (ParseCloneNumber(vm.name).value > 0 && vm.frozen.Failure?)))
    ensures r.Broken? ==>
      (r.message == if ParseCloneNumber(vm.name).Failure? then ParseCloneNumber(vm.name).error else vm.frozen.error)
  {
    if !StartsWith(vm.name, prefix) then Skipped
    else match ParseCloneNumber(vm.name)
      case Failure(e) => Broken(e)
      case Success(n) =>
        if n == 0 then Skipped
        else match vm.frozen
          case Failure(e) => Broken(e)
          case Success(f) => if f then Member(Candidate(vm.mor, vm.name, n)) else Skipped
  }

  /** The candidates of the member VMs, in folder order: the filter-map a
      selection with no broken VM amounts to. */
  function Members(vms: seq<FolderVm>, prefix: string): (r: seq<Candidate>)
    ensures |r| <= |vms|
  {
    if |vms| == 0 then []
    else
      var v := Classify(vms[0], prefix);
      (if v.Member? then [v.candidate] else []) + Members(vms[1..], prefix)
  }

  /** `i` is the first VM of the folder whose classification is broken. */
  predicate FirstBrokenAt(vms: seq<FolderVm>, prefix: string, i: int) {
    && 0 <= i < |vms| && Classify(vms[i], prefix).Broken?
    && forall j :: 0 <= j < i ==> !Classify(vms[j], prefix).Broken?
  }

  /** `getMultipleVMFrozenImages`: the members of the family, in folder
      order; the first broken VM fails the whole selection. */
  function SelectFamily(vms: seq<FolderVm>, prefix: string): (r: Result<seq<Candidate>, string>)
    ensures r.Failure? <==> exists i :: 0 <= i < |vms| && Classify(vms[i], prefix).Broken?
    ensures r.Success? ==> |r.value| <= |vms|
    ensures r.Success? ==> forall c :: c in r.value <==>
      exists i :: 0 <= i < |vms| && Classify(vms[i], prefix) == Member(c)
  {
    if |vms| == 0 then Success([])
    else match Classify(vms[0], prefix)
      case Broken(e) => Failure(e)
      case Skipped =>
        var rest := SelectFamily(vms[1..], prefix);
        assert forall i :: 1 <= i < |vms| ==> vms[i] == vms[1..][i - 1];
        rest
      case Member(c) =>
        match SelectFamily(vms[1..], prefix)
        case Failure(e) =>
          assert forall i :: 1 <= i < |vms| ==> vms[i] == vms[1..][i - 1];
          Failure(e)
        case Success(cs) =>
          assert forall i :: 1 <= i < |vms| ==> vms[i] == vms[1..][i - 1];
          Success([c] + cs)
  }

  /** A first broken VM after an unbroken head is the first broken VM of
      the whole folder, one place later. */
  lemma FirstBrokenShift(vms: seq<FolderVm>, prefix: string)
    requires |vms| > 0 && !Classify(vms[0], prefix).Broken?
    ensures forall i :: FirstBrokenAt(vms[1..], prefix, i) ==>
      FirstBrokenAt(vms, prefix, i + 1) && Classify(vms[i + 1], prefix) == Classify(vms[1..][i], prefix)
  {
    forall i | FirstBrokenAt(vms[1..], prefix, i)
      ensures FirstBrokenAt(vms, prefix, i + 1) && Classify(vms[i + 1], prefix) == Classify(vms[1..][i], prefix)
    {
      forall j | 1 <= j < i + 1 ensures !Classify(vms[j], prefix).Broken? {
        assert vms[j] == vms[1..][j - 1];
      }
    }
  }

  /** A selection that fails carries the error of the first broken VM. */
  lemma {:induction false} SelectFamilyFailsAtFirstBroken(vms: seq<FolderVm>, prefix: string)
    ensures var r := SelectFamily(vms, prefix);
      r.Failure? ==> exists i :: FirstBrokenAt(vms, prefix, i) && r.error == Classify(vms[i], prefix).message
    decreases |vms|
  {
    var r := SelectFamily(vms, prefix);
    if |vms| > 0 && r.Failure? {
      if Classify(vms[0], prefix).Broken? {
        assert FirstBrokenAt(vms, prefix, 0);
      } else {
        SelectFamilyFailsAtFirstBroken(vms[1..], prefix);
        FirstBrokenShift(vms, prefix);
        assert r.error == SelectFamily(vms[1..], prefix).error;
        var i :| FirstBrokenAt(vms[1..], prefix, i) && r.error == Classify(vms[1..][i], prefix).message;
        assert FirstBrokenAt(vms, prefix, i + 1);
      }
    }
  }

  /** A selection that succeeds yields exactly the members, in folder
      order, each once per VM it came from. */
  lemma {:induction false} SelectFamilyIsMembers(vms: seq<FolderVm>, prefix: string)
    ensures SelectFamily(vms, prefix).Success? ==> SelectFamily(vms, prefix).value == Members(vms, prefix)
    decreases |vms|
  {
    if |vms| > 0 {
      SelectFamilyIsMembers(vms[1..], prefix);
    }
  }

  /** Kotlin `maxBy { it.cloneNumber }`: the first candidate with the
      largest clone number. */
  function LatestClone(cs: seq<Candidate>): (r: Option<Candidate>)
    ensures r.None? <==> |cs| == 0
    ensures r.Some? ==> forall j :: 0 <= j < |cs| ==> cs[j].cloneNumber <= r.value.cloneNumber
    ensures r.Some? ==>
      exists i :: 0 <= i < |cs| && cs[i] == r.value
        && (forall j :: 0 <= j < i ==> cs[j].cloneNumber < r.value.cloneNumber)
  {
    if |cs| == 0 then None
    else match LatestClone(cs[1..])
      case None => Some(cs[0])
      case Some(m) =>
        assert forall j :: 1 <= j < |cs| ==> cs[j] == cs[1..][j - 1];
        if m.cloneNumber > cs[0].cloneNumber then
          var i :| 0 <= i < |cs[1..]| && cs[1..][i] == m
            && forall j :: 0 <= j < i ==> cs[1..][j].cloneNumber < m.cloneNumber;
          assert cs[i + 1] == m;
          Some(m)
        else Some(cs[0])
  }

  /** `getImageTemplateMOR`. A template not ending with '@' is an inventory
      path that must resolve to a virtual machine; one ending with '@' names
      a family (the text after its last '/'), and the newest frozen clone of
      that family is the template. `lookup` is the inventory search, which
      may throw. */
  function ImageTemplateMor(template: string, lookup: Result<Option<Mor>, string>, folder: seq<FolderVm>)
    : (r: Result<Mor, string>)
    ensures !EndsWith(template, MultipleValueSeparator) ==>
      (r.Success? <==> lookup.Success? && lookup.value.Some? && lookup.value.value.kind == VirtualMachineType)
    ensures !EndsWith(template, MultipleValueSeparator) && r.Success? ==> r == Success(lookup.value.value)
    ensures !EndsWith(template, MultipleValueSeparator) && lookup.Success? && r.Failure? ==>
      r.error == "Not a VM: " + template
    ensures EndsWith(template, MultipleValueSeparator) ==>
      var family := SelectFamily(folder, FamilyPrefix(SubstringAfterLast(template, '/'), "", true));
      && (r.Success? <==> family.Success? && |family.value| > 0)
      && (r.Success? ==>
            exists c :: c in family.value && c.mor == r.value
              && (forall d :: d in family.value ==> d.cloneNumber <= c.cloneNumber))
  {
    if !EndsWith(template, MultipleValueSeparator) then
      match lookup
      case Failure(e) => Failure(e)
      case Success(found) =>
        if found.None? || found.value.kind != VirtualMachineType then Failure("Not a VM: " + template)
        else Success(found.value)
    else
      match SelectFamily(folder, FamilyPrefix(SubstringAfterLast(template, '/'), "", true))
      case Failure(e) => Failure(e)
      case Success(family) =>
        match LatestClone(family)
        case None => Failure("Not found a VM for template " + template)
        case Some(c) => Success(c.mor)
  }

  /** A clone made by this plug-in, once frozen, belongs to the family its
      own clean-up searches, whichever way the image's template is written. */
  lemma NewCloneJoinsItsFamily(imageName: string, suffix: string, millis: int, templateEndsWithAt: bool, mor: Mor)
    requires 0 < millis <= LongMax
    requires '@' !in imageName + NormalizeSuffix(suffix)
    requires |imageName + NormalizeSuffix(suffix)| >= 1
    requires !IsLineTerminator((imageName + NormalizeSuffix(suffix))[|imageName + NormalizeSuffix(suffix)| - 1])
    ensures Classify(FolderVm(mor, CloneName(imageName, suffix, millis), Success(true)),
                     FamilyPrefix(imageName, NormalizeSuffix(suffix), templateEndsWithAt))
         == Member(Candidate(mor, CloneName(imageName, suffix, millis), millis))
  {
    CloneNameParsesBack(imageName, suffix, millis);
    CloneNameHasFamilyPrefix(imageName, suffix, millis, templateEndsWithAt);
  }

  lemma CloneNameHasFamilyPrefix(imageName: string, suffix: string, millis: int, templateEndsWithAt: bool)
    ensures StartsWith(CloneName(imageName, suffix, millis), FamilyPrefix(imageName, NormalizeSuffix(suffix), templateEndsWithAt))
  {
    var core := imageName + NormalizeSuffix(suffix);
    var digits := IntToString(millis);
    assert CloneName(imageName, suffix, millis) == (core + MultipleValueSeparator) + digits;
    if templateEndsWithAt {
      assert FamilyPrefix(imageName, NormalizeSuffix(suffix), templateEndsWithAt) == core;
      assert (core + MultipleValueSeparator) + digits == core + (MultipleValueSeparator + digits);
      PrefixOfConcat(core, MultipleValueSeparator + digits);
    } else {
      assert FamilyPrefix(imageName, NormalizeSuffix(suffix), templateEndsWithAt) == core + MultipleValueSeparator;
      PrefixOfConcat(core + MultipleValueSeparator, digits);
    }
  }

  lemma PrefixOfConcat(a: string, b: string)
    ensures StartsWith(a + b, a)
  {
    assert (a + b)[..|a|] == a;
  }

  // ---- retention ---------------------------------------------------------------

  predicate SortedDesc(s: seq<Candidate>) {
    forall i, j :: 0 <= i < j < |s| ==> s[i].cloneNumber >= s[j].cloneNumber
  }

  /** Inserts `c` before the first element it is not smaller than; on a tie
      `c` goes first, which keeps the sort stable. */
  function InsertDesc(c: Candidate, s: seq<Candidate>): (r: seq<Candidate>)
    requires SortedDesc(s)
    ensures SortedDesc(r)
    ensures multiset(r) == multiset(s) + multiset{c}
    ensures |r| == |s| + 1
    ensures r[0] == c || (|s| > 0 && r[0] == s[0])
  {
    if |s| == 0 || c.cloneNumber >= s[0].cloneNumber then [c] + s
    else
      var rest := InsertDesc(c, s[1..]);
      assert s == [s[0]] + s[1..];
      assert rest[0].cloneNumber <= s[0].cloneNumber;
      [s[0]] + rest
  }

  /** Kotlin `sortedByDescending { it.cloneNumber }`. */
  function SortDesc(s: seq<Candidate>): (r: seq<Candidate>)
    ensures SortedDesc(r)
    ensures multiset(r) == multiset(s)
    ensures |r| == |s|
  {
    if |s| == 0 then []
    else
      assert s == [s[0]] + s[1..];
      InsertDesc(s[0], SortDesc(s[1..]))
  }

  /** The members of `s` with clone number `n`, in their order in `s`. */
  function WithNumber(s: seq<Candidate>, n: nat): (r: seq<Candidate>)
    ensures forall i :: 0 <= i < |r| ==> r[i].cloneNumber == n && r[i] in s
  {
    if |s| == 0 then []
    else (if s[0].cloneNumber == n then [s[0]] else []) + WithNumber(s[1..], n)
  }

  /** The members of `[x] + t` with clone number `n`. */
  lemma WithNumberCons(x: Candidate, t: seq<Candidate>, n: nat)
    ensures WithNumber([x] + t, n) == (if x.cloneNumber == n then [x] else []) + WithNumber(t, n)
  {
    assert ([x] + t)[1..] == t;
  }

  /** Inserting `c` adds it in front of the others of its clone number. */
  lemma {:induction false} InsertDescWithNumber(c: Candidate, t: seq<Candidate>, n: nat)
    requires SortedDesc(t)
    ensures WithNumber(InsertDesc(c, t), n) == (if c.cloneNumber == n then [c] else []) + WithNumber(t, n)
  {
    if |t| == 0 || c.cloneNumber >= t[0].cloneNumber {
      WithNumberCons(c, t, n);
    } else {
      var rest := InsertDesc(c, t[1..]);
      InsertDescWithNumber(c, t[1..], n);
      WithNumberCons(t[0], rest, n);
      WithNumberCons(t[0], t[1..], n);
      assert t == [t[0]] + t[1..];
    }
  }

  /** The sort is stable: clones with the same clone number keep the order
      they were listed in. */
  lemma {:induction false} SortDescStable(s: seq<Candidate>, n: nat)
    ensures WithNumber(SortDesc(s), n) == WithNumber(s, n)
  {
    if |s| > 0 {
      SortDescStable(s[1..], n);
      InsertDescWithNumber(s[0], SortDesc(s[1..]), n);
    }
  }

  /** The clones a clean-up keeps: the two newest. */
  function Kept(family: seq<Candidate>): seq<Candidate> {
    var sorted := SortDesc(family);
    if |sorted| <= LeaveMultipleImagesCount then sorted else sorted[..LeaveMultipleImagesCount]
  }

  /** The clones a clean-up destroys, newest first: `drop(2)` of the sorted family. */
  function Doomed(family: seq<Candidate>): seq<Candidate> {
    var sorted := SortDesc(family);
    if |sorted| <= LeaveMultipleImagesCount then [] else sorted[LeaveMultipleImagesCount..]
  }

  /** The clean-up partitions the family, keeps as many clones as it can up
      to two, and never destroys a clone newer than one it keeps. */
  lemma {:induction false} RetentionKeepsNewest(family: seq<Candidate>)
    ensures |Kept(family)| == if |family| < LeaveMultipleImagesCount then |family| else LeaveMultipleImagesCount
    ensures multiset(Kept(family)) + multiset(Doomed(family)) == multiset(family)
    ensures forall k, d :: k in Kept(family) && d in Doomed(family) ==> d.cloneNumber <= k.cloneNumber
    ensures SortedDesc(Doomed(family))
  {
    var sorted := SortDesc(family);
    if |sorted| > LeaveMultipleImagesCount {
      assert sorted == sorted[..LeaveMultipleImagesCount] + sorted[LeaveMultipleImagesCount..];
      forall k, d | k in Kept(family) && d in Doomed(family)
        ensures d.cloneNumber <= k.cloneNumber
      {
        var a :| 0 <= a < LeaveMultipleImagesCount && sorted[a] == k;
        var b :| 0 <= b < |sorted| - LeaveMultipleImagesCount && sorted[LeaveMultipleImagesCount..][b] == d;
        assert sorted[LeaveMultipleImagesCount + b] == d;
      }
    }
  }

  /** A clone strictly newer than every other member of its family survives
      the clean-up; listed once, it is not destroyed either. */
  lemma {:induction false} NewestCloneSurvives(family: seq<Candidate>, c: Candidate)
    requires c in family
    requires forall d :: d in family && d != c ==> d.cloneNumber < c.cloneNumber
    ensures c in Kept(family)
    ensures multiset(family)[c] == 1 ==> c !in Doomed(family)
  {
    RetentionKeepsNewest(family);
    var sorted := SortDesc(family);
    assert c in multiset(sorted);
    var j :| 0 <= j < |sorted| && sorted[j] == c;
    assert sorted[0] in multiset(family);
    assert c.cloneNumber <= sorted[0].cloneNumber;
    assert sorted[0] == c;
    assert Kept(family)[0] == c;
    assert multiset(Kept(family))[c] >= 1;
  }

  /** A folder VM whose clone number beats every other member of the
      family survives the clean-up. */
  lemma NewestInFolderIsKept(folder: seq<FolderVm>, prefix: string, family: seq<Candidate>, i: nat, c: Candidate)
    requires i < |folder| && Classify(folder[i], prefix) == Member(c)
    requires forall j :: 0 <= j < |folder| && folder[j].mor == c.mor ==> j == i
    requires SelectFamily(folder, prefix) == Success(family)
    requires forall d :: d in family && d.mor != c.mor ==> d.cloneNumber < c.cloneNumber
    ensures c in Kept(family)
  {
    assert c in family;
    forall d | d in family && d != c
      ensures d.cloneNumber < c.cloneNumber
    {
      var j :| 0 <= j < |folder| && Classify(folder[j], prefix) == Member(d);
      assert j != i;
      assert d.mor == folder[j].mor != c.mor;
    }
    NewestCloneSurvives(family, c);
  }

  function Reverse(s: seq<Candidate>): (r: seq<Candidate>)
    ensures |r| == |s| && forall i :: 0 <= i < |s| ==> r[i] == s[|s| - 1 - i]
  {
    seq(|s|, i requires 0 <= i < |s| => s[|s| - 1 - i])
  }

  lemma ReverseCons(s: seq<Candidate>)
    requires |s| > 0
    ensures Reverse(s) == Reverse(s[1..]) + [s[0]]
  {
    var l, r := Reverse(s), Reverse(s[1..]) + [s[0]];
    assert forall i :: 0 <= i < |s| ==> l[i] == r[i];
  }

  predicate StrictlyAscending(s: seq<Candidate>) {
    forall i, j :: 0 <= i < j < |s| ==> s[i].cloneNumber < s[j].cloneNumber
  }

  lemma {:induction false} InsertBelowAll(c: Candidate, t: seq<Candidate>)
    requires SortedDesc(t)
    requires forall i :: 0 <= i < |t| ==> c.cloneNumber < t[i].cloneNumber
    ensures InsertDesc(c, t) == t + [c]
  {
    if |t| > 0 {
      InsertBelowAll(c, t[1..]);
      assert t == [t[0]] + t[1..];
    }
  }

  /** A family listed oldest first comes out of the sort newest first. */
  lemma {:induction false} SortAscendingIsReverse(s: seq<Candidate>)
    requires StrictlyAscending(s)
    ensures SortDesc(s) == Reverse(s)
  {
    if |s| > 0 {
      SortAscendingIsReverse(s[1..]);
      InsertBelowAll(s[0], Reverse(s[1..]));
      ReverseCons(s);
    }
  }

  /** Reversing puts the last two elements first and the rest, reversed, after them. */
  lemma ReverseSplit(s: seq<Candidate>)
    requires |s| >= 2
    ensures Reverse(s)[..2] == [s[|s| - 1], s[|s| - 2]]
    ensures Reverse(s)[2..] == Reverse(s[..|s| - 2])
  {
    var r := Reverse(s);
    var d := Reverse(s[..|s| - 2]);
    assert forall i :: 0 <= i < |d| ==> r[2..][i] == d[i];
  }

  /** A family listed oldest first keeps its last two members, newest
      first, and destroys the rest, newest first. */
  lemma KeptOfAscending(s: seq<Candidate>)
    requires StrictlyAscending(s) && |s| > LeaveMultipleImagesCount
    ensures Kept(s) == [s[|s| - 1], s[|s| - 2]]
    ensures Doomed(s) == Reverse(s[..|s| - 2])
  {
    SortAscendingIsReverse(s);
    ReverseSplit(s);
  }

  /** Seven frozen clones numbered 1 to 7, listed oldest first: the clean-up
      keeps 7 and 6 and destroys 5 down to 1, newest first. */
  lemma SevenClonesKeepTwo(family: seq<Candidate>)
    requires |family| == 7 && forall i :: 0 <= i < 7 ==> family[i].cloneNumber == i + 1
    ensures Kept(family) == [family[6], family[5]]
    ensures Doomed(family) == [family[4], family[3], family[2], family[1], family[0]]
  {
    assert StrictlyAscending(family);
    KeptOfAscending(family);
    var d := Reverse(family[..5]);
    assert d[0] == family[4] && d[1] == family[3] && d[2] == family[2] && d[3] == family[1] && d[4] == family[0];
  }
}

=== FILE: clone_job.dfy ===
/** `createClone` and the clone job it launches (`doClone`): instant-clone
    the running instance's VM under a temporary name, reset it, rename it to
    its final clone name, wait until it is frozen, then destroy all but the
    two newest clones of its family.

    A failure is an exception with a chain of causes, outermost first; the
    build log and the agent see the innermost one. */
module CloneJob {
  import opened Wrappers
  import opened Numeric
  import opened Text
  import opened VimTypes
  import opened InstanceState
  import opened CloudImage
  import opened Polling
  import opened CloneFamily
  import opened Lifecycle

  /** `createClone`: a clone job is launched only for an instance that has a
      VM and is RUNNING; otherwise no job (null) is returned. */
  function CreateClone(inst: Instance): (launched: bool)
    ensures launched ==> inst.vm.Some?
    ensures launched <==> inst.vm.Some? && inst.status == Running
  {
    if inst.vm.None? then false
    else inst.status == Running
  }

  /** Everything the clone job observes, in the order it happens. */
  datatype CloneScript = CloneScript(
    millis: int,                        // System.currentTimeMillis() when the job starts
    statusAtIssue: Status,              // the instance status when the clone is requested
    issueClone: Call,                   // reading the source's devices and requesting the clone
    cloneTask: seq<TaskRead<Mor>>,
    issueReset: Call,
    resetTask: seq<TaskRead<()>>,
    issueRename: Call,
    renameTask: seq<TaskRead<()>>,
    freeze: seq<Option<bool>>,
    folder: Result<seq<FolderVm>, string>,  // the instance folder's VMs, listed when cleaning up
    destroys: seq<PowerOffScript>)      // one per VM destroyed, in order

  datatype CloneOutcome =
    | CloneSucceeded(cloneName: string, clone: Mor, destroyed: seq<Candidate>)
    | CloneFailed(causes: seq<string>)
    | CloneInProgress

  /** The message the build log and the agent see: the innermost cause. */
  function RootCause(causes: seq<string>): string
    requires |causes| > 0
  {
    causes[|causes| - 1]
  }

  // ---- clean-up ------------------------------------------------------------------

  datatype DestroyEnd = AllDestroyed | DestroyFailed(index: nat, message: string) | DestroyPending

  /** The destruction of `doomed[i]` threw, and every one from `k` up to it went through. */
  predicate FailsFirstFrom(doomed: seq<Candidate>, scripts: seq<PowerOffScript>, k: nat, i: nat)
    requires i < |doomed| && i < |scripts|
  {
    && PowerOff(Some(doomed[i].mor), scripts[i]).Some? && PowerOff(Some(doomed[i].mor), scripts[i]).value.Throws?
    && forall j :: k <= j < i ==> PowerOff(Some(doomed[j].mor), scripts[j]) == Some(Ok)
  }

  /** The destruction of `doomed[i]` is the first one that threw. */
  predicate FailsFirstAt(doomed: seq<Candidate>, scripts: seq<PowerOffScript>, i: nat)
    requires i < |doomed| && i < |scripts|
  {
    FailsFirstFrom(doomed, scripts, 0, i)
  }

  /** Destroys the doomed clones in order; the first failure stops the job. */
  function DestroyAll(doomed: seq<Candidate>, scripts: seq<PowerOffScript>): (r: DestroyEnd)
    ensures r.AllDestroyed? <==>
      |doomed| <= |scripts| && forall i :: 0 <= i < |doomed| ==> PowerOff(Some(doomed[i].mor), scripts[i]) == Some(Ok)
    ensures r.DestroyFailed? ==>
      && r.index < |doomed| && r.index < |scripts|
      && PowerOff(Some(doomed[r.index].mor), scripts[r.index]) == Some(Throws(r.message))
      && forall i :: 0 <= i < r.index ==> PowerOff(Some(doomed[i].mor), scripts[i]) == Some(Ok)
    ensures forall i :: 0 <= i < |doomed| && i < |scripts| && FailsFirstAt(doomed, scripts, i) ==>
      r == DestroyFailed(i, PowerOff(Some(doomed[i].mor), scripts[i]).value.message)
    ensures r.DestroyFailed? <==> exists i :: 0 <= i < |doomed| && i < |scripts| && FailsFirstAt(doomed, scripts, i)
  {
    var d := DestroyFrom(doomed, scripts, 0);
    if d.DestroyFailed? then assert FailsFirstAt(doomed, scripts, d.index); d else d
  }

  /** `DestroyAll` from the `k`-th doomed clone on. */
  function DestroyFrom(doomed: seq<Candidate>, scripts: seq<PowerOffScript>, k: nat): (r: DestroyEnd)
    requires k <= |doomed| && k <= |scripts|
    ensures r.AllDestroyed? <==>
      |doomed| <= |scripts| && forall i :: k <= i < |doomed| ==> PowerOff(Some(doomed[i].mor), scripts[i]) == Some(Ok)
    ensures r.DestroyFailed? ==>
      && k <= r.index < |doomed| && r.index < |scripts|
      && PowerOff(Some(doomed[r.index].mor), scripts[r.index]) == Some(Throws(r.message))
      && forall i :: k <= i < r.index ==> PowerOff(Some(doomed[i].mor), scripts[i]) == Some(Ok)
    ensures forall i :: k <= i < |doomed| && i < |scripts| && FailsFirstFrom(doomed, scripts, k, i) ==>
      r == DestroyFailed(i, PowerOff(Some(doomed[i].mor), scripts[i]).value.message)
    decreases |doomed| - k
  {
    if k == |doomed| then AllDestroyed
    else if k == |scripts| then DestroyPending
    else match PowerOff(Some(doomed[k].mor), scripts[k])
      case None => DestroyPending
      case Some(Throws(m)) => DestroyFailed(k, m)
      case Some(Ok) => DestroyFrom(doomed, scripts, k + 1)
  }

  /** The family the clean-up lists from the folder's VMs. */
  function FamilyOf(img: Image, sepSuffix: string, vms: seq<FolderVm>): Result<seq<Candidate>, string> {
    SelectFamily(vms, FamilyPrefix(img.name, sepSuffix, EndsWith(img.imageTemplate, MultipleValueSeparator)))
  }

  /** The clean-up went through: the folder was listed, its family
      selected, and every doomed clone destroyed. */
  predicate CleanUpDone(img: Image, sepSuffix: string, s: CloneScript) {
    && s.folder.Success? && FamilyOf(img, sepSuffix, s.folder.value).Success?
    && DestroyAll(Doomed(FamilyOf(img, sepSuffix, s.folder.value).value), s.destroys).AllDestroyed?
  }

  /** The clean-up is still destroying when its scripts end. */
  predicate CleanUpPending(img: Image, sepSuffix: string, s: CloneScript) {
    && s.folder.Success? && FamilyOf(img, sepSuffix, s.folder.value).Success?
    && DestroyAll(Doomed(FamilyOf(img, sepSuffix, s.folder.value).value), s.destroys).DestroyPending?
  }

  /** `searchCleanAndDestroyVM`: the family of the image name plus the
      normalised suffix, sorted newest first, all but two destroyed. The
      first failure (listing the folder, selecting the family, destroying a
      clone) is the exception it throws. */
  function SearchCleanAndDestroy(img: Image, sepSuffix: string, s: CloneScript): (r: Result<Option<seq<Candidate>>, string>)
    ensures r.Success? && r.value.Some? <==> CleanUpDone(img, sepSuffix, s)
    ensures r.Success? && r.value.Some? ==> r.value.value == Doomed(FamilyOf(img, sepSuffix, s.folder.value).value)
    ensures r == Success(None) <==> CleanUpPending(img, sepSuffix, s)
    ensures r.Failure? <==>
      || s.folder.Failure?
      || FamilyOf(img, sepSuffix, s.folder.value).Failure?
      || DestroyAll(Doomed(FamilyOf(img, sepSuffix, s.folder.value).value), s.destroys).DestroyFailed?
    ensures s.folder.Failure? ==> r == Failure(s.folder.error)
    ensures s.folder.Success? && FamilyOf(img, sepSuffix, s.folder.value).Failure? ==>
      r == Failure(FamilyOf(img, sepSuffix, s.folder.value).error)
    ensures s.folder.Success? && FamilyOf(img, sepSuffix, s.folder.value).Success? ==>
      var d := DestroyAll(Doomed(FamilyOf(img, sepSuffix, s.folder.value).value), s.destroys);
      d.DestroyFailed? ==> r == Failure(d.message)
  {
    match s.folder
    case Failure(e) => Failure(e)
    case Success(vms) =>
      match FamilyOf(img, sepSuffix, vms)
      case Failure(e) => Failure(e)
      case Success(family) =>
        match DestroyAll(Doomed(family), s.destroys)
        case AllDestroyed => Success(Some(Doomed(family)))
        case DestroyFailed(_, m) => Failure(m)
        case DestroyPending => Success(None)
  }

  // ---- the job -------------------------------------------------------------------

  /** The identification the job's messages use. */
  function Ident(instanceName: string, img: Image): string {
    instanceName + "/" + img.imageTemplate
  }

  /** The reset of the new VM went through: requested, and its task completed. */
  predicate ResetDone(s: CloneScript) {
    s.issueReset.Ok? && WaitForTask(s.resetTask).Done?
  }

  /** The rename was requested and its task has settled, whichever way. */
  predicate RenameSettled(s: CloneScript) {
    s.issueRename.Ok? && !WaitForTask(s.renameTask).StillWaiting?
  }

  /** Every step from the clone task to the freeze wait went through. */
  predicate CloneReady(name: string, s: CloneScript) {
    WaitForTask(s.cloneTask).Done? && ResetDone(s) && RenameSettled(s) && WaitForFreeze(name, s.freeze).Frozen?
  }

  /** One of those steps is still waiting when its script ends. */
  predicate IssuedStepsPending(name: string, s: CloneScript) {
    var cloned := WaitForTask(s.cloneTask).Done?;
    || WaitForTask(s.cloneTask).StillWaiting?
    || (cloned && s.issueReset.Ok? && WaitForTask(s.resetTask).StillWaiting?)
    || (cloned && ResetDone(s) && s.issueRename.Ok? && WaitForTask(s.renameTask).StillWaiting?)
    || (cloned && ResetDone(s) && RenameSettled(s) && WaitForFreeze(name, s.freeze).FreezePending?)
  }

  /** Everything from the clone task to the freeze wait runs under one
      handler that wraps any failure as "Failed to run clone Task"; a
      failure of the reset is wrapped once more by `rebootVm`, and a failed
      rename task is only logged. */
  function AfterCloneIssued(instanceName: string, img: Image, temp: string, name: string, s: CloneScript)
    : (r: Result<Option<Mor>, seq<string>>)
    ensures r.Success? && r.value.Some? <==> CloneReady(name, s)
    ensures r.Success? && r.value.Some? ==> r.value.value == WaitForTask(s.cloneTask).result
    ensures r == Success(None) <==> IssuedStepsPending(name, s)
    ensures r.Failure? ==> |r.error| >= 2 && r.error[0] == "Failed to run clone Task (" + temp + ")"
    ensures WaitForTask(s.cloneTask).Raised? ==>
      r == Failure(["Failed to run clone Task (" + temp + ")", WaitForTask(s.cloneTask).message])
    ensures WaitForTask(s.cloneTask).Done? && s.issueReset.Throws? ==>
      r == Failure(["Failed to run clone Task (" + temp + ")",
                    "Failed to process  resetTask for cloudInstance " + Ident(instanceName, img),
                    "Failed to reset VM (" + temp + ")", s.issueReset.message])
    ensures WaitForTask(s.cloneTask).Done? && s.issueReset.Ok? && WaitForTask(s.resetTask).Raised? ==>
      r == Failure(["Failed to run clone Task (" + temp + ")",
                    "Failed to process  resetTask for cloudInstance " + Ident(instanceName, img),
                    WaitForTask(s.resetTask).message])
    ensures WaitForTask(s.cloneTask).Done? && ResetDone(s) && s.issueRename.Throws? ==>
      r == Failure(["Failed to run clone Task (" + temp + ")",
                    "Failed to run rename (" + temp + " into " + name + ")", s.issueRename.message])
    ensures WaitForTask(s.cloneTask).Done? && ResetDone(s) && RenameSettled(s) ==>
      var f := WaitForFreeze(name, s.freeze);
      && (f.FreezeReadFailed? ==> r == Failure(["Failed to run clone Task (" + temp + ")", FreezeReadMessage(name)]))
      && (f.NotFrozenInTime? ==>
            r == Failure(["Failed to run clone Task (" + temp + ")", "VM not freezed in timelimit - timeout waiting - " + name]))
  {
    var wrap := "Failed to run clone Task (" + temp + ")";
    var resetWrap := "Failed to process  resetTask for cloudInstance " + Ident(instanceName, img);
    match WaitForTask(s.cloneTask)
    case StillWaiting => Success(None)
    case Raised(m, _) => Failure([wrap, m])
    case Done(newVm, _) =>
      if s.issueReset.Throws? then Failure([wrap, resetWrap, "Failed to reset VM (" + temp + ")", s.issueReset.message])
      else match AwaitTask(s.resetTask)
        case None => Success(None)
        case Some(Throws(m)) => Failure([wrap, resetWrap, m])
        case Some(Ok) =>
          if s.issueRename.Throws? then
            Failure([wrap, "Failed to run rename (" + temp + " into " + name + ")", s.issueRename.message])
          else if AwaitTask(s.renameTask).None? then Success(None)
          else match WaitForFreeze(name, s.freeze)
            case Frozen(_) => Success(Some(newVm))
            case FreezePending => Success(None)
            case FreezeReadFailed(m) => Failure([wrap, m])
            case NotFrozenInTime => Failure([wrap, "VM not freezed in timelimit - timeout waiting - " + name])
  }

  /** The clone was requested: the instance was RUNNING and the request
      went through. */
  predicate Issued(s: CloneScript) {
    s.statusAtIssue == Running && s.issueClone.Ok?
  }

  /** `doClone` for the instance called `instanceName`. */
  function DoClone(instanceName: string, img: Image, suffix: string, s: CloneScript): (r: CloneOutcome)
    ensures var name := CloneName(img.name, suffix, s.millis);
      r.CloneSucceeded? <==> Issued(s) && CloneReady(name, s) && CleanUpDone(img, NormalizeSuffix(suffix), s)
    ensures r.CloneSucceeded? ==>
      && r.cloneName == CloneName(img.name, suffix, s.millis)
      && r.clone == WaitForTask(s.cloneTask).result
      && r.destroyed == Doomed(FamilyOf(img, NormalizeSuffix(suffix), s.folder.value).value)
    ensures var name := CloneName(img.name, suffix, s.millis);
      r.CloneInProgress? <==>
        Issued(s) && (IssuedStepsPending(name, s) || (CloneReady(name, s) && CleanUpPending(img, NormalizeSuffix(suffix), s)))
    ensures s.statusAtIssue != Running ==>
      r == CloneFailed(["Cannot create instaClone, instance '" + Ident(instanceName, img) + "' is not in the state RUNNING"])
    ensures s.statusAtIssue == Running && s.issueClone.Throws? ==>
      r == CloneFailed(["Failed to run instaClone Task (" + TempCloneName(CloneName(img.name, suffix, s.millis)) + ")",
                        s.issueClone.message])
    ensures var name := CloneName(img.name, suffix, s.millis);
      var after := AfterCloneIssued(instanceName, img, TempCloneName(name), name, s);
      Issued(s) && after.Failure? ==> r == CloneFailed(after.error)
    ensures var name := CloneName(img.name, suffix, s.millis);
      var sep := NormalizeSuffix(suffix);
      Issued(s) && CloneReady(name, s) ==>
        && (s.folder.Failure? ==> r == CloneFailed([s.folder.error]))
        && (s.folder.Success? && FamilyOf(img, sep, s.folder.value).Failure? ==>
              r == CloneFailed([FamilyOf(img, sep, s.folder.value).error]))
        && (s.folder.Success? && FamilyOf(img, sep, s.folder.value).Success? ==>
              var d := DestroyAll(Doomed(FamilyOf(img, sep, s.folder.value).value), s.destroys);
              d.DestroyFailed? ==> r == CloneFailed([d.message]))
    ensures r.CloneFailed? ==> |r.causes| >= 1
  {
    var sep := NormalizeSuffix(suffix);
    var name := CloneName(img.name, suffix, s.millis);
    var temp := TempCloneName(name);
    if s.statusAtIssue != Running then
      CloneFailed(["Cannot create instaClone, instance '" + Ident(instanceName, img) + "' is not in the state RUNNING"])
    else if s.issueClone.Throws? then
      CloneFailed(["Failed to run instaClone Task (" + temp + ")", s.issueClone.message])
    else match AfterCloneIssued(instanceName, img, temp, name, s)
      case Failure(causes) => CloneFailed(causes)
      case Success(None) => CloneInProgress
      case Success(Some(newVm)) =>
        match SearchCleanAndDestroy(img, sep, s)
        case Failure(m) => CloneFailed([m])
        case Success(None) => CloneInProgress
        case Success(Some(destroyed)) => CloneSucceeded(name, newVm, destroyed)
  }

  /** How the launched job completes: normally, or cancelled with cause
      "Failed to doClone" wrapping `doClone`'s exception. */
  datatype JobCompletion = Completed | CompletedWithCause(causes: seq<string>) | Active

  function CloneJobCompletion(outcome: CloneOutcome): (r: JobCompletion)
    requires outcome.CloneFailed? ==> |outcome.causes| >= 1
    ensures r.Completed? <==> outcome.CloneSucceeded?
    ensures r.CompletedWithCause? <==> outcome.CloneFailed?
    ensures r.CompletedWithCause? ==>
      |r.causes| >= 2 && r.causes[0] == "Failed to doClone" && RootCause(r.causes) == RootCause(outcome.causes)
  {
    match outcome
    case CloneSucceeded(_, _, _) => Completed
    case CloneFailed(causes) => CompletedWithCause(["Failed to doClone"] + causes)
    case CloneInProgress => Active
  }

  /** Once the rename task has settled, its outcome never matters: its
      failure is only logged. */
  lemma RenameTaskNeverDecides(instanceName: string, img: Image, suffix: string, s: CloneScript,
                               renameTask: seq<TaskRead<()>>)
    requires !WaitForTask(renameTask).StillWaiting? && !WaitForTask(s.renameTask).StillWaiting?
    ensures DoClone(instanceName, img, suffix, s.(renameTask := renameTask)) == DoClone(instanceName, img, suffix, s)
  {
  }

  /** The clone this job made, found in the folder under its final name and
      frozen, is kept by the job's own clean-up when it is the newest member
      of its family. */
  lemma OwnCloneIsKept(img: Image, suffix: string, millis: int, folder: seq<FolderVm>, i: nat, mor: Mor,
                       family: seq<Candidate>)
    requires 0 < millis <= LongMax
    requires '@' !in img.name + NormalizeSuffix(suffix)
    requires |img.name + NormalizeSuffix(suffix)| >= 1
    requires !IsLineTerminator((img.name + NormalizeSuffix(suffix))[|img.name + NormalizeSuffix(suffix)| - 1])
    requires i < |folder| && folder[i] == FolderVm(mor, CloneName(img.name, suffix, millis), Success(true))
    requires forall j :: 0 <= j < |folder| && folder[j].mor == mor ==> j == i
    requires SelectFamily(folder, FamilyPrefix(img.name, NormalizeSuffix(suffix),
                                               EndsWith(img.imageTemplate, MultipleValueSeparator))) == Success(family)
    requires forall d :: d in family && d.mor != mor ==> d.cloneNumber < millis
    ensures Candidate(mor, CloneName(img.name, suffix, millis), millis) in Kept(family)
  {
    var tmpl := EndsWith(img.imageTemplate, MultipleValueSeparator);
    NewCloneJoinsItsFamily(img.name, suffix, millis, tmpl, mor);
    NewestInFolderIsKept(folder, FamilyPrefix(img.name, NormalizeSuffix(suffix), tmpl), family, i,
                         Candidate(mor, CloneName(img.name, suffix, millis), millis));
  }
}

=== FILE: config_processor.dfy ===
/** The cloud profile's properties processor: the check the server runs on a
    profile's properties before it stores them. JSON parsing, the account
    store and the live connection test are inputs. */
module ConfigProcessor {
  import opened Wrappers
  import opened Text
  import opened Properties
  import opened ImageConfig
  import Client
  import VimTypes

  const ConnectionFailedName: string := "vmwareInstacloneConnectionInfo"
  const VCenterAccountName: string := "vmwareInstacloneVCenterAccount"
  const VCenterAccountHashName: string := "vmwareInstacloneVCenterAccountHash"
  const ImagesName: string := "vmwareInstacloneImages"

  /** The properties that must have text, in the order they are checked. */
  const RequiredProps: seq<string> := [VCenterAccountName, ImagesName]

  const EmptyMessage: string := "Value cannot be empty"
  const NoImagesMessage: string := "There is no image specification defined"
  const ParseErrorPrefix: string := "Parsing JSON error: "
  const EmptyTemplateSuffix: string := " - `template` property cannot be empty"
  const InvalidPathSuffix: string := " - Invalid `template` path definition"
  const ConnectionFailedPrefix: string := "Failed to validate connection: "

  /** The images JSON as Jackson reads it: the entries in document order, or
      the exception's message (possibly null). */
  datatype Parsed = Images(entries: seq<(string, ICImageConfig)>) | ParseError(message: Option<string>)

  /** A stored vCenter account; its hash is opaque here. */
  datatype Account = Account(hash: string)

  /** How the live connection test ends. */
  datatype ConnectionResult = Connected | ConnectionThrows(message: Option<string>)

  datatype Processed = Processed(errors: seq<InvalidProperty>, props: map<string, string>, tested: bool)

  function Get(props: map<string, string>, key: string): Option<string> {
    if key in props then Some(props[key]) else None
  }

  // ---- required properties ----------------------------------------------------------

  /** `checkIfNotEmpty` over the required properties. */
  function RequiredErrors(props: map<string, string>, names: seq<string>): (r: seq<InvalidProperty>)
    ensures forall k :: 0 <= k < |r| ==> r[k].message == EmptyMessage && r[k].name in names
    ensures forall n :: n in names ==> (!HasText(Get(props, n)) <==> InvalidProperty(n, EmptyMessage) in r)
    ensures r == [] <==> forall n :: n in names ==> HasText(Get(props, n))
  {
    if |names| == 0 then []
    else
      var head := if HasText(Get(props, names[0])) then [] else [InvalidProperty(names[0], EmptyMessage)];
      var r := head + RequiredErrors(props, names[1..]);
      assert forall n :: n in names ==> n == names[0] || n in names[1..];
      r
  }

  // ---- images ---------------------------------------------------------------

  /** What is wrong with one entry's template, if anything: `isEmpty` takes
      null and "" alike; otherwise the path needs a '/'. */
  function TemplateProblem(config: ICImageConfig): (r: Option<string>)
    ensures r.None? <==> '/' in config.template.GetOr("")
    ensures r == Some(EmptyTemplateSuffix) <==> config.template.GetOr("") == ""
  {
    var t := config.template.GetOr("");
    if t == "" then Some(EmptyTemplateSuffix)
    else if LastIndexOf(t, '/') == -1 then Some(InvalidPathSuffix)
    else None
  }

  predicate Bad(entry: (string, ICImageConfig)) {
    TemplateProblem(entry.1).Some?
  }

  /** The error a bad entry is reported with: the image's name followed by
      what is wrong. */
  function EntryError(entry: (string, ICImageConfig)): (r: InvalidProperty)
    requires Bad(entry)
    ensures r.name == ImagesName && |r.message| > |EmptyMessage|
  {
    InvalidProperty(ImagesName, entry.0 + TemplateProblem(entry.1).value)
  }

  /** `validateImageConfig`: one error per entry with a bad template, in
      entry order. */
  function TemplateErrors(entries: seq<(string, ICImageConfig)>): (r: seq<InvalidProperty>)
    ensures |r| <= |entries|
    ensures r == [] <==> forall i :: 0 <= i < |entries| ==> !Bad(entries[i])
    ensures forall k :: 0 <= k < |r| ==> r[k].name == ImagesName && |r[k].message| > |EmptyMessage|
  {
    if |entries| == 0 then []
    else
      var last := entries[|entries| - 1];
      var prefix := entries[..|entries| - 1];
      var rest := TemplateErrors(prefix);
      var tail := if Bad(last) then [EntryError(last)] else [];
      assert forall i :: 0 <= i < |prefix| ==> entries[i] == prefix[i];
      rest + tail
  }

  /** The error is the one some bad entry is reported with. */
  predicate ReportedFrom(e: InvalidProperty, entries: seq<(string, ICImageConfig)>) {
    exists i :: 0 <= i < |entries| && Bad(entries[i]) && e == EntryError(entries[i])
  }

  /** Every error reported is a bad entry's, and every bad entry is reported. */
  lemma {:induction false} TemplateErrorsExact(entries: seq<(string, ICImageConfig)>)
    ensures var r := TemplateErrors(entries);
      forall k :: 0 <= k < |r| ==> ReportedFrom(r[k], entries)
    ensures var r := TemplateErrors(entries);
      forall i :: 0 <= i < |entries| && Bad(entries[i]) ==> EntryError(entries[i]) in r
  {
    if |entries| > 0 {
      var last := entries[|entries| - 1];
      var prefix := entries[..|entries| - 1];
      TemplateErrorsExact(prefix);
      var rest := TemplateErrors(prefix);
      var tail := if Bad(last) then [EntryError(last)] else [];
      assert entries == prefix + [last];
      assert TemplateErrors(entries) == rest + tail;
      TemplateErrorsStep(entries, prefix, last, rest, tail, rest + tail);
    }
  }

  lemma TemplateErrorsStep(entries: seq<(string, ICImageConfig)>, prefix: seq<(string, ICImageConfig)>,
                           last: (string, ICImageConfig), rest: seq<InvalidProperty>, tail: seq<InvalidProperty>,
                           r: seq<InvalidProperty>)
    requires entries == prefix + [last]
    requires tail == if Bad(last) then [EntryError(last)] else []
    requires r == rest + tail
    requires forall k :: 0 <= k < |rest| ==> ReportedFrom(rest[k], prefix)
    requires forall i :: 0 <= i < |prefix| && Bad(prefix[i]) ==> EntryError(prefix[i]) in rest
    ensures forall k :: 0 <= k < |r| ==> ReportedFrom(r[k], entries)
    ensures forall i :: 0 <= i < |entries| && Bad(entries[i]) ==> EntryError(entries[i]) in r
  {
    forall k | 0 <= k < |r| ensures ReportedFrom(r[k], entries) {
      if k < |rest| {
        assert ReportedFrom(rest[k], prefix);
        var i :| 0 <= i < |prefix| && Bad(prefix[i]) && rest[k] == EntryError(prefix[i]);
        assert entries[i] == prefix[i] && r[k] == rest[k];
      } else {
        assert r[k] == tail[k - |rest|];
        assert entries[|prefix|] == last;
      }
    }
    forall i | 0 <= i < |entries| && Bad(entries[i]) ensures EntryError(entries[i]) in r {
      if i < |prefix| { assert entries[i] == prefix[i]; }
    }
  }

  /** The errors about the images JSON, once the property is present. */
  function ImageErrors(parsed: Parsed): (r: seq<InvalidProperty>)
    ensures forall k :: 0 <= k < |r| ==> r[k].name == ImagesName
    ensures parsed.ParseError? ==> r == [InvalidProperty(ImagesName, ParseErrorPrefix + Template(parsed.message))]
    ensures parsed.Images? && |parsed.entries| == 0 ==> r == [InvalidProperty(ImagesName, NoImagesMessage)]
    ensures parsed.Images? && |parsed.entries| > 0 ==> r == TemplateErrors(parsed.entries)
    ensures forall k :: 0 <= k < |r| ==> r[k].message != EmptyMessage
    ensures r == [] <==> (parsed.Images? && |parsed.entries| > 0 &&
      forall i :: 0 <= i < |parsed.entries| ==> !Bad(parsed.entries[i]))
  {
    match parsed
      case ParseError(message) =>
        var e := InvalidProperty(ImagesName, ParseErrorPrefix + Template(message));
        assert e.message[0] != EmptyMessage[0];
        [e]
      case Images(entries) =>
        var errs := TemplateErrors(entries);
        assert |NoImagesMessage| > |EmptyMessage|;
        (if |entries| == 0 then [InvalidProperty(ImagesName, NoImagesMessage)] else []) + errs
  }

  // ---- the whole processor --------------------------------------------------------

  /** Everything before the account check is clean. */
  predicate CleanSoFar(props: map<string, string>, parsed: Parsed) {
    && HasText(Get(props, VCenterAccountName))
    && HasText(Get(props, ImagesName))
    && parsed.Images? && |parsed.entries| > 0
    && forall i :: 0 <= i < |parsed.entries| ==> '/' in parsed.entries[i].1.template.GetOr("")
  }

  /** The errors collected before the account is looked up: the required
      properties, then the images JSON if the property is there. */
  function Collected(props: map<string, string>, parsed: Parsed): (r: seq<InvalidProperty>)
    ensures r == [] <==> CleanSoFar(props, parsed)
    ensures forall n :: n in RequiredProps ==> (!HasText(Get(props, n)) <==> InvalidProperty(n, EmptyMessage) in r)
    ensures ImagesName in props && parsed.ParseError? ==>
      InvalidProperty(ImagesName, ParseErrorPrefix + Template(parsed.message)) in r
  {
    var required := RequiredErrors(props, RequiredProps);
    var images := if ImagesName in props then ImageErrors(parsed) else [];
    assert HasText(Get(props, ImagesName)) ==> ImagesName in props;
    assert ImagesName in props && parsed.Images? ==>
      forall i :: 0 <= i < |parsed.entries| ==>
        (!Bad(parsed.entries[i]) <==> '/' in parsed.entries[i].1.template.GetOr(""));
    assert forall e :: e in images ==> e.message != EmptyMessage;
    required + images
  }

  const NotFoundPrefix: string := "VCenter Account with "

  function NotFound(id: string): (r: InvalidProperty)
    ensures r.name == VCenterAccountName && r.message != EmptyMessage
  {
    var r := InvalidProperty(VCenterAccountName, NotFoundPrefix + id + " ID was not found");
    assert r.message[1] != EmptyMessage[1];
    r
  }

  function ConnectionFailed(message: Option<string>): (r: InvalidProperty)
    ensures r.name == ConnectionFailedName && r.message != EmptyMessage
  {
    var r := InvalidProperty(ConnectionFailedName, ConnectionFailedPrefix + Template(message));
    assert r.message[0] != EmptyMessage[0];
    r
  }

  /** `process`: the required properties, then the images JSON (`parsed` is
      what parsing the images property gave), then the account. The account's
      hash is stored whenever the account exists; the connection test runs
      only when nothing has been reported so far. */
  function Process(props: map<string, string>, parsed: Parsed, accounts: map<string, Account>,
                   connection: ConnectionResult): (r: Processed)
    ensures r.tested <==>
      VCenterAccountName in props && props[VCenterAccountName] in accounts && CleanSoFar(props, parsed)
    ensures VCenterAccountName in props && props[VCenterAccountName] in accounts ==>
      r.props == props[VCenterAccountHashName := accounts[props[VCenterAccountName]].hash]
    ensures !(VCenterAccountName in props && props[VCenterAccountName] in accounts) ==> r.props == props
    ensures r.errors == [] <==>
      VCenterAccountName in props && props[VCenterAccountName] in accounts && CleanSoFar(props, parsed) &&
      connection.Connected?
    ensures forall n :: n in RequiredProps ==> (!HasText(Get(props, n)) <==> InvalidProperty(n, EmptyMessage) in r.errors)
    ensures ImagesName in props && parsed.ParseError? ==>
      InvalidProperty(ImagesName, ParseErrorPrefix + Template(parsed.message)) in r.errors
    ensures VCenterAccountName in props && props[VCenterAccountName] !in accounts ==>
      r.errors[|r.errors| - 1] == NotFound(props[VCenterAccountName])
    ensures r.tested && connection.ConnectionThrows? ==> r.errors == [ConnectionFailed(connection.message)]
  {
    var soFar := Collected(props, parsed);
    if VCenterAccountName !in props then Processed(soFar, props, false)
    else
      var id := props[VCenterAccountName];
      if id !in accounts then
        var errors := soFar + [NotFound(id)];
        assert forall e :: e in errors ==> e in soFar || e == NotFound(id);
        Processed(errors, props, false)
      else
        var tested := soFar == [];
        var errors := if tested && connection.ConnectionThrows? then [ConnectionFailed(connection.message)] else soFar;
        Processed(errors, props[VCenterAccountHashName := accounts[id].hash], tested)
  }

  /** A profile the processor accepts has a template path with a folder
      part in every image, so the client's construction gets past its
      template-path check for each of them and only the inventory and the
      agent pool decide. */
  lemma AcceptedImagesHaveTemplatePaths(props: map<string, string>, parsed: Parsed, accounts: map<string, Account>,
                                        connection: ConnectionResult, i: nat,
                                        inventory: Client.Inventory, pools: seq<Client.AgentPool>)
    requires Process(props, parsed, accounts, connection).errors == []
    requires parsed.Images? && i < |parsed.entries|
    ensures '/' in parsed.entries[i].1.template.GetOr("")
    ensures var config := parsed.entries[i].1;
      Client.DeriveImage(parsed.entries[i].0, config, inventory, pools).Success? <==>
        && Client.Resolves(inventory, config.template.value, VimTypes.VirtualMachineType)
        && Client.Resolves(inventory, Client.FolderPath(config), VimTypes.FolderType)
        && (config.resourcePool.Some? ==> Client.Resolves(inventory, config.resourcePool.value, VimTypes.ResourcePoolType))
        && !config.agentPool.PoolOther?
  {
  }
}

=== FILE: detector.dfy ===
/** `CreateInstaCloneDetector`: the server-side translator of the agent's
    `createVCenterInstaClone` service message. It finds the cloud instance
    behind the build's agent, starts the clone job, and reports the outcome
    back to the waiting build step as "OK" or "FAIL".

    The instance lookup, the launch of the job, the remote call to the
    agent and the build interruption are inputs. */
module Detector {
  import opened Wrappers
  import opened VimTypes
  import opened InstanceState
  import opened ServiceMessage
  import opened CloneJob

  const DetectorMessageName: string := "createVCenterInstaClone"
  const DetectorSuffixParameter: string := "templateNameSuffix"
  const DetectorUuidAttribute: string := "uuid"

  /** What the cloud-agent relation yields for the build's agent: nothing,
      an instance of another cloud plug-in, or one of this plug-in's
      instances with its image's template path. */
  datatype AgentMatch = NoInstance | ForeignInstance | CloudInstance(instance: Instance, imageTemplate: string)

  /** Whether launching the clone coroutine returned a job or threw (with
      the exception's cause chain, outermost first). */
  datatype Launch = Launches | LaunchThrows(causes: seq<string>)

  datatype BuildMessage = Progress(text: string) | ErrorMessage(text: string) | BuildFailure(text: string)

  /** One `reportStatus`: the status sent, the uuid it was addressed to, the
      build-log line, whether the agent received it, and whether the build
      was asked to stop because it did not. */
  datatype Report = Report(status: string, uuid: Option<string>, logLine: string, delivered: bool, interruptRequested: bool)

  /** The innermost message of a cause chain, as `getMostSpecificCause`
      finds it; an empty chain stands for a null cause. */
  function MostSpecific(causes: seq<string>): string {
    if |causes| == 0 then "null" else causes[|causes| - 1]
  }

  /** `reportStatus` with `sendUpdateStatusMessage`: FAIL exactly when there
      is a cause. A missing uuid (the `!!`) or a failed remote call makes the
      delivery fail; then the build is asked to stop, and a failure of that
      request is only logged. */
  function ReportStatus(cause: Option<seq<string>>, attrs: seq<Attribute>, delivery: Call): (r: Report)
    ensures r.status == "FAIL" <==> cause.Some?
    ensures r.status == "OK" <==> cause.None?
    ensures r.uuid == Lookup(attrs, DetectorUuidAttribute)
    ensures r.delivered <==> r.uuid.Some? && delivery.Ok?
    ensures r.interruptRequested <==> !r.delivered
    ensures cause.Some? ==> r.logLine == "Clone failed " + MostSpecific(cause.value)
  {
    var status := if cause.Some? then "FAIL" else "OK";
    var uuid := Lookup(attrs, DetectorUuidAttribute);
    var line := if cause.Some? then "Clone failed " + MostSpecific(cause.value) else "Clone success";
    var delivered := uuid.Some? && delivery.Ok?;
    Report(status, uuid, line, delivered, !delivered)
  }

  /** The agent and image a message talks about. */
  function Ident(agentName: string, imageTemplate: string): string {
    "agent " + agentName + " and instance " + imageTemplate
  }

  const MissingSuffixMessage: string := "Template name parameter " + DetectorSuffixParameter + " cannot be null"

  /** What `translate` returns, the report it made at once (if any), and
      whether a completion hook now waits on a clone job. */
  datatype Translation = Translation(output: seq<BuildMessage>, report: Option<Report>, hook: bool)

  /** `translate` around `createClone`. Nothing escapes: an exception inside
      becomes an error message in the output. */
  function Translate(agentName: string, found: AgentMatch, attrs: seq<Attribute>, launch: Launch, delivery: Call): (r: Translation)
    ensures |r.output| >= 1
    ensures !found.CloudInstance? ==>
      r == Translation([BuildFailure("Cannot make instaclone - instance for creating clone not found - for agent " + agentName)], None, false)
    ensures found.CloudInstance? ==>
      r.output[0] == Progress("Creating VM clone in progress for " + Ident(agentName, found.imageTemplate))
    ensures found.CloudInstance? && Lookup(attrs, DetectorSuffixParameter).None? ==>
      && r.report.None? && !r.hook
      && r.output[|r.output| - 1] == ErrorMessage("Unexpected error - failed to create clone " + MissingSuffixMessage)
    ensures found.CloudInstance? && Lookup(attrs, DetectorSuffixParameter).Some? ==> (r.report.Some? <==> !r.hook)
    ensures r.hook <==> found.CloudInstance? && Lookup(attrs, DetectorSuffixParameter).Some?
                        && CreateClone(found.instance) && launch.Launches?
    ensures r.report.Some? ==> r.report.value.status == "FAIL" && r.report.value.uuid == Lookup(attrs, DetectorUuidAttribute)
    ensures r.report.Some? ==> (r.report.value.delivered <==> r.report.value.uuid.Some? && delivery.Ok?)
  {
    match found
    case NoInstance => Translation([BuildFailure("Cannot make instaclone - instance for creating clone not found - for agent " + agentName)], None, false)
    case ForeignInstance => Translation([BuildFailure("Cannot make instaclone - instance for creating clone not found - for agent " + agentName)], None, false)
    case CloudInstance(inst, template) =>
      var progress := Progress("Creating VM clone in progress for " + Ident(agentName, template));
      match Lookup(attrs, DetectorSuffixParameter)
      case None => Translation([progress, ErrorMessage("Unexpected error - failed to create clone " + MissingSuffixMessage)], None, false)
      case Some(_) => TranslateClone(Ident(agentName, template), inst, attrs, launch, delivery, progress)
  }

  /** `translate` once the suffix is known: a non-clonable instance and a
      failed launch report FAIL at once, a launched job leaves it to the hook. */
  function TranslateClone(ident: string, inst: Instance, attrs: seq<Attribute>, launch: Launch, delivery: Call,
                          progress: BuildMessage): (r: Translation)
    ensures |r.output| == 2 && r.output[0] == progress
    ensures r.report.Some? <==> !r.hook
    ensures r.hook <==> CreateClone(inst) && launch.Launches?
    ensures r.report.Some? ==> r.report.value.status == "FAIL" && r.report.value.uuid == Lookup(attrs, DetectorUuidAttribute)
    ensures r.report.Some? ==> (r.report.value.delivered <==> r.report.value.uuid.Some? && delivery.Ok?)
  {
    if !CreateClone(inst) then
      var text := "Failed to create VM clone for " + ident;
      Translation([progress, BuildFailure(text)], Some(ReportStatus(Some([text]), attrs, delivery)), false)
    else match launch
      case LaunchThrows(causes) =>
        Translation([progress, ErrorMessage("Failed to VM clone for " + ident + " - " + MostSpecific(causes))],
                    Some(ReportStatus(Some(causes), attrs, delivery)), false)
      case Launches =>
        Translation([progress, Progress("Creating VM clone for " + ident + " in progress....")], None, true)
  }

  /** The completion hook: once the job is over it reports OK when it
      completed normally and FAIL when it ended with a cause. */
  function OnCompletion(completion: JobCompletion, attrs: seq<Attribute>, delivery: Call): (r: Option<Report>)
    ensures r.None? <==> completion.Active?
    ensures r.Some? ==> (r.value.status == "OK" <==> completion.Completed?)
    ensures r.Some? ==> r.value.uuid == Lookup(attrs, DetectorUuidAttribute)
    ensures r.Some? ==> (r.value.delivered <==> r.value.uuid.Some? && delivery.Ok?)
    ensures completion.CompletedWithCause? ==> r.value.logLine == "Clone failed " + MostSpecific(completion.causes)
  {
    match completion
    case Active => None
    case Completed => Some(ReportStatus(None, attrs, delivery))
    case CompletedWithCause(causes) => Some(ReportStatus(Some(causes), attrs, delivery))
  }

  /** Every message for one of this plug-in's instances that carries a
      suffix leads to exactly one status report: at once, or from the hook
      when the job completes. */
  lemma {:induction false} EveryDispatchReports(agentName: string, found: AgentMatch, attrs: seq<Attribute>, launch: Launch,
                                                delivery: Call, completion: JobCompletion)
    requires found.CloudInstance? && Lookup(attrs, DetectorSuffixParameter).Some?
    requires !completion.Active?
    ensures var t := Translate(agentName, found, attrs, launch, delivery);
      (t.report.Some? && !t.hook) || (t.report.None? && t.hook && OnCompletion(completion, attrs, delivery).Some?)
  {
    var t := Translate(agentName, found, attrs, launch, delivery);
    if t.hook {
      assert OnCompletion(completion, attrs, delivery).Some?;
    }
  }
}

=== FILE: image.dfy ===
/** `ICCloudImage`: one configured image, its per-image name counter and its
    uuid-keyed instance map.

    The map is a `ConcurrentHashMap` whose iteration order is unspecified; it
    is modelled as a list with pairwise distinct uuids whose order stands for
    that iteration order. `ToMap` gives the map it represents. */
module CloudImage {
  import opened Wrappers
  import opened Numeric
  import opened Text
  import opened VimTypes
  import opened InstanceState

  predicate DistinctUuids(s: seq<Instance>) {
    forall i, j :: 0 <= i < j < |s| ==> s[i].uuid != s[j].uuid
  }

  type InstanceList = s: seq<Instance> | DistinctUuids(s) witness []

  type Int32 = x: int | IsInt(x)

  datatype Image = Image(
    id: string,
    name: string,
    instanceFolder: Mor,
    resourcePool: Option<Mor>,
    datastore: Option<Mor>,
    maxInstances: int,
    networks: seq<string>,
    shutdownTimeoutSeconds: int,
    agentPool: Option<int>,
    imageTemplate: string,
    instanceCounter: Int32,
    instances: InstanceList)

  /** A freshly constructed image: counter 0 and no instances. */
  function NewImage(id: string, name: string, instanceFolder: Mor, resourcePool: Option<Mor>,
                    datastore: Option<Mor>, maxInstances: int, networks: seq<string>,
                    shutdownTimeoutSeconds: int, agentPool: Option<int>, imageTemplate: string): (r: Image)
    ensures r.instanceCounter == 0 && r.instances == []
    ensures r.id == id && r.name == name && r.maxInstances == maxInstances
  {
    Image(id, name, instanceFolder, resourcePool, datastore, maxInstances, networks,
          shutdownTimeoutSeconds, agentPool, imageTemplate, 0, [])
  }

  // ---- the instance map ----------------------------------------------------

  /** The map the list stands for. */
  ghost function ToMap(s: InstanceList): map<string, Instance> {
    map i | i in s :: i.uuid := i
  }

  function Find(s: InstanceList, uuid: string): (r: Option<Instance>)
    ensures r.Some? ==> r.value in s && r.value.uuid == uuid
    ensures r.None? <==> forall i :: i in s ==> i.uuid != uuid
  {
    if |s| == 0 then None
    else if s[0].uuid == uuid then Some(s[0])
    else Find(s[1..], uuid)
  }

  /** `map[inst.uuid] = inst`: replaces the entry with that uuid in place, or
      appends a new one. */
  function Put(s: InstanceList, inst: Instance): (r: InstanceList)
    ensures inst in r
    ensures forall i :: i in r ==> i == inst || (i in s && i.uuid != inst.uuid)
    ensures forall i :: i in s && i.uuid != inst.uuid ==> i in r
    ensures |r| == if Find(s, inst.uuid).Some? then |s| else |s| + 1
  {
    if |s| == 0 then [inst]
    else if s[0].uuid == inst.uuid then
      TailAvoidsHead(s);
      ConsKeepsDistinct(inst, s[1..]);
      [inst] + s[1..]
    else
      var rest := Put(s[1..], inst);
      TailAvoidsHead(s);
      assert forall i :: i in rest ==> i.uuid != s[0].uuid;
      ConsKeepsDistinct(s[0], rest);
      [s[0]] + rest
  }

  /** No later entry shares the first entry's uuid. */
  lemma TailAvoidsHead(s: InstanceList)
    requires |s| > 0
    ensures forall i :: i in s[1..] ==> i.uuid != s[0].uuid
  {
    forall i | i in s[1..] ensures i.uuid != s[0].uuid {
      var k :| 0 <= k < |s[1..]| && s[1..][k] == i;
      assert s[k + 1] == i;
    }
  }

  lemma ConsKeepsDistinct(x: Instance, rest: InstanceList)
    requires forall i :: i in rest ==> i.uuid != x.uuid
    ensures DistinctUuids([x] + rest)
  {
    var r := [x] + rest;
    forall a, b | 0 <= a < b < |r| ensures r[a].uuid != r[b].uuid {
      assert r[b] == rest[b - 1];
      if a == 0 {
        assert rest[b - 1] in rest;
      } else {
        assert r[a] == rest[a - 1];
      }
    }
  }

  /** `map.remove(uuid)`. */
  function Remove(s: InstanceList, uuid: string): (r: InstanceList)
    ensures forall i :: i in r <==> i in s && i.uuid != uuid
    ensures |r| == if Find(s, uuid).Some? then |s| - 1 else |s|
  {
    if |s| == 0 then []
    else if s[0].uuid == uuid then
      TailAvoidsHead(s);
      s[1..]
    else
      var rest := Remove(s[1..], uuid);
      TailAvoidsHead(s);
      ConsKeepsDistinct(s[0], rest);
      [s[0]] + rest
  }

  /** The list operations are the map operations they stand for. */
  lemma {:induction false} PutIsMapUpdate(s: InstanceList, inst: Instance)
    ensures ToMap(Put(s, inst)) == ToMap(s)[inst.uuid := inst]
  {
    var r := Put(s, inst);
    forall u | u in ToMap(r) || u in ToMap(s)[inst.uuid := inst]
      ensures u in ToMap(r) && u in ToMap(s)[inst.uuid := inst]
      ensures ToMap(r)[u] == ToMap(s)[inst.uuid := inst][u]
    {
      if u == inst.uuid {
        UniqueEntry(r, inst);
      } else {
        var i :| i in r && i.uuid == u;
        UniqueEntry(r, i);
        UniqueEntry(s, i);
      }
    }
  }

  lemma {:induction false} RemoveIsMapRemoval(s: InstanceList, uuid: string)
    ensures ToMap(Remove(s, uuid)) == ToMap(s) - {uuid}
  {
    var r := Remove(s, uuid);
    forall u | u in ToMap(r) || u in ToMap(s) - {uuid}
      ensures u in ToMap(r) && u in ToMap(s) - {uuid}
      ensures ToMap(r)[u] == (ToMap(s) - {uuid})[u]
    {
      var i :| i in r && i.uuid == u;
      UniqueEntry(r, i);
      UniqueEntry(s, i);
    }
  }

  lemma FindIsMapLookup(s: InstanceList, uuid: string)
    ensures Find(s, uuid) == if uuid in ToMap(s) then Some(ToMap(s)[uuid]) else None
  {
    if Find(s, uuid).Some? {
      UniqueEntry(s, Find(s, uuid).value);
    }
  }

  /** The element of a list with distinct uuids that carries `i.uuid` is `i`. */
  lemma UniqueEntry(s: InstanceList, i: Instance)
    requires i in s
    ensures i.uuid in ToMap(s) && ToMap(s)[i.uuid] == i
    ensures forall j :: j in s && j.uuid == i.uuid ==> j == i
  {
    forall j | j in s && j.uuid == i.uuid ensures j == i {
      var a :| 0 <= a < |s| && s[a] == i;
      var b :| 0 <= b < |s| && s[b] == j;
      SameUuidSameIndex(s, a, b);
    }
  }

  lemma SameUuidSameIndex(s: InstanceList, a: int, b: int)
    requires 0 <= a < |s| && 0 <= b < |s| && s[a].uuid == s[b].uuid
    ensures a == b
  {
  }

  // ---- operations of ICCloudImage ------------------------------------------

  datatype Allocation = Allocation(name: string, image: Image)

  /** `allocateName`: "<name>-<k>" where k is the counter before the
      increment; the counter is a 32-bit `Int`. */
  function AllocateName(img: Image): (r: Allocation)
    ensures r.name == img.name + "-" + IntToString(img.instanceCounter)
    ensures r.image == img.(instanceCounter := IncInt(img.instanceCounter))
  {
    Allocation(img.name + "-" + IntToString(img.instanceCounter),
               img.(instanceCounter := IncInt(img.instanceCounter)))
  }

  /** The names handed out by `n` successive `allocateName` calls. */
  function AllocateNames(img: Image, n: nat): (r: seq<string>)
    ensures |r| == n
    decreases n
  {
    if n == 0 then []
    else
      var a := AllocateName(img);
      [a.name] + AllocateNames(a.image, n - 1)
  }

  /** The first name is the one a single allocation hands out; the others
      are those the allocations after it hand out. */
  lemma AllocateNamesCons(img: Image, n: nat)
    requires n > 0
    ensures AllocateNames(img, n)[0] == AllocateName(img).name
    ensures forall i :: 0 < i < n ==> AllocateNames(img, n)[i] == AllocateNames(AllocateName(img).image, n - 1)[i - 1]
  {
  }

  /** As long as the counter does not wrap, the i-th name carries counter
      value `start + i`. */
  lemma {:induction false} AllocatedNamesFormula(img: Image, n: nat)
    requires 0 <= img.instanceCounter && img.instanceCounter + n <= IntMax + 1
    ensures forall i :: 0 <= i < n ==>
      AllocateNames(img, n)[i] == CounterName(img.name, img.instanceCounter + i)
    decreases n
  {
    forall i | 0 <= i < n ensures AllocateNames(img, n)[i] == CounterName(img.name, img.instanceCounter + i) {
      AllocatedNameAt(img, n, i);
    }
  }

  lemma {:induction false} AllocatedNameAt(img: Image, n: nat, i: nat)
    requires 0 <= img.instanceCounter && img.instanceCounter + n <= IntMax + 1 && i < n
    ensures AllocateNames(img, n)[i] == CounterName(img.name, img.instanceCounter + i)
    decreases i
  {
    var a := AllocateName(img);
    assert AllocateNames(img, n) == [a.name] + AllocateNames(a.image, n - 1);
    if i > 0 {
      assert a.image.instanceCounter == img.instanceCounter + 1;
      AllocatedNameAt(a.image, n - 1, i - 1);
    }
  }

  /** The name the counter value `k` stands for. */
  function CounterName(imageName: string, k: nat): string {
    imageName + "-" + NatToString(k)
  }

  /** The name `allocateName` builds from counter value `k`. */
  function CounterLabel(imageName: string, k: int): string {
    imageName + "-" + IntToString(k)
  }

  /** The counter after `i` increments starting from `c`. */
  function CounterAfter(c: Int32, i: nat): (r: Int32)
    decreases i
  {
    if i == 0 then c else CounterAfter(IncInt(c), i - 1)
  }

  /** `i` increments land where `c + i` does as a 32-bit `Int`. */
  lemma {:induction false} CounterAfterWraps(c: Int32, i: nat)
    ensures CounterAfter(c, i) == WrapInt(c + i)
    decreases i
  {
    if i == 0 {
      WrapIntOfInt(c);
    } else {
      CounterAfterWraps(IncInt(c), i - 1);
      IncThenWrap(c, i);
    }
  }

  /** The i-th name carries the counter after `i` increments. */
  lemma {:induction false} AllocatedNameCounts(img: Image, n: nat, i: nat)
    requires i < n
    ensures AllocateNames(img, n)[i] == CounterLabel(img.name, CounterAfter(img.instanceCounter, i))
    decreases i
  {
    AllocateNamesCons(img, n);
    if i > 0 {
      var a := AllocateName(img);
      AllocatedNameCounts(a.image, n - 1, i - 1);
    }
  }

  /** Whatever the counter, the i-th name carries `start + i` as a 32-bit
      `Int` holds it, wrapping past `Int.MAX_VALUE`. */
  lemma AllocatedNameWraps(img: Image, n: nat, i: nat)
    requires i < n
    ensures AllocateNames(img, n)[i] == CounterLabel(img.name, WrapInt(img.instanceCounter + i))
  {
    AllocatedNameCounts(img, n, i);
    CounterAfterWraps(img.instanceCounter, i);
  }

  /** Counting one up and then `i - 1` more lands where counting `i` does. */
  lemma IncThenWrap(c: int, i: int)
    requires IsInt(c)
    ensures WrapInt(IncInt(c) + (i - 1)) == WrapInt(c + i)
  {
    if c == IntMax {
      assert IncInt(c) + (i - 1) == c + i - 0x1_0000_0000;
    }
  }

  /** Fewer than 2^32 steps apart, two counter values differ as `Int`s too. */
  lemma WrappedCountersDistinct(c: int, i: int, j: int)
    requires IsInt(c) && 0 <= i < j < 0x1_0000_0000
    ensures WrapInt(c + i) != WrapInt(c + j)
  {
  }

  /** Up to 2^32 successive allocations hand out pairwise distinct names,
      wrap-around of the counter included. */
  lemma AllocatedNamesDistinct(img: Image, n: nat)
    requires n <= 0x1_0000_0000
    ensures forall i, j :: 0 <= i < j < n ==> AllocateNames(img, n)[i] != AllocateNames(img, n)[j]
  {
    forall i, j | 0 <= i < j < n ensures AllocateNames(img, n)[i] != AllocateNames(img, n)[j] {
      AllocatedNamePairDistinct(img, n, i, j);
    }
  }

  lemma AllocatedNamePairDistinct(img: Image, n: nat, i: nat, j: nat)
    requires i < j < n <= 0x1_0000_0000
    ensures AllocateNames(img, n)[i] != AllocateNames(img, n)[j]
  {
    AllocatedNameWraps(img, n, i);
    AllocatedNameWraps(img, n, j);
    var ci := WrapInt(img.instanceCounter + i);
    var cj := WrapInt(img.instanceCounter + j);
    WrappedCountersDistinct(img.instanceCounter, i, j);
    if IntToString(ci) == IntToString(cj) {
      IntToStringInjective(ci, cj);
    }
    PrefixedStringsDistinct(img.name + "-", IntToString(ci), IntToString(cj));
    assert CounterLabel(img.name, ci) == img.name + "-" + IntToString(ci);
    assert CounterLabel(img.name, cj) == img.name + "-" + IntToString(cj);
  }

  lemma PrefixedStringsDistinct(p: string, a: string, b: string)
    requires a != b
    ensures p + a != p + b
  {
    assert (p + a)[|p|..] == a && (p + b)[|p|..] == b;
  }

  /** Past 2^32 allocations the counter has gone all the way round: the
      name after them repeats the first. */
  lemma AllocatedNamesRepeatAfterWrap(img: Image, n: nat)
    requires n > 0x1_0000_0000
    ensures AllocateNames(img, n)[0x1_0000_0000] == AllocateNames(img, n)[0]
  {
    AllocatedNameWraps(img, n, 0x1_0000_0000);
    AllocatedNameWraps(img, n, 0);
    assert WrapInt(img.instanceCounter + 0x1_0000_0000) == WrapInt(img.instanceCounter + 0);
  }

  lemma PrefixedNumbersDistinct(p: string, a: nat, b: nat)
    requires a != b
    ensures p + NatToString(a) != p + NatToString(b)
  {
    assert (p + NatToString(a))[|p|..] == NatToString(a);
    assert (p + NatToString(b))[|p|..] == NatToString(b);
  }

  datatype Created = Created(instance: Instance, image: Image)

  /** `createFreshInstance`: `ICCloudInstance.createFresh` builds the instance
      (SCHEDULED_TO_START, power-on job launched) and it is stored under its
      own uuid; the power-on job itself is `Lifecycle.PowerOnJob`. */
  function CreateFreshInstance(img: Image, uuid: string, startTime: int): (r: Created)
    ensures r.instance.uuid == uuid && r.instance.imageId == img.id && r.instance.name == img.name
    ensures r.instance.status == ScheduledToStart && r.instance.powerOnJob && r.instance.vm.None?
    ensures FindInstanceById(r.image, uuid) == Some(r.instance)
    ensures forall u :: u != uuid ==> FindInstanceById(r.image, u) == FindInstanceById(img, u)
    ensures r.image == img.(instances := r.image.instances)
  {
    var inst := Construct(uuid, img.id, img.name, startTime).(status := ScheduledToStart, powerOnJob := true);
    var inst' := Put(img.instances, inst);
    PutFind(img.instances, inst);
    Created(inst, img.(instances := inst'))
  }

  /** Kotlin's message for casting a null property value to `String`. */
  const NullCastMessage: string := "null cannot be cast to non-null type kotlin.String"

  /** `createRunningInstance` (with `ICCloudInstance.createRunning`): the start
      time is read back from the VM's extras (`Failure` is the message of the
      exception the read threw, `Success(None)` a null value) and parsed as a
      `Long`. A failed read, a null value or an unparsable text throws, and
      that exception's message is the error. The adopted instance is RUNNING,
      named and bound to the VM, and stored under the given uuid. */
  function CreateRunningInstance(img: Image, uuid: string, name: string, vm: Mor,
                                 startTimeRead: Result<Option<string>, string>): (r: Result<Created, string>)
    ensures r.Success? <==>
      startTimeRead.Success? && startTimeRead.value.Some? && ParseLong(startTimeRead.value.value).Some?
    ensures startTimeRead.Failure? ==> r == Failure(startTimeRead.error)
    ensures startTimeRead == Success(None) ==> r == Failure(NullCastMessage)
    ensures startTimeRead.Success? && startTimeRead.value.Some? && ParseLong(startTimeRead.value.value).None? ==>
      r == Failure("For input string: \"" + startTimeRead.value.value + "\"")
    ensures r.Success? ==>
      && r.value.instance.uuid == uuid && r.value.instance.name == name
      && r.value.instance.status == Running && r.value.instance.vm == Some(vm)
      && r.value.instance.startTime == ParseLong(startTimeRead.value.value).value
      && FindInstanceById(r.value.image, uuid) == Some(r.value.instance)
      && (forall u :: u != uuid ==> FindInstanceById(r.value.image, u) == FindInstanceById(img, u))
  {
    match startTimeRead
    case Failure(e) => Failure(e)
    case Success(None) => Failure(NullCastMessage)
    case Success(Some(text)) =>
      match ParseLong(text)
      case None => Failure("For input string: \"" + text + "\"")
      case Some(t) =>
        var inst := Construct(uuid, img.id, img.name, t).(status := Running, name := name, vm := Some(vm));
        PutFind(img.instances, inst);
        Success(Created(inst, img.(instances := Put(img.instances, inst))))
  }

  lemma PutFind(s: InstanceList, inst: Instance)
    ensures Find(Put(s, inst), inst.uuid) == Some(inst)
    ensures forall u :: u != inst.uuid ==> Find(Put(s, inst), u) == Find(s, u)
  {
    var r := Put(s, inst);
    UniqueEntry(r, inst);
    forall u | u != inst.uuid ensures Find(r, u) == Find(s, u) {
      if Find(s, u).Some? {
        UniqueEntry(r, Find(s, u).value);
        UniqueEntry(r, Find(r, u).value);
      }
    }
  }

  /** `findInstanceById`. */
  function FindInstanceById(img: Image, id: string): (r: Option<Instance>)
    ensures r.Some? ==> r.value in img.instances && r.value.uuid == id
    ensures r.None? <==> forall i :: i in img.instances ==> i.uuid != id
  {
    Find(img.instances, id)
  }

  /** `removeInstance`: deletes the entry under that instance's uuid only. */
  function RemoveInstance(img: Image, inst: Instance): (r: Image)
    ensures FindInstanceById(r, inst.uuid).None?
    ensures forall u :: u != inst.uuid ==> FindInstanceById(r, u) == FindInstanceById(img, u)
    ensures r == img.(instances := r.instances)
    ensures |r.instances| == if FindInstanceById(img, inst.uuid).Some? then |img.instances| - 1 else |img.instances|
  {
    var r := img.(instances := Remove(img.instances, inst.uuid));
    forall u | u != inst.uuid ensures FindInstanceById(r, u) == FindInstanceById(img, u) {
      if Find(img.instances, u).Some? {
        UniqueEntry(img.instances, Find(img.instances, u).value);
        UniqueEntry(r.instances, Find(r.instances, u).value);
      }
    }
    r
  }

  /** `getInstances`: the stored values, one per distinct uuid. */
  function GetInstances(img: Image): (r: seq<Instance>)
    ensures DistinctUuids(r)
    ensures forall i :: i in r <==> FindInstanceById(img, i.uuid) == Some(i)
    ensures forall u :: FindInstanceById(img, u).Some? <==> exists i :: i in r && i.uuid == u
  {
    forall i | i in img.instances ensures FindInstanceById(img, i.uuid) == Some(i) {
      UniqueEntry(img.instances, i);
      UniqueEntry(img.instances, Find(img.instances, i.uuid).value);
    }
    img.instances
  }

  /** A running instance object is shared by reference: a change made by a
      lifecycle job is what every later lookup sees, unless the entry was
      removed in the meantime. */
  function Refresh(img: Image, inst: Instance): (r: Image)
    ensures FindInstanceById(img, inst.uuid).Some? ==> FindInstanceById(r, inst.uuid) == Some(inst)
    ensures FindInstanceById(img, inst.uuid).None? ==> r == img
    ensures forall u :: u != inst.uuid ==> FindInstanceById(r, u) == FindInstanceById(img, u)
  {
    if Find(img.instances, inst.uuid).Some? then
      PutFind(img.instances, inst);
      img.(instances := Put(img.instances, inst))
    else img
  }
}

=== FILE: image_config.dfy ===
/** `ICImageConfig`: one image entry of the profile's images JSON, with the
    defaults Jackson applies to absent fields. */
module ImageConfig {
  import opened Wrappers
  import opened Numeric

  /** The JSON value of `agentPool`: a pool name, an integral number (an
      `Integer`, `Long` or `BigInteger` once read), a number with a fraction
      or an exponent (a `Double` once read, given here by its value rounded
      toward zero), null, or any other JSON value. */
  datatype AgentPoolValue =
    | PoolName(name: string)
    | PoolNumber(n: int)
    | PoolFractional(truncated: int)
    | PoolNull
    | PoolOther

  /** The JSON value of `network`: absent, a single string (accepted as a
      one-element array), or an array. */
  datatype NetworkJson = NetworkAbsent | NetworkSingle(network: string) | NetworkArray(networks: seq<string>)

  /** The fields as they appear in the JSON; `None` is an absent field. */
  datatype ImageJson = ImageJson(
    template: Option<string>,
    instanceFolder: Option<string>,
    resourcePool: Option<string>,
    datastore: Option<string>,
    maxInstances: Option<int>,
    agentPool: AgentPoolValue,
    network: NetworkJson,
    shutdownTimeout: Option<int>)

  datatype ICImageConfig = ICImageConfig(
    template: Option<string>,
    instanceFolder: Option<string>,
    resourcePool: Option<string>,
    datastore: Option<string>,
    maxInstances: int,
    agentPool: AgentPoolValue,
    network: seq<string>,
    shutdownTimeoutSeconds: int)

  const DefaultMaxInstances: int := IntMax
  const DefaultShutdownTimeoutSeconds: int := 30

  /** Binding a JSON entry: absent fields take their declared defaults,
      present ones are kept as they are. */
  function Bind(json: ImageJson): (r: ICImageConfig)
    ensures r.maxInstances == if json.maxInstances.Some? then json.maxInstances.value else DefaultMaxInstances
    ensures r.shutdownTimeoutSeconds ==
      if json.shutdownTimeout.Some? then json.shutdownTimeout.value else DefaultShutdownTimeoutSeconds
    ensures json.network.NetworkAbsent? ==> r.network == []
    ensures json.network.NetworkSingle? ==> r.network == [json.network.network]
    ensures json.network.NetworkArray? ==> r.network == json.network.networks
    ensures r.template == json.template && r.instanceFolder == json.instanceFolder
    ensures r.resourcePool == json.resourcePool && r.datastore == json.datastore
    ensures r.agentPool == json.agentPool
  {
    ICImageConfig(
      json.template, json.instanceFolder, json.resourcePool, json.datastore,
      json.maxInstances.GetOr(DefaultMaxInstances),
      json.agentPool,
      match json.network
        case NetworkAbsent => []
        case NetworkSingle(n) => [n]
        case NetworkArray(ns) => ns,
      json.shutdownTimeout.GetOr(DefaultShutdownTimeoutSeconds))
  }

  /** An entry that only names its template gets every default: unlimited
      instances, no network, a 30-second shutdown wait, nothing optional. */
  lemma TemplateOnlyEntry(template: string)
    ensures var c := Bind(ImageJson(Some(template), None, None, None, None, PoolNull, NetworkAbsent, None));
      && c.maxInstances == IntMax && c.network == [] && c.shutdownTimeoutSeconds == 30
      && c.instanceFolder.None? && c.resourcePool.None? && c.datastore.None? && c.agentPool.PoolNull?
  {
  }

  /** A single network string and the one-element array bind alike. */
  lemma SingleNetworkIsArray(json: ImageJson, network: string)
    ensures Bind(json.(network := NetworkSingle(network))) == Bind(json.(network := NetworkArray([network])))
  {
  }
}

=== FILE: instance_state.dfy ===
/** The record behind `ICCloudInstance`: its status machine, its identity and
    the guest metadata keys it writes into a VM's configuration extras. */
module InstanceState {
  import opened Wrappers
  import opened VimTypes
  import Text

  /** TeamCity's `InstanceStatus` values used by the plugin. */
  datatype Status =
    | Unknown
    | ScheduledToStart
    | Starting
    | Running
    | ScheduledToStop
    | Stopping
    | Stopped
    | Error
    | ErrorCannotStop

  /** The states admission may evict (ICCloudClient.kt:18). */
  const TerminalStates: seq<Status> := [Error, ErrorCannotStop, Stopped]

  predicate IsTerminal(s: Status) {
    s in TerminalStates
  }

  lemma TerminalStatesExactly(s: Status)
    ensures IsTerminal(s) <==> s == Error || s == ErrorCannotStop || s == Stopped
  {
  }

  /** One cloud instance. `vm` is the hypervisor handle (null until the VM
      exists), `powerOnJob`/`powerOffJob` record whether the start or stop job
      has been launched. The owning image is referred to by its id. */
  datatype Instance = Instance(
    uuid: string,
    imageId: string,
    name: string,
    startTime: int,
    status: Status,
    errorInfo: Option<string>,
    vm: Option<Mor>,
    matchedAgentId: Option<int>,
    powerOnJob: bool,
    powerOffJob: bool)

  /** The agent configuration parameter that carries the instance uuid. */
  const InstanceUuidParameter: string := "vsphere-instaclone.instance.uuid"

  /** The primary constructor: the display name starts as the image name and
      the status as UNKNOWN, with no VM, no error and no job. */
  function Construct(uuid: string, imageId: string, imageName: string, startTime: int): (r: Instance)
    ensures r.uuid == uuid && r.imageId == imageId && r.name == imageName && r.startTime == startTime
    ensures r.status == Unknown && r.vm.None? && r.errorInfo.None? && r.matchedAgentId.None?
    ensures !r.powerOnJob && !r.powerOffJob
  {
    Instance(uuid, imageId, imageName, startTime, Unknown, None, None, None, false, false)
  }

  /** `containsAgent`: the agent's uuid parameter equals this instance's uuid
      (a missing parameter never matches). */
  predicate ContainsAgent(inst: Instance, agentParameters: map<string, string>) {
    InstanceUuidParameter in agentParameters && agentParameters[InstanceUuidParameter] == inst.uuid
  }

  // ---- guest metadata ------------------------------------------------------

  const KeyStartTime: string := "guestinfo.teamcity-instance-startTime"
  const KeyInstanceUuid: string := "guestinfo.teamcity-instance-uuid"
  const KeyProfileUuid: string := "guestinfo.teamcity-profile-uuid"
  const KeyInstanceConfig: string := "guestinfo.teamcity-instance-config"
  const KeyHostname: string := "guestinfo.guest.hostname"
  const KeyInstanceState: string := "guestinfo.teamcity-instance-state"
  const KeyInstanceControl: string := "guestinfo.teamcity-instance-control"

  /** The identity keys cleared on a clone-from-self (ICCloudInstance.kt:545-551). */
  const GuestInfoClearProperties: seq<string> :=
    [KeyStartTime, KeyInstanceUuid, KeyProfileUuid, KeyInstanceConfig, KeyHostname]

  /** The extras a fresh power-on writes: start time, instance and profile
      uuid, the agent bootstrap document (opaque here) and the host name. */
  function PowerOnExtraConfig(startMillis: int, uuid: string, profileUuid: string,
                              bootstrapJson: string, hostname: string): (r: map<string, string>)
    ensures r.Keys == set k | k in GuestInfoClearProperties
    ensures r[KeyInstanceUuid] == uuid && r[KeyProfileUuid] == profileUuid
    ensures r[KeyHostname] == hostname
  {
    map[KeyStartTime := Text.IntToString(startMillis),
        KeyInstanceUuid := uuid,
        KeyProfileUuid := profileUuid,
        KeyInstanceConfig := bootstrapJson,
        KeyHostname := hostname]
  }

  /** The extras a clone-from-self writes: every identity key set to "". */
  function CloneClearConfig(): (r: map<string, string>)
    ensures r.Keys == set k | k in GuestInfoClearProperties
    ensures forall k :: k in r ==> r[k] == ""
  {
    map k | k in GuestInfoClearProperties :: ""
  }

  /** Clearing covers exactly the identity a power-on wrote: overlaying the
      clone's extras on any power-on extras blanks every one of them. */
  lemma CloneClearsPowerOnIdentity(startMillis: int, uuid: string, profileUuid: string,
                                   bootstrapJson: string, hostname: string)
    ensures var written := PowerOnExtraConfig(startMillis, uuid, profileUuid, bootstrapJson, hostname);
            var cleared := written + CloneClearConfig();
            written.Keys == CloneClearConfig().Keys
            && forall k :: k in written ==> cleared[k] == ""
  {
  }
}

=== FILE: lifecycle.dfy ===
/** The two lifecycle jobs of `ICCloudInstance`: the power-on job launched
    by `createFresh`, and `terminate` with the stop job it launches.

    Every hypervisor call the jobs make is an input: a script of attempt
    outcomes for power-on, and for stop a script of guest polls plus the
    outcomes of the power-off and destroy calls and the answers their tasks
    give. A job whose script ends before the job does is still running. */
module Lifecycle {
  import opened Wrappers
  import opened Numeric
  import opened VimTypes
  import opened InstanceState
  import opened CloudImage
  import opened Polling

  /** A lifecycle job's effect: the instance as it leaves the job, and its
      image with the instance map updated accordingly. */
  datatype JobResult = JobResult(instance: Instance, image: Image)

  // ---- power-on ----------------------------------------------------------------

  /** One `powerOn(name, userData)` attempt: the clone task produced a VM, or
      it failed with vSphere's `DuplicateName` fault, or anything else threw
      (including cancellation of the job). */
  datatype PowerOnAttempt = Cloned(vm: Mor) | DuplicateName | Fails(message: string)

  /** The image after `n` successive `allocateName` calls. */
  function Advance(img: Image, n: nat): (r: Image)
    ensures r == img.(instanceCounter := r.instanceCounter)
    ensures img.instanceCounter + n <= IntMax ==> r.instanceCounter == img.instanceCounter + n
    decreases n
  {
    if n == 0 then img else Advance(AllocateName(img).image, n - 1)
  }

  /** The index of the first attempt that is not a `DuplicateName` fault
      (the length of the script when there is none). */
  function FirstDecisive(attempts: seq<PowerOnAttempt>): (k: nat)
    ensures k <= |attempts|
    ensures forall j :: 0 <= j < k ==> attempts[j].DuplicateName?
    ensures k < |attempts| ==> !attempts[k].DuplicateName?
  {
    if |attempts| == 0 || !attempts[0].DuplicateName? then 0
    else 1 + FirstDecisive(attempts[1..])
  }

  datatype PowerOnLoopEnd =
    | Powered(vm: Mor, name: string, image: Image)
    | Aborted(message: string, image: Image)
    | StillTrying(image: Image)

  /** How the loop over `attempts` from `img` ends: the first attempt that is
      not a `DuplicateName` fault decides, with the image after that many
      allocations; without one the loop is still trying. */
  predicate LoopEnd(img: Image, attempts: seq<PowerOnAttempt>, r: PowerOnLoopEnd) {
    var k := FirstDecisive(attempts);
    if k == |attempts| then r == StillTrying(Advance(img, k))
    else if attempts[k].Cloned? then r == Powered(attempts[k].vm, AttemptName(img, k), Advance(img, k + 1))
    else attempts[k].Fails? && r == Aborted(attempts[k].message, Advance(img, k + 1))
  }

  /** The `while (vm == null)` loop: every attempt takes a fresh name;
      `DuplicateName` retries, any other fault leaves the loop. */
  function PowerOnLoop(img: Image, attempts: seq<PowerOnAttempt>): (r: PowerOnLoopEnd)
    ensures LoopEnd(img, attempts, r)
    decreases |attempts|
  {
    if |attempts| == 0 then StillTrying(img)
    else
      var a := AllocateName(img);
      assert Advance(img, 1) == Advance(a.image, 0) == a.image;
      match attempts[0]
      case Cloned(vm) =>
        assert FirstDecisive(attempts) == 0;
        Powered(vm, a.name, a.image)
      case Fails(m) =>
        assert FirstDecisive(attempts) == 0;
        Aborted(m, a.image)
      case DuplicateName =>
        var r := PowerOnLoop(a.image, attempts[1..]);
        RetryKeepsLoopEnd(img, attempts, r);
        r
  }

  /** A `DuplicateName` fault hands the loop to the next name: how the rest
      of the script ends from the next image is how the whole script ends. */
  lemma RetryKeepsLoopEnd(img: Image, attempts: seq<PowerOnAttempt>, r: PowerOnLoopEnd)
    requires |attempts| > 0 && attempts[0].DuplicateName?
    requires LoopEnd(AllocateName(img).image, attempts[1..], r)
    ensures LoopEnd(img, attempts, r)
  {
    var k := FirstDecisive(attempts[1..]);
    assert FirstDecisive(attempts) == k + 1;
    AdvanceStep(img, k);
    AdvanceStep(img, k + 1);
    AttemptNameStep(img, k + 1);
    assert k < |attempts| - 1 ==> attempts[1..][k] == attempts[k + 1];
  }

  /** `n + 1` allocations are one allocation and then `n` more. */
  lemma AdvanceStep(img: Image, n: nat)
    ensures Advance(img, n + 1) == Advance(AllocateName(img).image, n)
  {
  }

  /** The name the attempt with index `k` runs under. */
  function AttemptName(img: Image, k: nat): string {
    AllocateName(Advance(img, k)).name
  }

  /** It is the `k`-th name `allocateName` hands out. */
  lemma {:induction false} AttemptNameIsAllocated(img: Image, k: nat)
    ensures AttemptName(img, k) == AllocateNames(img, k + 1)[k]
    decreases k
  {
    AllocateNamesCons(img, k + 1);
    if k > 0 {
      var next := AllocateName(img).image;
      AttemptNameIsAllocated(next, k - 1);
      AttemptNameStep(img, k);
    }
  }

  lemma AttemptNameStep(img: Image, k: nat)
    requires k > 0
    ensures AttemptName(img, k) == AttemptName(AllocateName(img).image, k - 1)
  {
  }

  /** Each attempt of one power-on job runs under a name no earlier attempt
      used, as long as the image counter does not wrap around. */
  lemma AttemptNamesDistinct(img: Image, i: nat, j: nat)
    requires i < j && 0 <= img.instanceCounter && img.instanceCounter + j <= IntMax
    ensures AttemptName(img, i) != AttemptName(img, j)
  {
    AttemptNameIsAllocated(img, i);
    AttemptNameIsAllocated(img, j);
    AllocatedNamesFormula(img, i + 1);
    AllocatedNamesFormula(img, j + 1);
    PrefixedNumbersDistinct(img.name + "-", img.instanceCounter + i, img.instanceCounter + j);
  }

  /** The power-on job: STARTING, then the loop; a VM makes the instance
      RUNNING under the name it was cloned with, a fault other than
      `DuplicateName` makes it ERROR with the fault as error info. */
  function PowerOnJob(inst: Instance, img: Image, attempts: seq<PowerOnAttempt>): (r: JobResult)
    requires inst.vm.None?
    ensures var k := FirstDecisive(attempts);
      && (r.instance.status == Running <==> k < |attempts| && attempts[k].Cloned?)
      && (r.instance.status == Error <==> k < |attempts| && attempts[k].Fails?)
      && (r.instance.status == Starting <==> k == |attempts|)
      && (r.instance.status == Running ==>
            r.instance.vm == Some(attempts[k].vm) && r.instance.name == AttemptName(img, k))
      && (r.instance.status == Error ==>
            r.instance.errorInfo == Some(attempts[k].message) && r.instance.vm.None?)
    ensures r.instance.uuid == inst.uuid && r.instance.imageId == inst.imageId
    ensures r.instance.startTime == inst.startTime && r.instance.powerOffJob == inst.powerOffJob
    ensures FindInstanceById(img, inst.uuid).Some? ==> FindInstanceById(r.image, inst.uuid) == Some(r.instance)
    ensures forall u :: u != inst.uuid ==> FindInstanceById(r.image, u) == FindInstanceById(img, u)
  {
    var starting := inst.(status := Starting);
    var loop := PowerOnLoop(img, attempts);
    assert loop.image.instances == img.instances;
    match loop
    case Powered(vm, name, img') =>
      var running := starting.(vm := Some(vm), name := name, status := Running);
      JobResult(running, Refresh(img', running))
    case Aborted(m, img') =>
      var failed := starting.(errorInfo := Some(m), status := Error);
      JobResult(failed, Refresh(img', failed))
    case StillTrying(img') =>
      JobResult(starting, Refresh(img', starting))
  }

  /** Two `DuplicateName` faults and then a VM: the instance ends RUNNING
      under the third name handed out, which differs from both rejected
      names. */
  lemma PowerOnAfterTwoDuplicates(inst: Instance, img: Image, vm: Mor)
    requires inst.vm.None?
    requires 0 <= img.instanceCounter && img.instanceCounter + 3 <= IntMax
    ensures var r := PowerOnJob(inst, img, [DuplicateName, DuplicateName, Cloned(vm)]);
      && r.instance.status == Running && r.instance.vm == Some(vm)
      && r.instance.name == CounterName(img.name, img.instanceCounter + 2)
      && r.instance.name != CounterName(img.name, img.instanceCounter)
      && r.instance.name != CounterName(img.name, img.instanceCounter + 1)
      && r.image.instanceCounter == img.instanceCounter + 3
  {
    var attempts := [DuplicateName, DuplicateName, Cloned(vm)];
    assert FirstDecisive(attempts[2..]) == 0;
    assert FirstDecisive(attempts[1..]) == 1;
    assert FirstDecisive(attempts) == 2;
    AttemptNameIsAllocated(img, 2);
    AllocatedNamesFormula(img, 3);
    AllocatedNamesDistinct(img, 3);
    var names := AllocateNames(img, 3);
    assert names[2] != names[0] && names[2] != names[1];
  }

  // ---- terminate ---------------------------------------------------------------

  /** The synchronous part of `terminate`: `launched` says whether a stop job
      was started, `disableAgent` which agent is disabled first, and
      `powerOnRunning` whether a power-on job was still in its retry loop
      (status STARTING) when SCHEDULED_TO_STOP overwrote that status. */
  datatype Termination = Termination(instance: Instance, disableAgent: Option<int>, launched: bool, powerOnRunning: bool)

  /** A power-on job that has been launched and has not left its retry loop. */
  predicate PowerOnInFlight(inst: Instance) {
    inst.powerOnJob && inst.status == Starting
  }

  function Terminate(inst: Instance): (r: Termination)
    ensures inst.powerOffJob ==> r == Termination(inst, None, false, false)
    ensures !inst.powerOffJob ==>
      && r.launched && r.instance.powerOffJob && r.instance.status == ScheduledToStop
      && r.disableAgent == inst.matchedAgentId
      && r.instance == inst.(status := ScheduledToStop, powerOffJob := true)
    ensures r.powerOnRunning <==> r.launched && PowerOnInFlight(inst)
  {
    if inst.powerOffJob then Termination(inst, None, false, false)
    else Termination(inst.(status := ScheduledToStop, powerOffJob := true), inst.matchedAgentId, true,
                     PowerOnInFlight(inst))
  }

  /** `terminate` starts at most one stop job per instance: a second call,
      whatever happened in between as long as the stop-job flag stays set,
      changes nothing. */
  lemma TerminateLaunchesOnce(inst: Instance, later: Instance)
    requires later.powerOffJob == Terminate(inst).instance.powerOffJob
    ensures !Terminate(later).launched && Terminate(later).instance == later
  {
  }

  // ---- stop job: graceful phase -------------------------------------------------

  /** One turn of the shutdown wait: the clock reading (`System.nanoTime`),
      the power-state read (which may throw), and the guest state read after
      the one-second delay (`None` when it throws, which counts as ""). */
  datatype GuestPoll = GuestPoll(nowNanos: int, power: Result<PowerState, string>, state: Option<string>)

  datatype GracefulScript = GracefulScript(
    control: Call,              // requesting the write of `instance-control=shutdown`
    controlTask: seq<TaskRead<()>>,
    initialState: Option<string>,
    startNanos: int,
    polls: seq<GuestPoll>)

  datatype LoopExit = GuestDown | DeadlinePassed | NotPoweredOn | PowerUnreadable

  datatype GracefulEnd =
    | ControlFailed
    | TimeoutOverflow           // `Duration.toNanos` threw before the loop
    | Exited(reason: LoopExit, polls: nat)
    | StillPolling

  const NanosPerSecond: int := 1_000_000_000

  /** The guest state a read yields: an unreadable state is "". */
  function StateOf(read: Option<string>): string {
    read.GetOr("")
  }

  /** The guest state known after `n` full turns. */
  function StateAfter(initial: string, polls: seq<GuestPoll>, n: nat): string
    requires n <= |polls|
  {
    if n == 0 then initial else StateOf(polls[n - 1].state)
  }

  /** After the first turn, the states known are those of the remaining turns. */
  lemma StateAfterShift(initial: string, polls: seq<GuestPoll>)
    requires |polls| > 0
    ensures forall j :: 1 <= j <= |polls| ==>
      StateAfter(initial, polls, j) == StateAfter(StateOf(polls[0].state), polls[1..], j - 1)
  {
    forall j | 1 <= j <= |polls|
      ensures StateAfter(initial, polls, j) == StateAfter(StateOf(polls[0].state), polls[1..], j - 1)
    {
      if j > 1 { assert polls[1..][j - 2] == polls[j - 1]; }
    }
  }

  /** A turn that lets the loop go on: before the deadline and powered on. */
  predicate Continues(p: GuestPoll, deadline: int) {
    p.nowNanos < deadline && p.power == Success(PoweredOn)
  }

  /** The `while` loop of the graceful phase, from guest state `state`. */
  function PollLoop(state: string, polls: seq<GuestPoll>, deadline: int): (r: GracefulEnd)
    ensures !r.ControlFailed? && !r.TimeoutOverflow?
    ensures r.Exited? ==> r.polls <= |polls|
    ensures r.Exited? ==> forall j :: 0 <= j < r.polls ==>
      Continues(polls[j], deadline) && StateAfter(state, polls, j) != "shutdown"
    ensures r.Exited? && r.reason == GuestDown <==> r.Exited? && StateAfter(state, polls, r.polls) == "shutdown"
    ensures r.Exited? && r.reason != GuestDown ==> r.polls < |polls|
    ensures r.Exited? && r.reason == DeadlinePassed ==> polls[r.polls].nowNanos >= deadline
    ensures r.Exited? && r.reason == NotPoweredOn ==>
      polls[r.polls].nowNanos < deadline && polls[r.polls].power.Success? && polls[r.polls].power.value != PoweredOn
    ensures r.Exited? && r.reason == PowerUnreadable ==>
      polls[r.polls].nowNanos < deadline && polls[r.polls].power.Failure?
    decreases |polls|
  {
    if state == "shutdown" then Exited(GuestDown, 0)
    else if |polls| == 0 then StillPolling
    else
      var p := polls[0];
      if !(p.nowNanos < deadline) then Exited(DeadlinePassed, 0)
      else if p.power.Failure? then Exited(PowerUnreadable, 0)
      else if p.power.value != PoweredOn then Exited(NotPoweredOn, 0)
      else
        var tail := polls[1..];
        var rest := PollLoop(StateOf(p.state), tail, deadline);
        StateAfterShift(state, polls);
        assert forall j :: 1 <= j < |polls| ==> tail[j - 1] == polls[j];
        match rest
        case Exited(reason, n) => Exited(reason, n + 1)
        case _ => rest
  }

  /** The wait is still going on exactly when every turn so far let it go
      on and the guest has not reported "shutdown" yet. */
  lemma {:induction false} PollLoopStillPolling(state: string, polls: seq<GuestPoll>, deadline: int)
    ensures PollLoop(state, polls, deadline).StillPolling? <==>
      && (forall j :: 0 <= j < |polls| ==> Continues(polls[j], deadline) && StateAfter(state, polls, j) != "shutdown")
      && StateAfter(state, polls, |polls|) != "shutdown"
    decreases |polls|
  {
    if state != "shutdown" && |polls| > 0 && Continues(polls[0], deadline) {
      var tail := polls[1..];
      PollLoopStillPolling(StateOf(polls[0].state), tail, deadline);
      StateAfterShift(state, polls);
      assert forall j :: 1 <= j < |polls| ==> tail[j - 1] == polls[j];
    }
  }

  /** Whether the write of `instance-control=shutdown` went through: it was
      requested and its task completed. */
  predicate ControlWritten(g: GracefulScript) {
    g.control.Ok? && WaitForTask(g.controlTask).Done?
  }

  /** Whether the graceful phase asks the guest OS to shut down: only after
      the control write went through, and only when the guest reports
      neither "ready" nor "shutdown". */
  predicate RequestsGuestShutdown(g: GracefulScript) {
    ControlWritten(g) && StateOf(g.initialState) != "ready" && StateOf(g.initialState) != "shutdown"
  }

  /** `Duration.ofSeconds(seconds).toNanos()`: `None` when the product
      leaves the `Long` range, where `Math.multiplyExact` throws. */
  function ToNanos(seconds: int): (r: Option<int>)
    ensures r.Some? <==> LongMin <= seconds * NanosPerSecond <= LongMax
    ensures r.Some? ==> r.value / NanosPerSecond == seconds && r.value % NanosPerSecond == 0
  {
    if IsLong(seconds * NanosPerSecond) then Some(seconds * NanosPerSecond) else None
  }

  /** `System.nanoTime() + image.shutdownTimeout.toNanos()`, a `Long` sum
      that wraps. */
  function Deadline(startNanos: int, timeoutNanos: int): (r: int)
    ensures IsLong(r)
    ensures IsLong(startNanos + timeoutNanos) ==> r == startNanos + timeoutNanos
    ensures IsLong(startNanos) && IsLong(timeoutNanos) && startNanos + timeoutNanos > LongMax ==>
      r == startNanos + timeoutNanos - 0x1_0000_0000_0000_0000 && r < startNanos
  {
    WrapLong(startNanos + timeoutNanos)
  }

  /** The graceful phase; every exception in it is swallowed, so it only
      decides how long the job waits, never what happens next. A timeout
      too large for `toNanos` ends it before the loop. */
  function Graceful(g: GracefulScript, shutdownTimeoutSeconds: int): (r: GracefulEnd)
    ensures r.ControlFailed? <==> g.control.Throws? || WaitForTask(g.controlTask).Raised?
    ensures g.control.Ok? && WaitForTask(g.controlTask).StillWaiting? ==> r == StillPolling
    ensures r.TimeoutOverflow? <==> ControlWritten(g) && !IsLong(shutdownTimeoutSeconds * NanosPerSecond)
    ensures ControlWritten(g) && IsLong(shutdownTimeoutSeconds * NanosPerSecond) ==>
      r == PollLoop(StateOf(g.initialState), g.polls, Deadline(g.startNanos, shutdownTimeoutSeconds * NanosPerSecond))
  {
    if g.control.Throws? then ControlFailed
    else match AwaitTask(g.controlTask)
      case None => StillPolling
      case Some(Throws(_)) => ControlFailed
      case Some(Ok) =>
        match ToNanos(shutdownTimeoutSeconds)
        case None => TimeoutOverflow
        case Some(nanos) => PollLoop(StateOf(g.initialState), g.polls, Deadline(g.startNanos, nanos))
  }

  /** A timeout whose deadline wraps past `Long.MAX_VALUE` ends the wait at
      the first poll: the wrapped deadline lies before the start. */
  lemma WrappedDeadlineEndsWaitAtOnce(g: GracefulScript, shutdownTimeoutSeconds: int)
    requires ControlWritten(g) && IsLong(g.startNanos) && IsLong(shutdownTimeoutSeconds * NanosPerSecond)
    requires g.startNanos + shutdownTimeoutSeconds * NanosPerSecond > LongMax
    requires StateOf(g.initialState) != "shutdown"
    requires |g.polls| > 0 && g.polls[0].nowNanos >= g.startNanos
    ensures Graceful(g, shutdownTimeoutSeconds) == Exited(DeadlinePassed, 0)
  {
  }

  /** A timeout too large for `toNanos` skips the wait: the stop job goes
      straight to power-off and destroy, with no guest state polled. */
  lemma OverflowingTimeoutSkipsTheWait(inst: Instance, img: Image, s: StopScript, running: bool)
    requires ControlWritten(s.graceful) && !IsLong(img.shutdownTimeoutSeconds * NanosPerSecond)
    ensures Graceful(s.graceful, img.shutdownTimeoutSeconds) == TimeoutOverflow
    ensures var r := StopJob(inst, img, s, running);
      r.instance.status == match PowerOff(inst.vm, s.powerOff)
                           case Some(Ok) => Stopped
                           case Some(Throws(_)) => ErrorCannotStop
                           case None => Stopping
  {
  }

  /** A timeout that fits gives the deadline `start + timeout` seconds later. */
  lemma DeadlineWithinRange(g: GracefulScript, shutdownTimeoutSeconds: int, nanos: int)
    requires ControlWritten(g) && ToNanos(shutdownTimeoutSeconds) == Some(nanos)
    requires IsLong(g.startNanos + nanos)
    ensures Graceful(g, shutdownTimeoutSeconds) == PollLoop(StateOf(g.initialState), g.polls, g.startNanos + nanos)
  {
  }

  // ---- stop job: power-off and destroy --------------------------------------------

  /** What `powerOff` observes: issuing the power-off task, the answers of
      that task, issuing the destroy task, the answers of that task. */
  datatype PowerOffScript = PowerOffScript(issueOff: Call, offTask: seq<TaskRead<()>>,
                                           issueDestroy: Call, destroyTask: seq<TaskRead<()>>)

  /** `powerOff`: nothing for a missing VM; a failure to issue the power-off
      propagates, a failed power-off task is tolerated, and the destroy
      that follows propagates its failures. `None` while one of the two
      tasks is still running. */
  function PowerOff(vm: Option<Mor>, s: PowerOffScript): (r: Option<Call>)
    ensures vm.None? ==> r == Some(Ok)
    ensures r == Some(Ok) <==>
      vm.None? || (s.issueOff.Ok? && !WaitForTask(s.offTask).StillWaiting? && s.issueDestroy.Ok?
                   && WaitForTask(s.destroyTask).Done?)
    ensures r.None? <==>
      vm.Some? && s.issueOff.Ok?
      && (WaitForTask(s.offTask).StillWaiting? || (s.issueDestroy.Ok? && WaitForTask(s.destroyTask).StillWaiting?))
    ensures r.Some? && r.value.Throws? ==>
      r.value in {s.issueOff, s.issueDestroy}
      || (WaitForTask(s.destroyTask).Raised? && r.value.message == WaitForTask(s.destroyTask).message)
    ensures vm.Some? && s.issueOff.Throws? ==> r == Some(s.issueOff)
    ensures DestroyRequested(vm, s) && s.issueDestroy.Throws? ==> r == Some(s.issueDestroy)
    ensures DestroyRequested(vm, s) && s.issueDestroy.Ok? && WaitForTask(s.destroyTask).Raised? ==>
      r == Some(Throws(WaitForTask(s.destroyTask).message))
  {
    if vm.None? then Some(Ok)
    else if s.issueOff.Throws? then Some(s.issueOff)
    else if AwaitTask(s.offTask).None? then None
    else if s.issueDestroy.Throws? then Some(s.issueDestroy)
    else AwaitTask(s.destroyTask)
  }

  /** Whether `powerOff` gets as far as asking for the VM to be destroyed. */
  predicate DestroyRequested(vm: Option<Mor>, s: PowerOffScript) {
    vm.Some? && s.issueOff.Ok? && !WaitForTask(s.offTask).StillWaiting?
  }

  /** Once the power-off task has settled, its own outcome never matters. */
  lemma PowerOffToleratesOffTask(vm: Option<Mor>, s: PowerOffScript, offTask: seq<TaskRead<()>>)
    requires !WaitForTask(offTask).StillWaiting? && !WaitForTask(s.offTask).StillWaiting?
    ensures PowerOff(vm, s.(offTask := offTask)) == PowerOff(vm, s)
    ensures DestroyRequested(vm, s.(offTask := offTask)) == DestroyRequested(vm, s)
  {
  }

  // ---- stop job -------------------------------------------------------------------

  /** The message a power-on job caught in its retry loop records when the
      stop job cancels it. */
  const JobCancelledMessage: string := "StandaloneCoroutine was cancelled"

  datatype StopScript = StopScript(graceful: GracefulScript, powerOff: PowerOffScript)

  /** The instance after `powerOnJob?.cancelAndJoin()`: a power-on job still
      in its retry loop (`powerOnRunning`) catches the cancellation as an
      ordinary exception and records it; a finished or never-started job
      changes nothing. */
  function CancelPowerOn(inst: Instance, powerOnRunning: bool): (r: Instance)
    ensures inst.powerOnJob && powerOnRunning ==>
      r.status == Error && r.errorInfo == Some(JobCancelledMessage)
    ensures !(inst.powerOnJob && powerOnRunning) ==> r == inst
    ensures r.uuid == inst.uuid && r.vm == inst.vm && r.powerOffJob == inst.powerOffJob && r.name == inst.name
  {
    if inst.powerOnJob && powerOnRunning then inst.(status := Error, errorInfo := Some(JobCancelledMessage))
    else inst
  }

  /** The stop job: cancel the power-on job, STOPPING, then for an instance
      with a VM the graceful phase followed by power-off and destroy. Success
      makes it STOPPED and removes it from the image; a failure makes it
      ERROR_CANNOT_STOP with the failure as error info. `powerOnRunning`
      says whether the power-on job was still in its retry loop when the
      stop job cancelled it. */
  function StopJob(inst: Instance, img: Image, s: StopScript, powerOnRunning: bool): (r: JobResult)
    ensures var settled := inst.vm.None? || !Graceful(s.graceful, img.shutdownTimeoutSeconds).StillPolling?;
      var off := PowerOff(inst.vm, s.powerOff);
      && (r.instance.status == Stopped <==> settled && off == Some(Ok))
      && (r.instance.status == ErrorCannotStop <==> settled && off.Some? && off.value.Throws?)
      && (r.instance.status == Stopping <==> !settled || off.None?)
    ensures r.instance.status == ErrorCannotStop ==>
      r.instance.errorInfo == Some(PowerOff(inst.vm, s.powerOff).value.message)
    ensures r.instance.status != ErrorCannotStop ==>
      r.instance.errorInfo == if inst.powerOnJob && powerOnRunning then Some(JobCancelledMessage) else inst.errorInfo
    ensures r.instance.status == Stopped ==>
      FindInstanceById(r.image, inst.uuid).None? && |r.image.instances| <= |img.instances|
    ensures r.instance.status != Stopped && FindInstanceById(img, inst.uuid).Some? ==>
      FindInstanceById(r.image, inst.uuid) == Some(r.instance)
    ensures forall u :: u != inst.uuid ==> FindInstanceById(r.image, u) == FindInstanceById(img, u)
    ensures r.instance.uuid == inst.uuid && r.instance.vm == inst.vm && r.instance.powerOffJob == inst.powerOffJob
  {
    var stopping := CancelPowerOn(inst, powerOnRunning).(status := Stopping);
    if inst.vm.Some? && Graceful(s.graceful, img.shutdownTimeoutSeconds).StillPolling? then
      JobResult(stopping, Refresh(img, stopping))
    else match PowerOff(inst.vm, s.powerOff)
      case None => JobResult(stopping, Refresh(img, stopping))
      case Some(Ok) =>
        var stopped := stopping.(status := Stopped);
        JobResult(stopped, RemoveInstance(img, stopped))
      case Some(Throws(m)) =>
        var failed := stopping.(errorInfo := Some(m), status := ErrorCannotStop);
        JobResult(failed, Refresh(img, failed))
  }

  /** Errors and timeouts of the graceful phase never skip the power-off and
      destroy: once the phase is over, the stop job's outcome is the same
      whichever way it ended. */
  lemma GracefulPhaseNeverDecides(inst: Instance, img: Image, g1: GracefulScript, g2: GracefulScript, p: PowerOffScript,
                                  running: bool)
    requires !Graceful(g1, img.shutdownTimeoutSeconds).StillPolling?
    requires !Graceful(g2, img.shutdownTimeoutSeconds).StillPolling?
    ensures StopJob(inst, img, StopScript(g1, p), running) == StopJob(inst, img, StopScript(g2, p), running)
  {
  }

  /** Once stopped, an instance cannot be terminated again. */
  lemma StoppedInstanceStaysTerminated(inst: Instance, img: Image, s: StopScript)
    requires !inst.powerOffJob
    ensures var t := Terminate(inst);
      !Terminate(StopJob(t.instance, img, s, t.powerOnRunning).instance).launched
  {
  }

  /** Terminating an instance whose power-on job is still retrying: the
      stop job cancels that job, which records the cancellation, and unless
      the power-off itself fails that record is the error info the stopped
      or stopping instance keeps. */
  lemma TerminateCancelsPowerOn(inst: Instance, img: Image, s: StopScript)
    requires !inst.powerOffJob && PowerOnInFlight(inst)
    ensures var t := Terminate(inst);
      var r := StopJob(t.instance, img, s, t.powerOnRunning);
      && t.powerOnRunning
      && (r.instance.status != ErrorCannotStop ==> r.instance.errorInfo == Some(JobCancelledMessage))
  {
  }

  /** Terminating an instance with no power-on job in flight leaves its
      error info alone unless the power-off fails. */
  lemma TerminateWithoutPowerOnKeepsErrorInfo(inst: Instance, img: Image, s: StopScript)
    requires !inst.powerOffJob && !PowerOnInFlight(inst)
    ensures var t := Terminate(inst);
      var r := StopJob(t.instance, img, s, t.powerOnRunning);
      r.instance.status != ErrorCannotStop ==> r.instance.errorInfo == inst.errorInfo
  {
  }
}

=== FILE: numeric.dfy ===
/** JVM integer semantics that the model has to spell out: 32- and 64-bit
    ranges, two's-complement wrap-around and division that truncates toward
    zero. */
module Numeric {

  const IntMin: int := -0x8000_0000
  const IntMax: int := 0x7FFF_FFFF
  const LongMin: int := -0x8000_0000_0000_0000
  const LongMax: int := 0x7FFF_FFFF_FFFF_FFFF

  predicate IsInt(x: int) {
    IntMin <= x <= IntMax
  }

  predicate IsLong(x: int) {
    LongMin <= x <= LongMax
  }

  /** The 32-bit value a JVM `Int` holds after an arithmetic result `x`
      (also `Long.toInt()`): the low 32 bits, read as two's complement. */
  function WrapInt(x: int): (r: int)
    ensures IsInt(r)
    ensures (r - x) % 0x1_0000_0000 == 0
    ensures IsInt(x) ==> r == x
  {
    (x - IntMin) % 0x1_0000_0000 + IntMin
  }

  lemma WrapIntOfInt(x: int)
    requires IsInt(x)
    ensures WrapInt(x + 0) == x
  {
  }

  /** The 64-bit value a JVM `Long` holds after an arithmetic result `x`. */
  function WrapLong(x: int): (r: int)
    ensures IsLong(r)
    ensures (r - x) % 0x1_0000_0000_0000_0000 == 0
    ensures IsLong(x) ==> r == x
  {
    (x - LongMin) % 0x1_0000_0000_0000_0000 + LongMin
  }

  /** `Double.toInt()` of a finite double whose value rounded toward zero
      is `x`: the `Int` range's nearest bound when `x` lies outside it. */
  function ClampInt(x: int): (r: int)
    ensures IsInt(r)
    ensures IsInt(x) ==> r == x
    ensures x > IntMax ==> r == IntMax
    ensures x < IntMin ==> r == IntMin
  {
    if x > IntMax then IntMax else if x < IntMin then IntMin else x
  }

  /** `x++` on a JVM `Int`. */
  function IncInt(x: int): (r: int)
    requires IsInt(x)
    ensures IsInt(r)
    ensures x < IntMax ==> r == x + 1
    ensures x == IntMax ==> r == IntMin
  {
    if x == IntMax then IntMin else x + 1
  }

  /** `a / b` on JVM integers: the quotient truncated toward zero (Dafny's own
      `/` is Euclidean and differs for negative dividends). */
  function TruncDiv(a: int, b: int): (q: int)
    requires b > 0
    ensures a >= 0 ==> 0 <= q && q * b <= a < q * b + b
    ensures a < 0 ==> q <= 0 && q * b - b < a <= q * b
  {
    var n := if a >= 0 then a else -a;
    var d := n / b;
    DivFacts(n, b);
    if a >= 0 then d
    else
      assert (-d) * b == -(d * b);
      -d
  }

  lemma DivFacts(n: nat, b: int)
    requires b > 0
    ensures 0 <= n / b && (n / b) * b <= n < (n / b) * b + b
  {
    assert n == (n / b) * b + n % b;
  }

}

=== FILE: polling.dfy ===
/** The two polling loops of `ICCloudInstance`: `waitForTask`, which answers a
    task's `info` until it settles, and `waitForFreeze`, which waits a fixed
    20 s and then answers `runtime.instantCloneFrozen` at most 80 times.

    The hypervisor's answers are a finite script of answers; when the script
    ends before the loop does, the loop is still running (`StillWaiting`).
    The one-second sleeps between answers are not modelled. */
module Polling {
  import opened Wrappers
  import opened VimTypes

  /** The `state` of a vSphere `TaskInfo`, with its result or fault. */
  datatype TaskInfo<R> = Queued | InProgress | Succeeded(result: R) | Failed(fault: string)

  /** One `getProperty(task, "info")`: an answer, or a thrown exception. */
  datatype TaskRead<R> = Read(info: TaskInfo<R>) | ReadThrows(message: string)

  datatype Wait<R> = Done(result: R, polls: nat) | Raised(message: string, polls: nat) | StillWaiting

  predicate Unsettled<R>(read: TaskRead<R>) {
    read.Read? && (read.info.Queued? || read.info.InProgress?)
  }

  /** `waitForTask`: the first read that is not QUEUED/RUNNING decides —
      SUCCESS returns the task result, ERROR raises the task fault, and a
      failed read propagates its exception. */
  function WaitForTask<R>(answers: seq<TaskRead<R>>): (r: Wait<R>)
    ensures r.StillWaiting? <==> forall k :: 0 <= k < |answers| ==> Unsettled(answers[k])
    ensures r.Done? ==>
      && 1 <= r.polls <= |answers|
      && answers[r.polls - 1] == Read(Succeeded(r.result))
      && forall k :: 0 <= k < r.polls - 1 ==> Unsettled(answers[k])
    ensures r.Raised? ==>
      && 1 <= r.polls <= |answers|
      && answers[r.polls - 1] in {Read(Failed(r.message)), ReadThrows(r.message)}
      && forall k :: 0 <= k < r.polls - 1 ==> Unsettled(answers[k])
  {
    if |answers| == 0 then StillWaiting
    else match answers[0]
      case ReadThrows(m) => Raised(m, 1)
      case Read(Failed(f)) => Raised(f, 1)
      case Read(Succeeded(v)) => Done(v, 1)
      case _ =>
        match WaitForTask(answers[1..])
        case Done(v, n) => Done(v, n + 1)
        case Raised(m, n) => Raised(m, n + 1)
        case StillWaiting => StillWaiting
  }

  /** `waitForTask` for a caller that ignores the task result: the task
      either completed or threw, and `None` means it is still running. */
  function AwaitTask<R>(answers: seq<TaskRead<R>>): (r: Option<Call>)
    ensures r.None? <==> WaitForTask(answers).StillWaiting?
    ensures r == Some(Ok) <==> WaitForTask(answers).Done?
    ensures r.Some? && r.value.Throws? <==> WaitForTask(answers).Raised?
    ensures r.Some? && r.value.Throws? ==> r.value.message == WaitForTask(answers).message
  {
    match WaitForTask(answers)
    case Done(_, _) => Some(Ok)
    case Raised(m, _) => Some(Throws(m))
    case StillWaiting => None
  }

  // ---- freeze wait -----------------------------------------------------------

  const InitialFreezeDelayMs: nat := 20000
  const MaxFreezePolls: nat := 80

  /** The longest a clone job waits for the freeze, in seconds, as reported
      in the build log: the initial delay plus one second per poll. */
  const FreezeTimeoutSeconds: nat := InitialFreezeDelayMs / 1000 + MaxFreezePolls

  datatype FreezeWait = Frozen(polls: nat) | NotFrozenInTime | FreezeReadFailed(message: string) | FreezePending

  /** The message of the exception a failed read of the frozen flag raises. */
  function FreezeReadMessage(cloneName: string): string {
    "Couldn't get property runtime.instantCloneFrozen for VM " + cloneName
  }

  /** `waitForFreeze`: after the initial delay, up to 80 answers of the frozen
      flag (`None` is a read that threw, which fails the wait); the first `true` succeeds. */
  function WaitForFreeze(cloneName: string, answers: seq<Option<bool>>): (r: FreezeWait)
    ensures r.Frozen? <==>
      exists k :: 0 <= k < MaxFreezePolls && k < |answers| && answers[k] == Some(true)
        && forall j :: 0 <= j < k ==> answers[j] == Some(false)
    ensures r.Frozen? ==> 1 <= r.polls <= MaxFreezePolls && r.polls <= |answers| && answers[r.polls - 1] == Some(true)
    ensures r.NotFrozenInTime? <==>
      MaxFreezePolls <= |answers| && forall j :: 0 <= j < MaxFreezePolls ==> answers[j] == Some(false)
    ensures r.FreezePending? <==>
      |answers| < MaxFreezePolls && forall j :: 0 <= j < |answers| ==> answers[j] == Some(false)
    ensures r.FreezeReadFailed? ==> r.message == FreezeReadMessage(cloneName)
  {
    FreezeLoop(cloneName, answers, 0)
  }

  function FreezeLoop(cloneName: string, answers: seq<Option<bool>>, i: nat): (r: FreezeWait)
    requires i <= MaxFreezePolls
    requires forall j :: 0 <= j < i && j < |answers| ==> answers[j] == Some(false)
    requires i <= |answers|
    ensures r.Frozen? <==>
      exists k :: i <= k < MaxFreezePolls && k < |answers| && answers[k] == Some(true)
        && forall j :: i <= j < k ==> answers[j] == Some(false)
    ensures r.Frozen? ==> i + 1 <= r.polls <= MaxFreezePolls && r.polls <= |answers| && answers[r.polls - 1] == Some(true)
    ensures r.NotFrozenInTime? <==>
      MaxFreezePolls <= |answers| && forall j :: i <= j < MaxFreezePolls ==> answers[j] == Some(false)
    ensures r.FreezePending? <==>
      |answers| < MaxFreezePolls && forall j :: i <= j < |answers| ==> answers[j] == Some(false)
    ensures r.FreezeReadFailed? ==> r.message == FreezeReadMessage(cloneName)
    decreases MaxFreezePolls - i
  {
    if i == MaxFreezePolls then NotFrozenInTime
    else if i == |answers| then FreezePending
    else match answers[i]
      case None => FreezeReadFailed(FreezeReadMessage(cloneName))
      case Some(true) => Frozen(i + 1)
      case Some(false) => FreezeLoop(cloneName, answers, i + 1)
  }
}

=== FILE: process_registry.dfy ===
/** `HandlerBuildProcessManager` and `InstacloneHandlerImpl`: the agent's
    correlation map from a build step's uuid to its process, shared by the
    manager (which registers and removes) and the server-command handler
    (which dispatches status updates). */
module ProcessRegistry {
  import opened VimTypes

  /** The manager and, through the same map, the handler it registered.
      `handlerRegistered` records whether the registration call succeeded. */
  datatype Manager<P> = Manager(processMap: map<string, P>, handlerRegistered: bool)

  /** Construction: the map starts empty; a failure to register the handler
      is logged, never thrown, so a manager always results. */
  function NewManager<P>(registration: Call): (r: Manager<P>)
    ensures r.processMap == map[]
    ensures r.handlerRegistered <==> registration.Ok?
  {
    Manager(map[], registration.Ok?)
  }

  /** `register`: maps `uuid` to the process, replacing any earlier entry. */
  function Register<P>(m: map<string, P>, uuid: string, p: P): (r: map<string, P>)
    ensures r.Keys == m.Keys + {uuid} && r[uuid] == p
    ensures forall u :: u in m && u != uuid ==> r[u] == m[u]
  {
    m[uuid := p]
  }

  /** `removeBuildProcess`: drops that uuid only; an absent uuid is a no-op. */
  function RemoveBuildProcess<P>(m: map<string, P>, uuid: string): (r: map<string, P>)
    ensures r.Keys == m.Keys - {uuid}
    ensures forall u :: u in r ==> r[u] == m[u]
    ensures uuid !in m ==> r == m
  {
    map u | u in m && u != uuid :: m[u]
  }

  datatype Delivery<P> = Delivered(process: P, status: string) | Ignored

  /** `updateStatus` of the handler: forwards the status unchanged to the
      process under that uuid; an unknown uuid is ignored. The map is only
      read. */
  function Dispatch<P>(m: map<string, P>, uuid: string, status: string): (r: Delivery<P>)
    ensures r.Delivered? <==> uuid in m
    ensures r.Delivered? ==> r.process == m[uuid] && r.status == status
  {
    if uuid in m then Delivered(m[uuid], status) else Ignored
  }

  /** A registration is visible to the handler at once. */
  lemma DispatchSeesRegistration<P>(m: map<string, P>, uuid: string, p: P, status: string)
    ensures Dispatch(Register(m, uuid, p), uuid, status) == Delivered(p, status)
  {
  }

  /** After a removal the handler ignores that uuid. */
  lemma DispatchSeesRemoval<P>(m: map<string, P>, uuid: string, status: string)
    ensures Dispatch(RemoveBuildProcess(m, uuid), uuid, status) == Ignored
  {
  }

  /** Registering or removing one uuid does not change what another uuid
      dispatches to. */
  lemma OtherEntriesUnaffected<P>(m: map<string, P>, uuid: string, p: P, other: string, status: string)
    requires other != uuid
    ensures Dispatch(Register(m, uuid, p), other, status) == Dispatch(m, other, status)
    ensures Dispatch(RemoveBuildProcess(m, uuid), other, status) == Dispatch(m, other, status)
  {
  }

  /** Registering then removing a fresh uuid leaves the map as it was. */
  lemma RegisterRemoveFresh<P>(m: map<string, P>, uuid: string, p: P)
    requires uuid !in m
    ensures RemoveBuildProcess(Register(m, uuid, p), uuid) == m
  {
  }
}

=== FILE: profile_data.dfy ===
/** `CloudProfileDataImpl`: the value object the plugin hands to TeamCity
    when it creates or updates a cloud profile, with the properties map
    TeamCity reads back from it. */
module ProfileData {
  import opened Wrappers
  import opened Numeric
  import opened Text

  /** An image's parameters as TeamCity stores them; opaque here. */
  datatype ImageParameters = ImageParameters(id: string, parameters: map<string, string>)

  datatype Profile = Profile(
    cloudCode: string,
    name: string,
    description: string,
    terminateIdleTime: Option<int>,
    enabled: bool,
    custom: map<string, string>,
    images: seq<ImageParameters>)

  const NameKey: string := "name"
  const CloudCodeKey: string := "cloud-code"
  const DescriptionKey: string := "description"
  const EnabledKey: string := "enabled"
  const TerminateIdleTimeKey: string := "terminate-idle-time"

  /** The keys `getProfileProperties` fills from the fields. */
  const FieldKeys: set<string> := {NameKey, CloudCodeKey, DescriptionKey, EnabledKey, TerminateIdleTimeKey}

  const MillisPerMinute: int := 60 * 1000

  /** Kotlin's `Boolean.toString()`. */
  function BoolToString(b: bool): (r: string)
    ensures r == "true" || r == "false"
  {
    if b then "true" else "false"
  }

  /** `java.lang.Boolean.parseBoolean`, for the two rendered forms. */
  lemma BoolToStringReadsBack(a: bool, b: bool)
    ensures BoolToString(a) == BoolToString(b) <==> a == b
  {
    if a != b {
      assert BoolToString(a)[0] != BoolToString(b)[0];
    }
  }

  /** The idle time as the properties show it: the milliseconds cut to whole
      minutes by two truncating divisions, or "" when there is none. */
  function IdleMinutes(terminateIdleTime: Option<int>): (r: string)
    requires terminateIdleTime.Some? ==> IsLong(terminateIdleTime.value)
    ensures terminateIdleTime.None? <==> r == ""
  {
    match terminateIdleTime
      case None => ""
      case Some(t) => IntToString(TruncDiv(TruncDiv(t, 60), 1000))
  }

  /** `getProfileProperties`: the custom properties with the five field keys
      written over them. */
  function ProfileProperties(p: Profile): (r: map<string, string>)
    requires p.terminateIdleTime.Some? ==> IsLong(p.terminateIdleTime.value)
    ensures r.Keys == p.custom.Keys + FieldKeys
    ensures forall k :: k in p.custom && k !in FieldKeys ==> r[k] == p.custom[k]
    ensures r[NameKey] == p.name && r[CloudCodeKey] == p.cloudCode && r[DescriptionKey] == p.description
    ensures r[EnabledKey] == BoolToString(p.enabled)
    ensures r[TerminateIdleTimeKey] == IdleMinutes(p.terminateIdleTime)
  {
    p.custom[NameKey := p.name][CloudCodeKey := p.cloudCode][DescriptionKey := p.description]
      [EnabledKey := BoolToString(p.enabled)][TerminateIdleTimeKey := IdleMinutes(p.terminateIdleTime)]
  }

  /** Dividing by 60 and then by 1000 cuts exactly like dividing by 60000,
      so a set idle time shows as its whole minutes, rounded toward zero. */
  lemma {:induction false} IdleTimeInWholeMinutes(t: int)
    requires IsLong(t)
    ensures TruncDiv(TruncDiv(t, 60), 1000) == TruncDiv(t, MillisPerMinute)
    ensures ParseLong(IdleMinutes(Some(t))) == Some(TruncDiv(t, MillisPerMinute))
    ensures t >= 0 ==> TruncDiv(t, MillisPerMinute) * MillisPerMinute <= t < TruncDiv(t, MillisPerMinute) * MillisPerMinute + MillisPerMinute
  {
    var q1 := TruncDiv(t, 60);
    var q2 := TruncDiv(q1, 1000);
    if t >= 0 {
      assert q2 * 60000 <= t by {
        assert q2 * 1000 <= q1;
        MulMono(q2 * 1000, q1, 60);
      }
      assert t < q2 * 60000 + 60000 by {
        assert q1 <= q2 * 1000 + 999;
        MulMono(q1, q2 * 1000 + 999, 60);
      }
      TruncDivUnique(t, MillisPerMinute, q2);
    } else {
      assert t <= q2 * 60000 by {
        assert q1 <= q2 * 1000;
        MulMono(q1, q2 * 1000, 60);
      }
      assert q2 * 60000 - 60000 < t by {
        assert q2 * 1000 - 999 <= q1;
        MulMono(q2 * 1000 - 999, q1, 60);
      }
      TruncDivUnique(t, MillisPerMinute, q2);
    }
    var m := TruncDiv(t, MillisPerMinute);
    assert IsLong(m) by {
      if t >= 0 { MulMono(1, MillisPerMinute, m); } else { MulMono(1, MillisPerMinute, -m); }
    }
    ParseLongOfIntToString(m);
  }

  lemma MulMono(a: int, b: int, c: nat)
    requires a <= b
    ensures a * c <= b * c
  {
  }

  /** A truncated quotient is the only number with its bracketing property. */
  lemma TruncDivUnique(a: int, b: int, q: int)
    requires b > 0
    requires a >= 0 ==> 0 <= q && q * b <= a < q * b + b
    requires a < 0 ==> q <= 0 && q * b - b < a <= q * b
    ensures TruncDiv(a, b) == q
  {
    var d := TruncDiv(a, b);
    if d < q {
      MulMono(d + 1, q, b);
    } else if d > q {
      MulMono(q + 1, d, b);
    }
  }

  /** `getImagesParameters`: a read-only view of the stored images. */
  function ImagesParameters(p: Profile): (r: seq<ImageParameters>)
    ensures |r| == |p.images| && forall i :: 0 <= i < |r| ==> r[i] == p.images[i]
  {
    p.images
  }

  // ---- equality and hashing ------------------------------------------------

  /** What `equals` may be handed: another profile, null, or an object of
      another class. */
  datatype Other = ProfileObject(profile: Profile) | NullRef | ForeignObject

  /** `equals`: same class and all seven fields equal (identity short-cuts
      to the same answer). */
  function Equals(p: Profile, other: Other): (r: bool)
    ensures r <==> other == ProfileObject(p)
  {
    match other
      case ProfileObject(q) =>
        && p.enabled == q.enabled && p.cloudCode == q.cloudCode && p.name == q.name
        && p.description == q.description && p.terminateIdleTime == q.terminateIdleTime
        && p.custom == q.custom && p.images == q.images
      case NullRef => false
      case ForeignObject => false
  }

  lemma EqualsIsAnEquivalence(p: Profile, q: Profile, s: Profile)
    ensures Equals(p, ProfileObject(p))
    ensures Equals(p, ProfileObject(q)) ==> Equals(q, ProfileObject(p))
    ensures Equals(p, ProfileObject(q)) && Equals(q, ProfileObject(s)) ==> Equals(p, ProfileObject(s))
    ensures !Equals(p, NullRef)
  {
  }

  /** `String.hashCode`: s[0]*31^(n-1) + ... + s[n-1] in 32-bit arithmetic. */
  function StringHash(s: string): (r: int)
    ensures IsInt(r)
  {
    if |s| == 0 then 0 else WrapInt(31 * StringHash(s[..|s| - 1]) + s[|s| - 1] as int)
  }

  /** `Boolean.hashCode`. */
  function BoolHash(b: bool): int {
    if b then 1231 else 1237
  }

  /** `Arrays.hashCode` over the element hashes, as `Objects.hash` computes it. */
  function ObjectsHash(hs: seq<int>): (r: int)
    ensures IsInt(r)
  {
    if |hs| == 0 then 1 else WrapInt(31 * ObjectsHash(hs[..|hs| - 1]) + hs[|hs| - 1])
  }

  /** The value `Arrays.hashCode` is documented to equal before 32-bit
      truncation: 31^n plus each element hash times 31 to its distance from
      the end. */
  function Poly(hs: seq<int>): int {
    if |hs| == 0 then 1 else 31 * Poly(hs[..|hs| - 1]) + hs[|hs| - 1]
  }

  lemma {:induction false} ObjectsHashIsPoly(hs: seq<int>)
    ensures (ObjectsHash(hs) - Poly(hs)) % 0x1_0000_0000 == 0
  {
    if |hs| > 0 {
      var init := hs[..|hs| - 1];
      var h := hs[|hs| - 1];
      ObjectsHashIsPoly(init);
      var x := 31 * ObjectsHash(init) + h;
      ScaleCongruence(ObjectsHash(init), Poly(init), h);
      SumOfMultiples(ObjectsHash(hs) - x, x - Poly(hs));
    }
  }

  lemma ScaleCongruence(u: int, v: int, h: int)
    requires (u - v) % 0x1_0000_0000 == 0
    ensures ((31 * u + h) - (31 * v + h)) % 0x1_0000_0000 == 0
  {
    var k := (u - v) / 0x1_0000_0000;
    assert u - v == 0x1_0000_0000 * k;
    assert (31 * u + h) - (31 * v + h) == 0x1_0000_0000 * (31 * k);
  }

  lemma SumOfMultiples(a: int, b: int)
    requires a % 0x1_0000_0000 == 0 && b % 0x1_0000_0000 == 0
    ensures (a + b) % 0x1_0000_0000 == 0
  {
    var i := a / 0x1_0000_0000;
    var j := b / 0x1_0000_0000;
    assert a + b == 0x1_0000_0000 * (i + j);
  }

  /** `hashCode`: `Objects.hash` over the seven fields in declaration order.
      The two collections hash by their own classes' rules, given here as
      functions; a `Long` hashes by folding its halves, also given. */
  function HashCode(p: Profile, longHash: int -> int, mapHash: map<string, string> -> int,
                    imagesHash: seq<ImageParameters> -> int): (r: int)
    ensures IsInt(r)
    ensures (r - Poly(FieldHashes(p, longHash, mapHash, imagesHash))) % 0x1_0000_0000 == 0
  {
    var hs := FieldHashes(p, longHash, mapHash, imagesHash);
    ObjectsHashIsPoly(hs);
    ObjectsHash(hs)
  }

  function FieldHashes(p: Profile, longHash: int -> int, mapHash: map<string, string> -> int,
                       imagesHash: seq<ImageParameters> -> int): (r: seq<int>)
    ensures |r| == 7
  {
    [StringHash(p.cloudCode), StringHash(p.name), StringHash(p.description),
     if p.terminateIdleTime.Some? then longHash(p.terminateIdleTime.value) else 0,
     BoolHash(p.enabled), mapHash(p.custom), imagesHash(p.images)]
  }

  /** Profiles that are `equals` have the same hash code. */
  lemma EqualProfilesHashAlike(p: Profile, q: Profile, longHash: int -> int, mapHash: map<string, string> -> int,
                               imagesHash: seq<ImageParameters> -> int)
    requires Equals(p, ProfileObject(q))
    ensures HashCode(p, longHash, mapHash, imagesHash) == HashCode(q, longHash, mapHash, imagesHash)
  {
  }
}

=== FILE: profiles_service.dfy ===
/** `CloudProfilesService`: how the plugin's REST layer turns create and
    update requests into the profile data it hands to TeamCity, and how a
    changed vCenter account is pushed into the profiles that use it. The
    cloud manager, the project lookup and Jackson are inputs. */
module ProfilesService {
  import opened Wrappers
  import opened Text
  import opened ImageConfig
  import opened ProfileData
  import opened ConfigProcessor

  const PasswordName: string := "vmwareInstaclonePassword"
  const UsernameName: string := "vmwareInstacloneUsername"
  const ProfileUuidName: string := "vmwareInstacloneProfileUuid"

  const NextHour: string := "next-hour"
  const TotalWorkTime: string := "total-work-time"
  const TerminateAfterBuild: string := "terminate-after-build"

  /** TeamCity's terminate conditions, dropped before every update. */
  const TerminateConditions: set<string> := {NextHour, TotalWorkTime, TerminateAfterBuild}

  /** What never leaves the server in a profile listing. */
  const AccountSecrets: set<string> := {PasswordName, UsernameName, VCenterAccountHashName}

  const ImagesParseFailure: string := "Failed to parse " + ImagesName + " custom profile parameter"

  // ---- property-map helpers ----------------------------------------------------------

  /** `removeVCenterAccount`: a copy without the credentials and the
      account hash. */
  function RemoveVCenterAccount(props: map<string, string>): (r: map<string, string>)
    ensures r.Keys == props.Keys - AccountSecrets
    ensures forall k :: k in r ==> r[k] == props[k]
  {
    props - AccountSecrets
  }

  /** A listing reveals no secret, and cleaning it again changes nothing. */
  lemma ListingHasNoSecrets(props: map<string, string>)
    ensures PasswordName !in RemoveVCenterAccount(props) && UsernameName !in RemoveVCenterAccount(props)
    ensures VCenterAccountHashName !in RemoveVCenterAccount(props)
    ensures RemoveVCenterAccount(RemoveVCenterAccount(props)) == RemoveVCenterAccount(props)
  {
  }

  /** `updateAccountHash`: a copy with only the hash replaced. */
  function UpdateAccountHash(props: map<string, string>, newHash: string): (r: map<string, string>)
    ensures r.Keys == props.Keys + {VCenterAccountHashName}
    ensures r[VCenterAccountHashName] == newHash
    ensures forall k :: k in props && k != VCenterAccountHashName ==> r[k] == props[k]
  {
    props[VCenterAccountHashName := newHash]
  }

  /** `shouldUpdateProfile`: the stored hash is missing or differs. */
  function ShouldUpdateProfile(props: map<string, string>, accountHash: string): (r: bool)
    ensures r <==> VCenterAccountHashName !in props || props[VCenterAccountHashName] != accountHash
  {
    Get(props, VCenterAccountHashName) != Some(accountHash)
  }

  /** Writing the new hash settles the profile, and a settled profile is
      left as it is. */
  lemma HashUpdateSettles(props: map<string, string>, accountHash: string)
    ensures !ShouldUpdateProfile(UpdateAccountHash(props, accountHash), accountHash)
    ensures !ShouldUpdateProfile(props, accountHash) ==> UpdateAccountHash(props, accountHash) == props
  {
  }

  /** `resetTerminateConditions`. */
  function ResetTerminateConditions(props: map<string, string>): (r: map<string, string>)
    ensures r.Keys == props.Keys - TerminateConditions
    ensures forall k :: k in r ==> r[k] == props[k]
  {
    props - TerminateConditions
  }

  /** `updateEnabledParameterIfPresent`. */
  function UpdateEnabledParameterIfPresent(enabled: bool, props: map<string, string>): (r: map<string, string>)
    ensures r.Keys == props.Keys
    ensures EnabledKey in r ==> r[EnabledKey] == BoolToString(enabled)
    ensures forall k :: k in r && k != EnabledKey ==> r[k] == props[k]
  {
    if EnabledKey in props then props[EnabledKey := BoolToString(enabled)] else props
  }

  /** `updateAccountProperties` of the account service: the account id and
      its current hash, or an error for an unknown id. */
  function UpdateAccountProperties(accountId: string, accounts: map<string, Account>, props: map<string, string>)
    : (r: Result<map<string, string>, string>)
    ensures r.Failure? <==> accountId !in accounts
    ensures r.Failure? ==> r.error == "Cannot find vCenterAccount by ID " + accountId
    ensures r.Success? ==>
      && r.value.Keys == props.Keys + {VCenterAccountName, VCenterAccountHashName}
      && r.value[VCenterAccountName] == accountId
      && r.value[VCenterAccountHashName] == accounts[accountId].hash
      && forall k :: k in props && k != VCenterAccountName && k != VCenterAccountHashName ==> r.value[k] == props[k]
  {
    if accountId !in accounts then Failure("Cannot find vCenterAccount by ID " + accountId)
    else
      assert VCenterAccountName != VCenterAccountHashName by {
        assert |VCenterAccountName| != |VCenterAccountHashName|;
      }
      Success(props[VCenterAccountName := accountId][VCenterAccountHashName := accounts[accountId].hash])
  }

  /** `updatePropImagesParameterIfPresent`: the images JSON pretty-printed
      again; `reformatted` is what Jackson gave (`None` when it threw). */
  function UpdatePropImagesParameterIfPresent(props: map<string, string>, reformatted: Option<string>)
    : (r: Result<map<string, string>, string>)
    ensures r.Failure? <==> ImagesName in props && reformatted.None?
    ensures r.Failure? ==> r.error == ImagesParseFailure
    ensures r.Success? ==> r.value.Keys == props.Keys
    ensures r.Success? ==> forall k :: k in props && k != ImagesName ==> r.value[k] == props[k]
    ensures r.Success? && ImagesName in props ==> r.value[ImagesName] == reformatted.value
  {
    if ImagesName !in props then Success(props)
    else match reformatted
      case None => Failure(ImagesParseFailure)
      case Some(pretty) => Success(props[ImagesName := pretty])
  }

  // ---- templates -------------------------------------------------------------

  /** The template of every image that has one, in entry order. */
  function Templates(entries: seq<(string, ICImageConfig)>): (r: seq<string>)
    ensures |r| <= |entries|
    ensures forall i :: 0 <= i < |entries| && entries[i].1.template.Some? ==> entries[i].1.template.value in r
    ensures forall x :: x in r ==> exists i :: 0 <= i < |entries| && entries[i].1.template == Some(x)
  {
    if |entries| == 0 then []
    else
      var prefix := entries[..|entries| - 1];
      var last := entries[|entries| - 1];
      var rest := Templates(prefix);
      var r := rest + (if last.1.template.Some? then [last.1.template.value] else []);
      assert forall i :: 0 <= i < |prefix| ==> entries[i] == prefix[i];
      assert forall x :: x in r ==> x in rest || last.1.template == Some(x);
      r
  }

  /** `getProfileTemplates`: nothing for a blank or unreadable images JSON. */
  function GetProfileTemplates(json: string, parsed: Parsed): (r: seq<string>)
    ensures IsBlank(json) || parsed.ParseError? ==> r == []
    ensures !IsBlank(json) && parsed.Images? ==> r == Templates(parsed.entries)
  {
    if IsBlank(json) then []
    else match parsed
      case ParseError(_) => []
      case Images(entries) => Templates(entries)
  }

  // ---- update and create ------------------------------------------------------------

  /** The fields of an update request the service reads; the account id is
      read by name. */
  datatype UpdateRequest = UpdateRequest(
    extProjectId: string,
    profileId: string,
    name: string,
    description: string,
    enabled: Option<bool>,
    vCenterAccount: string,
    terminateIdleTime: Option<int>,
    custom: map<string, string>)

  /** The keys `updateProfile` writes itself. */
  const UpdateKeys: set<string> := {VCenterAccountName, VCenterAccountHashName, ImagesName, EnabledKey}

  /** The property merge of `updateProfile`. */
  function MergeProperties(stored: map<string, string>, request: UpdateRequest, enabled: bool,
                           accounts: map<string, Account>, reformatted: Option<string>)
    : (r: Result<map<string, string>, string>)
    ensures r.Failure? <==>
      request.vCenterAccount !in accounts ||
      (reformatted.None? && (ImagesName in stored || ImagesName in request.custom))
    ensures r.Success? ==> MergedAsDocumented(stored, request, enabled, accounts, reformatted, r.value)
  {
    var reset := ResetTerminateConditions(stored);
    var overlaid := reset + request.custom;
    assert ImagesName in overlaid <==> ImagesName in stored || ImagesName in request.custom by {
      assert ImagesName !in TerminateConditions;
    }
    var withAccount :- UpdateAccountProperties(request.vCenterAccount, accounts, overlaid);
    var withImages :- UpdatePropImagesParameterIfPresent(withAccount, reformatted);
    var r := UpdateEnabledParameterIfPresent(enabled, withImages);
    MergeFacts(stored, request, enabled, accounts, reformatted, reset, overlaid, withAccount, withImages, r);
    Success(r)
  }

  /** What the merged properties hold, key by key: the account keys, the
      reformatted images, the effective `enabled`, the request's terminate
      conditions only, and otherwise the request's value over the stored
      one. */
  predicate MergedAsDocumented(stored: map<string, string>, request: UpdateRequest, enabled: bool,
                               accounts: map<string, Account>, reformatted: Option<string>, r: map<string, string>)
    requires request.vCenterAccount in accounts
  {
    && r.Keys == (stored.Keys - TerminateConditions) + request.custom.Keys + {VCenterAccountName, VCenterAccountHashName}
    && r[VCenterAccountName] == request.vCenterAccount
    && r[VCenterAccountHashName] == accounts[request.vCenterAccount].hash
    && (ImagesName in r ==> reformatted == Some(r[ImagesName]))
    && (EnabledKey in r ==> r[EnabledKey] == BoolToString(enabled))
    && (forall k :: k in TerminateConditions && k in r ==> k in request.custom && r[k] == request.custom[k])
    && (forall k :: k in r && k !in UpdateKeys ==>
          r[k] == if k in request.custom then request.custom[k] else stored[k])
  }

  lemma MergeFacts(stored: map<string, string>, request: UpdateRequest, enabled: bool,
                   accounts: map<string, Account>, reformatted: Option<string>,
                   reset: map<string, string>, overlaid: map<string, string>, withAccount: map<string, string>,
                   withImages: map<string, string>, r: map<string, string>)
    requires reset == ResetTerminateConditions(stored)
    requires overlaid == reset + request.custom
    requires UpdateAccountProperties(request.vCenterAccount, accounts, overlaid) == Success(withAccount)
    requires UpdatePropImagesParameterIfPresent(withAccount, reformatted) == Success(withImages)
    requires r == UpdateEnabledParameterIfPresent(enabled, withImages)
    ensures request.vCenterAccount in accounts
    ensures MergedAsDocumented(stored, request, enabled, accounts, reformatted, r)
  {
    UpdateKeysDistinct();
    assert r.Keys == (stored.Keys - TerminateConditions) + request.custom.Keys + {VCenterAccountName, VCenterAccountHashName};
    assert r[VCenterAccountName] == withAccount[VCenterAccountName];
    assert r[VCenterAccountHashName] == withAccount[VCenterAccountHashName];
    forall k | k in TerminateConditions && k in r
      ensures k in request.custom && r[k] == request.custom[k]
    {
      assert k !in reset && k !in UpdateKeys;
      assert r[k] == withImages[k] == withAccount[k] == overlaid[k];
    }
    forall k | k in r && k !in UpdateKeys
      ensures r[k] == if k in request.custom then request.custom[k] else stored[k]
    {
      assert r[k] == withImages[k] == withAccount[k] == overlaid[k];
    }
  }

  /** The keys the update writes are four different keys, none of them a
      terminate condition. */
  lemma UpdateKeysDistinct()
    ensures ImagesName != VCenterAccountName && ImagesName != VCenterAccountHashName && EnabledKey != ImagesName
    ensures EnabledKey != VCenterAccountName && EnabledKey != VCenterAccountHashName
    ensures VCenterAccountName != VCenterAccountHashName
    ensures forall k :: k in TerminateConditions ==> k !in UpdateKeys
  {
    assert ImagesName[16] != VCenterAccountName[16] && ImagesName[16] != VCenterAccountHashName[16];
    assert |VCenterAccountName| != |VCenterAccountHashName|;
  }

  /** `updateProfile`: the stored profile (`None` when it cannot be found)
      updated from the request. Images are dropped when asked; an absent
      idle time or `enabled` keeps the stored one. */
  function UpdateProfile(found: Option<Profile>, request: UpdateRequest, cleanImageParameters: bool,
                         accounts: map<string, Account>, reformatted: Option<string>): (r: Result<Profile, string>)
    ensures found.None? ==> r == Failure("Profile with projectId = " + request.extProjectId +
                                         " and profileId = " + request.profileId + " was not found")
    ensures found.Some? ==> (r.Failure? <==>
      request.vCenterAccount !in accounts ||
      (reformatted.None? && (ImagesName in found.value.custom || ImagesName in request.custom)))
    ensures r.Success? ==>
      var stored := found.value;
      var enabled := if request.enabled.Some? then request.enabled.value else stored.enabled;
      && r.value.cloudCode == stored.cloudCode
      && r.value.name == request.name && r.value.description == request.description
      && r.value.enabled == enabled
      && r.value.terminateIdleTime ==
           (if request.terminateIdleTime.Some? then request.terminateIdleTime else stored.terminateIdleTime)
      && r.value.images == (if cleanImageParameters then [] else stored.images)
      && MergedAsDocumented(stored.custom, request, enabled, accounts, reformatted, r.value.custom)
  {
    match found
      case None =>
        Failure("Profile with projectId = " + request.extProjectId + " and profileId = " + request.profileId + " was not found")
      case Some(stored) =>
        var enabled := request.enabled.GetOr(stored.enabled);
        var props :- MergeProperties(stored.custom, request, enabled, accounts, reformatted);
        Success(Profile(stored.cloudCode, request.name, request.description,
                        if request.terminateIdleTime.Some? then request.terminateIdleTime else stored.terminateIdleTime,
                        enabled, props, if cleanImageParameters then [] else stored.images))
  }

  /** The fields of a create request the service reads; the account id is
      read by name. */
  datatype CreateRequest = CreateRequest(
    cloudCode: string,
    extProjectId: string,
    name: string,
    description: string,
    enabled: bool,
    vCenterAccount: string,
    terminateIdleTime: Option<int>,
    custom: map<string, string>)

  /** `createProfile`: the images JSON reformatted, the account keys set, a
      fresh profile uuid, and a refusal when the project already has a
      profile of that name. `existingNames` are the project's profile names,
      `freshUuid` what `initProfileUUID` drew. */
  function CreateProfile(request: CreateRequest, projectId: string, existingNames: seq<string>,
                         accounts: map<string, Account>, reformatted: Option<string>, freshUuid: string)
    : (r: Result<Profile, string>)
    ensures r.Success? <==>
      && (ImagesName !in request.custom || reformatted.Some?)
      && request.vCenterAccount in accounts
      && request.name !in existingNames
    ensures (&& request.name in existingNames
             && (ImagesName !in request.custom || reformatted.Some?)
             && request.vCenterAccount in accounts) ==>
      r.Failure? &&
      r.error == "TC create profile already exists - duplicate - projectId = " + projectId +
                 " AND profileName=" + request.name
    ensures r.Success? ==>
      && r.value.custom.Keys == request.custom.Keys + {VCenterAccountName, VCenterAccountHashName, ProfileUuidName}
      && r.value.custom[ProfileUuidName] == freshUuid
      && r.value.custom[VCenterAccountName] == request.vCenterAccount
      && r.value.custom[VCenterAccountHashName] == accounts[request.vCenterAccount].hash
      && (forall k :: k in request.custom && k !in {VCenterAccountName, VCenterAccountHashName, ProfileUuidName, ImagesName}
            ==> r.value.custom[k] == request.custom[k])
      && r.value.images == []
      && r.value.cloudCode == request.cloudCode && r.value.name == request.name
      && r.value.description == request.description && r.value.enabled == request.enabled
      && r.value.terminateIdleTime == request.terminateIdleTime
  {
    var withImages :- UpdatePropImagesParameterIfPresent(request.custom, reformatted);
    var withAccount :- UpdateAccountProperties(request.vCenterAccount, accounts, withImages);
    var props := withAccount[ProfileUuidName := freshUuid];
    if request.name in existingNames then
      Failure("TC create profile already exists - duplicate - projectId = " + projectId +
              " AND profileName=" + request.name)
    else
      Success(Profile(request.cloudCode, request.name, request.description, request.terminateIdleTime,
                      request.enabled, props, []))
  }

  // ---- pushing an account change ------------------------------------------------------

  /** One profile's part of `updateProfileAccount`: a profile using the
      changed account whose stored hash is stale is updated with the new
      hash, keeping its images; `None` means it is left alone. */
  function RefreshProfile(extProjectId: string, profileId: string, stored: Profile, accountId: string,
                          accounts: map<string, Account>, reformatted: Option<string>): (r: Option<Result<Profile, string>>)
    requires accountId in accounts
    ensures r.None? <==> !ShouldUpdateProfile(stored.custom, accounts[accountId].hash)
  {
    var accountHash := accounts[accountId].hash;
    if !ShouldUpdateProfile(stored.custom, accountHash) then None
    else
      var request := UpdateRequest(extProjectId, profileId, stored.name, stored.description, Some(stored.enabled),
                                   accountId, stored.terminateIdleTime, UpdateAccountHash(stored.custom, accountHash));
      Some(UpdateProfile(Some(stored), request, false, accounts, reformatted))
  }

  /** A refreshed profile carries the new hash, so refreshing it again does
      nothing; it keeps its images, settings and every other property. */
  lemma RefreshSettles(extProjectId: string, profileId: string, stored: Profile, accountId: string,
                       accounts: map<string, Account>, reformatted: Option<string>, refreshed: Profile)
    requires accountId in accounts
    requires RefreshProfile(extProjectId, profileId, stored, accountId, accounts, reformatted) == Some(Success(refreshed))
    ensures !ShouldUpdateProfile(refreshed.custom, accounts[accountId].hash)
    ensures RefreshProfile(extProjectId, profileId, refreshed, accountId, accounts, reformatted).None?
    ensures refreshed.images == stored.images && refreshed.enabled == stored.enabled
    ensures refreshed.terminateIdleTime == stored.terminateIdleTime && refreshed.name == stored.name
    ensures forall k :: k in stored.custom && k !in UpdateKeys ==> k in refreshed.custom && refreshed.custom[k] == stored.custom[k]
  {
  }
}

=== FILE: properties.dfy ===
/** TeamCity's `InvalidProperty`: the key of a rejected property and why it
    was rejected. Both validators of the plugin report a list of these; an
    empty list means the properties are accepted. */
module Properties {

  datatype InvalidProperty = InvalidProperty(name: string, message: string)

  /** Some error in `errors` is about property `name`. */
  predicate Rejects(errors: seq<InvalidProperty>, name: string) {
    exists i :: 0 <= i < |errors| && errors[i].name == name
  }

  /** The messages reported for property `name`, in order. */
  function MessagesFor(errors: seq<InvalidProperty>, name: string): (r: seq<string>)
    ensures |r| <= |errors|
    ensures |r| == 0 <==> !Rejects(errors, name)
  {
    if |errors| == 0 then []
    else
      var rest := MessagesFor(errors[1..], name);
      assert Rejects(errors, name) <==> errors[0].name == name || Rejects(errors[1..], name) by {
        if Rejects(errors[1..], name) {
          var i :| 0 <= i < |errors[1..]| && errors[1..][i].name == name;
          assert errors[i + 1].name == name;
        }
        if Rejects(errors, name) && errors[0].name != name {
          var i :| 0 <= i < |errors| && errors[i].name == name;
          assert errors[1..][i - 1].name == name;
        }
      }
      if errors[0].name == name then [errors[0].message] + rest else rest
  }
}

=== FILE: property_collector.dfy ===
/** The vSphere property-collector helpers: property specs built from rows
    of type and property names, selection and traversal specs, and the two
    fixed traversal sets that walk the whole inventory from a folder. */
module PropertyCollector {
  import opened Wrappers

  datatype PropertySpec = PropertySpec(typeName: string, all: bool, pathSet: seq<string>)

  /** A selection spec names a traversal; a traversal spec is also a
      selection spec and says how to step from an object of a type along a
      property, then which traversals to apply next. */
  datatype Spec =
    | Selection(name: string)
    | Traversal(name: string, typeName: string, path: string, skip: bool, selectSet: seq<Spec>)

  datatype ObjectSpec = ObjectSpec(obj: string, skip: bool, selectSet: seq<Spec>)

  /** `creatObjectSpec`. */
  function CreateObjectSpec(obj: string, skip: bool, selectSet: seq<Spec>): (r: ObjectSpec)
    ensures r.obj == obj && r.skip == skip && r.selectSet == selectSet
  {
    ObjectSpec(obj, skip, selectSet)
  }

  /** `createPropertySpec`. */
  function CreatePropertySpec(typeName: string, all: bool, pathSet: seq<string>): (r: PropertySpec)
    ensures r.typeName == typeName && r.all == all && r.pathSet == pathSet
  {
    PropertySpec(typeName, all, pathSet)
  }

  /** `createSelectionSpec`: one selection per name, in order. */
  method CreateSelectionSpec(names: seq<string>) returns (r: seq<Spec>)
    ensures |r| == |names|
    ensures forall i :: 0 <= i < |r| ==> r[i].Selection? && r[i].name == names[i]
  {
    r := [];
    var i := 0;
    while i < |names|
      invariant 0 <= i <= |names| && |r| == i
      invariant forall j :: 0 <= j < i ==> r[j].Selection? && r[j].name == names[j]
    {
      r := r + [Selection(names[i])];
      i := i + 1;
    }
  }

  /** The same as a function, for the fixed traversal sets below. */
  function Selections(names: seq<string>): (r: seq<Spec>)
    ensures |r| == |names|
    ensures forall i :: 0 <= i < |r| ==> r[i] == Selection(names[i])
  {
    if |names| == 0 then [] else Selections(names[..|names| - 1]) + [Selection(names[|names| - 1])]
  }

  /** The loop and the recursive definition build the same selections. */
  method CreateSelectionSpecAgrees(names: seq<string>) returns (r: seq<Spec>)
    ensures r == Selections(names)
  {
    r := CreateSelectionSpec(names);
  }

  /** `createTraversalSpec`: never skipped. */
  function CreateTraversalSpec(name: string, typeName: string, path: string, selectSet: seq<Spec>): (r: Spec)
    ensures r.Traversal? && r.name == name && r.typeName == typeName && r.path == path
    ensures !r.skip && r.selectSet == selectSet
  {
    Traversal(name, typeName, path, false, selectSet)
  }

  /** The overload that names the next traversals. */
  function TraversalTo(name: string, typeName: string, path: string, next: seq<string>): (r: Spec)
    ensures r.Traversal? && r.name == name && !r.skip && |r.selectSet| == |next|
    ensures forall i :: 0 <= i < |next| ==> r.selectSet[i] == Selection(next[i])
  {
    CreateTraversalSpec(name, typeName, path, Selections(next))
  }

  /** `buildPropertySpecArray`: row i is a type followed by its properties;
      a row without properties asks for all of them. An empty row has no
      type, and reading it fails. */
  method BuildPropertySpecArray(rows: seq<seq<string>>) returns (r: Result<seq<PropertySpec>, string>)
    ensures r.Success? <==> forall i :: 0 <= i < |rows| ==> |rows[i]| > 0
    ensures r.Failure? ==> r.error == "Index 0 out of bounds for length 0"
    ensures r.Success? ==> |r.value| == |rows| && forall i :: 0 <= i < |rows| ==>
      && r.value[i].typeName == rows[i][0]
      && r.value[i].pathSet == rows[i][1..]
      && (r.value[i].all <==> |rows[i]| == 1)
  {
    var specs: seq<PropertySpec> := [];
    var i := 0;
    while i < |rows|
      invariant 0 <= i <= |rows| && |specs| == i
      invariant forall j :: 0 <= j < i ==> |rows[j]| > 0
      invariant forall j :: 0 <= j < i ==>
        specs[j].typeName == rows[j][0] && specs[j].pathSet == rows[j][1..] && (specs[j].all <==> |rows[j]| == 1)
    {
      if |rows[i]| == 0 {
        return Failure("Index 0 out of bounds for length 0");
      }
      var props := rows[i][1..];
      specs := specs + [CreatePropertySpec(rows[i][0], |props| == 0, props)];
      i := i + 1;
    }
    r := Success(specs);
  }

  /** Each spec gives its row back: the type followed by the path set. */
  method PropertySpecsReadBack(rows: seq<seq<string>>) returns (r: Result<seq<PropertySpec>, string>)
    ensures r.Success? ==> |r.value| == |rows| && forall i :: 0 <= i < |rows| ==> [r.value[i].typeName] + r.value[i].pathSet == rows[i]
  {
    r := BuildPropertySpecArray(rows);
    if r.Success? {
      forall i | 0 <= i < |rows| ensures [r.value[i].typeName] + r.value[i].pathSet == rows[i] {
        assert rows[i] == [rows[i][0]] + rows[i][1..];
      }
    }
  }

  // ---- the fixed traversal sets --------------------------------------------------------

  /** The traversals below folders, in the order `buildFullTraversalV2NoFolder`
      lists them. */
  function NoFolderTraversals(): (r: seq<Spec>)
    ensures |r| == 7
  {
    var rpToRp := TraversalTo("rpToRp", "ResourcePool", "resourcePool", ["rpToRp", "rpToVm"]);
    var rpToVm := CreateTraversalSpec("rpToVm", "ResourcePool", "vm", []);
    var crToRp := TraversalTo("crToRp", "ComputeResource", "resourcePool", ["rpToRp", "rpToVm"]);
    var crToH := CreateTraversalSpec("crToH", "ComputeResource", "host", []);
    var dcToHf := TraversalTo("dcToHf", "Datacenter", "hostFolder", ["visitFolders"]);
    var dcToVmf := TraversalTo("dcToVmf", "Datacenter", "vmFolder", ["visitFolders"]);
    var hToVm := TraversalTo("HToVm", "HostSystem", "vm", ["visitFolders"]);
    [dcToVmf, dcToHf, crToH, crToRp, rpToRp, hToVm, rpToVm]
  }

  /** `buildFullTraversal`: the folder walk first, then the seven others. */
  function BuildFullTraversal(): (r: seq<Spec>)
    ensures |r| == 8
    ensures r[0] == TraversalTo("visitFolders", "Folder", "childEntity",
                                ["visitFolders", "dcToHf", "dcToVmf", "crToH", "crToRp", "HToVm", "rpToVm"])
    ensures r[1..] == NoFolderTraversals()
  {
    [TraversalTo("visitFolders", "Folder", "childEntity",
                 ["visitFolders", "dcToHf", "dcToVmf", "crToH", "crToRp", "HToVm", "rpToVm"])]
    + NoFolderTraversals()
  }

  /** `buildFullTraversalV4`: a wider folder walk, the datastore, network and
      vApp traversals, then the seven others. */
  function BuildFullTraversalV4(): (r: seq<Spec>)
    ensures |r| == 11
    ensures r[0] == TraversalTo("visitFolders", "Folder", "childEntity",
                                ["visitFolders", "dcToHf", "dcToVmf", "dcToDs", "dcToNetf", "crToH", "crToRp", "HToVm", "rpToVm"])
    ensures r[1].name == "dcToDs" && r[2].name == "dcToNetf" && r[3].name == "vAppToRp"
    ensures r[4..] == NoFolderTraversals()
  {
    var dcToDs := TraversalTo("dcToDs", "Datacenter", "datastoreFolder", ["visitFolders"]);
    var vAppToRp := TraversalTo("vAppToRp", "VirtualApp", "resourcePool", ["rpToRp", "vAppToRp"]);
    var dcToNetf := TraversalTo("dcToNetf", "Datacenter", "networkFolder", ["visitFolders"]);
    var visitFolders := TraversalTo("visitFolders", "Folder", "childEntity",
                                    ["visitFolders", "dcToHf", "dcToVmf", "dcToDs", "dcToNetf", "crToH", "crToRp", "HToVm", "rpToVm"]);
    [visitFolders, dcToDs, dcToNetf, vAppToRp] + NoFolderTraversals()
  }

  function Names(specs: seq<Spec>): (r: seq<string>)
    ensures |r| == |specs| && forall i :: 0 <= i < |r| ==> r[i] == specs[i].name
  {
    if |specs| == 0 then [] else Names(specs[..|specs| - 1]) + [specs[|specs| - 1].name]
  }

  /** Every traversal the set refers to is defined in it. */
  predicate References(specs: seq<Spec>) {
    forall i, j :: 0 <= i < |specs| && specs[i].Traversal? && 0 <= j < |specs[i].selectSet| ==>
      specs[i].selectSet[j].name in Names(specs)
  }

  /** No traversal name is defined twice. */
  predicate Unique(names: seq<string>) {
    forall i, j :: 0 <= i < j < |names| ==> names[i] != names[j]
  }

  const FullTraversalNames: seq<string> :=
    ["visitFolders", "dcToVmf", "dcToHf", "crToH", "crToRp", "rpToRp", "HToVm", "rpToVm"]
  const FullTraversalV4Names: seq<string> :=
    ["visitFolders", "dcToDs", "dcToNetf", "vAppToRp", "dcToVmf", "dcToHf", "crToH", "crToRp", "rpToRp", "HToVm", "rpToVm"]

  /** The traversals below folders only lead to these three. */
  lemma NoFolderReferences()
    ensures forall i, j ::
      (0 <= i < |NoFolderTraversals()| && NoFolderTraversals()[i].Traversal? &&
       0 <= j < |NoFolderTraversals()[i].selectSet|) ==>
        NoFolderTraversals()[i].selectSet[j].name in ["rpToRp", "rpToVm", "visitFolders"]
  {
  }

  lemma FullTraversalIsClosed()
    ensures Names(BuildFullTraversal()) == FullTraversalNames
    ensures References(BuildFullTraversal())
  {
    var r := BuildFullTraversal();
    var n := Names(r);
    assert n == FullTraversalNames;
    NoFolderReferences();
    assert n[0] == "visitFolders" && n[5] == "rpToRp" && n[7] == "rpToVm";
    forall i, j | 0 <= i < |r| && r[i].Traversal? && 0 <= j < |r[i].selectSet| ensures r[i].selectSet[j].name in n {
      if i > 0 {
        assert r[i] == NoFolderTraversals()[i - 1];
      }
    }
  }

  lemma NoFolderNames()
    ensures Names(NoFolderTraversals()) == FullTraversalV4Names[4..]
  {
    var n := Names(NoFolderTraversals());
    assert forall k :: 0 <= k < 7 ==> n[k] == FullTraversalV4Names[4..][k];
  }

  lemma FullTraversalV4NamesRead()
    ensures Names(BuildFullTraversalV4()) == FullTraversalV4Names
  {
    var r := BuildFullTraversalV4();
    var n := Names(r);
    NoFolderNames();
    forall k | 0 <= k < 11 ensures n[k] == FullTraversalV4Names[k] {
      if k >= 4 {
        assert r[k] == NoFolderTraversals()[k - 4];
        assert Names(NoFolderTraversals())[k - 4] == FullTraversalV4Names[k];
      }
    }
  }

  lemma FullTraversalV4IsClosed()
    ensures Names(BuildFullTraversalV4()) == FullTraversalV4Names
    ensures References(BuildFullTraversalV4())
  {
    var r := BuildFullTraversalV4();
    FullTraversalV4NamesRead();
    var n := Names(r);
    NoFolderReferences();
    assert n[0] == "visitFolders" && n[8] == "rpToRp" && n[10] == "rpToVm";
    forall i, j | 0 <= i < |r| && r[i].Traversal? && 0 <= j < |r[i].selectSet| ensures r[i].selectSet[j].name in n {
      if i >= 4 {
        assert r[i] == NoFolderTraversals()[i - 4];
      }
    }
  }

  /** Two names differ when their lengths, first letters or fifth letters do. */
  function Fingerprint(name: string): (char, char, nat)
    requires |name| >= 5
  {
    (name[0], name[4], |name|)
  }

  lemma {:induction false} UniqueByFingerprint(names: seq<string>)
    requires forall i :: 0 <= i < |names| ==> |names[i]| >= 5
    requires forall i, j :: 0 <= i < j < |names| ==> Fingerprint(names[i]) != Fingerprint(names[j])
    ensures Unique(names)
  {
  }

  lemma UniqueNames()
    ensures Unique(FullTraversalNames) && Unique(FullTraversalV4Names)
  {
    var n := FullTraversalNames;
    var f := [('v', 't', 12), ('d', 'V', 7), ('d', 'H', 6), ('c', 'H', 5), ('c', 'R', 6), ('r', 'R', 6), ('H', 'm', 5), ('r', 'V', 6)];
    assert forall i :: 0 <= i < |n| ==> |n[i]| >= 5 && Fingerprint(n[i]) == f[i];
    UniqueByFingerprint(n);
    var m := FullTraversalV4Names;
    var g := [('v', 't', 12), ('d', 'D', 6), ('d', 'N', 8), ('v', 'T', 8), ('d', 'V', 7), ('d', 'H', 6),
              ('c', 'H', 5), ('c', 'R', 6), ('r', 'R', 6), ('H', 'm', 5), ('r', 'V', 6)];
    assert forall i :: 0 <= i < |m| ==> |m[i]| >= 5 && Fingerprint(m[i]) == g[i];
    UniqueByFingerprint(m);
  }

  /** The traversal names of both sets are unique. */
  lemma TraversalNamesAreUnique()
    ensures Unique(Names(BuildFullTraversal())) && Unique(Names(BuildFullTraversalV4()))
  {
    FullTraversalIsClosed();
    FullTraversalV4IsClosed();
    UniqueNames();
  }

  // ---- property values ------------------------------------------------------------

  /** A dynamic property value, known by its class name. */
  datatype PropertyValue = PropertyValue(className: string, payload: seq<string>)

  predicate OccursAt(s: string, t: string, i: int) {
    0 <= i <= |s| - |t| && s[i..i + |t|] == t
  }

  predicate ContainsText(s: string, t: string) {
    exists i :: 0 <= i <= |s| - |t| && OccursAt(s, t, i)
  }

  const NullPropertyMessage: string := "Unable to convertProperty on null object."

  /** `convertProperty`: null is rejected, a wrapper class named
      `ArrayOf...` is unwrapped through its getter (`unwrapped` is what the
      reflective call gave, `None` when it failed), and anything else comes
      back as it is. */
  function ConvertProperty(value: Option<PropertyValue>, unwrapped: Option<PropertyValue>)
    : (r: Result<Option<PropertyValue>, string>)
    ensures value.None? <==> r.Failure?
    ensures r.Failure? ==> r.error == NullPropertyMessage
    ensures value.Some? && !ContainsText(value.value.className, "ArrayOf") ==> r == Success(value)
    ensures value.Some? && ContainsText(value.value.className, "ArrayOf") ==> r == Success(unwrapped)
  {
    match value
      case None => Failure(NullPropertyMessage)
      case Some(v) => if ContainsText(v.className, "ArrayOf") then Success(unwrapped) else Success(value)
  }
}

=== FILE: protocol.dfy ===
/** The on-demand clone protocol end to end: the agent's build step logs
    the marker, the server reads it, runs the clone job and reports back to
    the step's uuid, and the step's `waitFor` returns the verdict. */
module CloneProtocol {
  import opened Wrappers
  import opened Numeric
  import opened VimTypes
  import opened InstanceState
  import opened ServiceMessage
  import opened CloneJob
  import opened BuildProcess
  import opened Detector

  /** The names both sides use for the message and its attributes agree. */
  lemma NamesAgree()
    ensures DetectorMessageName == MessageName
    ensures DetectorSuffixParameter == SuffixParameter
    ensures DetectorUuidAttribute == UuidAttribute
  {
  }

  /** The report the build step eventually receives: the immediate one,
      or the hook's once the job has completed. */
  function ServerReport(agentName: string, found: AgentMatch, attrs: seq<Attribute>, launch: Launch,
                        delivery: Call, completion: JobCompletion): (r: Option<Report>)
    ensures found.CloudInstance? && Lookup(attrs, DetectorSuffixParameter).Some? && !completion.Active? ==> r.Some?
    ensures r.Some? ==> (r.value.status == "OK" <==>
      found.CloudInstance? && CreateClone(found.instance) && launch.Launches? && completion.Completed?)
    ensures r.Some? ==> r.value.uuid == Lookup(attrs, DetectorUuidAttribute)
    ensures r.Some? ==> (r.value.delivered <==> r.value.uuid.Some? && delivery.Ok?)
  {
    var t := Translate(agentName, found, attrs, launch, delivery);
    if t.report.Some? then t.report
    else if t.hook then OnCompletion(completion, attrs, delivery)
    else None
  }

  /** A delivered report reaches the step through the agent's handler. */
  function Deliver(a: Agent, report: Report): (r: Agent)
    requires Consistent(a)
    ensures Consistent(r)
    ensures report.delivered && report.uuid.Some? ==> r == DispatchStatus(a, report.uuid.value, report.status)
    ensures !report.delivered ==> r == a
  {
    if report.delivered && report.uuid.Some? then DispatchStatus(a, report.uuid.value, report.status) else a
  }

  /** A build step asking for a clone of one of this plug-in's instances
      ends FINISHED_SUCCESS exactly when the instance could be cloned, the
      job was launched and it completed without a cause; otherwise it ends
      FINISHED_FAILED. Requires a suffix and uuid that need no escaping, a
      readable timeout, and a report that reaches the agent. */
  lemma {:induction false} StepGetsTheVerdict(a: Agent, uuid: string, agentName: string, inst: Instance, template: string,
                                              launch: Launch, completion: JobCompletion, timedOut: bool)
    requires Consistent(a) && uuid in a.processes
    requires a.processes[uuid] == NewProcess(uuid, a.processes[uuid].params)
    requires SuffixParameter in a.processes[uuid].params
    requires PlainValue(a.processes[uuid].params[SuffixParameter]) && PlainValue(uuid)
    requires GetTimeout(a.processes[uuid].params).Success?
    requires GetTimeout(a.processes[uuid].params).value + GraceSeconds <= LongMax
    requires !completion.Active?
    ensures
      var a1 := Start(a, uuid, true).agent;
      var marker := CallJob(a1.processes[uuid], false).marker;
      Parse(marker).Some? &&
      var attrs := Parse(marker).value.attributes;
      var report := ServerReport(agentName, CloudInstance(inst, template), attrs, launch, Ok, completion);
      && report.Some? && report.value.delivered && report.value.uuid == Some(uuid)
      && var a4 := RunCall(Deliver(a1, report.value), uuid, timedOut);
         WaitFor(a4, uuid, false).0 ==
           Returned(if CreateClone(inst) && launch.Launches? && completion.Completed? then FinishedSuccess else FinishedFailed)
  {
    var params := a.processes[uuid].params;
    var a1 := Start(a, uuid, true).agent;
    StepMarker(a, uuid);
    var attrs := Parse(CallJob(a1.processes[uuid], false).marker).value.attributes;
    ServerVerdict(agentName, inst, template, launch, completion, attrs, params[SuffixParameter], uuid);
    var report := ServerReport(agentName, CloudInstance(inst, template), attrs, launch, Ok, completion);
    ConfirmedRun(a, uuid, report.value.status, timedOut);
  }

  /** The marker the started step logs carries its suffix and uuid to the server. */
  lemma StepMarker(a: Agent, uuid: string)
    requires Consistent(a) && uuid in a.processes
    requires SuffixParameter in a.processes[uuid].params
    requires PlainValue(a.processes[uuid].params[SuffixParameter]) && PlainValue(uuid)
    requires a.processes[uuid] == NewProcess(uuid, a.processes[uuid].params)
    ensures
      var a1 := Start(a, uuid, true).agent;
      var marker := CallJob(a1.processes[uuid], false).marker;
      && Parse(marker).Some?
      && Lookup(Parse(marker).value.attributes, DetectorSuffixParameter) == Some(a.processes[uuid].params[SuffixParameter])
      && Lookup(Parse(marker).value.attributes, DetectorUuidAttribute) == Some(uuid)
  {
    var params := a.processes[uuid].params;
    var a1 := Start(a, uuid, true).agent;
    assert a1.processes[uuid].params == params && a1.processes[uuid].uuid == uuid;
    assert CallJob(a1.processes[uuid], false).marker == Marker(Some(params[SuffixParameter]), uuid);
    MarkerReadsBack(params[SuffixParameter], uuid);
    NamesAgree();
  }

  /** A request carrying a suffix and a uuid, for one of this plug-in's
      instances, gets a delivered report addressed to that uuid whose status
      says whether the clone job succeeded. */
  lemma ServerVerdict(agentName: string, inst: Instance, template: string, launch: Launch, completion: JobCompletion,
                      attrs: seq<Attribute>, suffix: string, uuid: string)
    requires Lookup(attrs, DetectorSuffixParameter) == Some(suffix) && Lookup(attrs, DetectorUuidAttribute) == Some(uuid)
    requires !completion.Active?
    ensures
      var report := ServerReport(agentName, CloudInstance(inst, template), attrs, launch, Ok, completion);
      && report.Some? && report.value.delivered && report.value.uuid == Some(uuid)
      && StatusOf(report.value.status) ==
           (if CreateClone(inst) && launch.Launches? && completion.Completed? then FinishedSuccess else FinishedFailed)
  {
  }
}

=== FILE: run_type.dfy ===
/** The build runner "VSphere Instaclone" as the server sees it: the check of
    its three runner parameters before a build configuration is saved, and
    the values a new build step starts with. */
module RunType {
  import opened Text
  import opened Properties
  import CloneFamily
  import ServiceMessage
  import BuildProcess

  const SuffixName: string := "templateNameSuffix"
  const TimeoutName: string := "templateTimeout"
  const CloneNumberLimitName: string := "cloneNumberLimit"
  const DefaultTimeoutMinutes: nat := 3

  const SuffixMessage: string := "Value can contain only alphabet characters with '-' or '_'"
  const NotDefinedMessage: string := "Value is not defined"
  const InvalidTimeoutMessage: string := "Invalid timeout value. Not a valid number"
  const InvalidNumberMessage: string := "Invalid value. Not a valid number"
  const TooSmallMessage: string := "Value must be >= 1"

  /** One character of the class `[a-zA-Z-0-9_]`: the ranges a-z, A-Z and
      0-9, the '-' standing between two ranges taken literally, and '_'. */
  predicate SuffixChar(c: char) {
    'a' <= c <= 'z' || 'A' <= c <= 'Z' || '0' <= c <= '9' || c == '-' || c == '_'
  }

  /** A whole-string match of `^[a-zA-Z-0-9_]*$`. */
  predicate SuffixPattern(s: string) {
    forall i :: 0 <= i < |s| ==> SuffixChar(s[i])
  }

  /** A whole-string match of `^[0-9]{1,7}+$`: one to seven ASCII digits. */
  predicate ShortNumber(s: string) {
    1 <= |s| <= 7 && AllDigits(s)
  }

  /** What the validator accepts, stated key by key. */
  predicate Accepted(m: map<string, string>) {
    && (SuffixName in m ==> SuffixPattern(m[SuffixName]))
    && TimeoutName in m && ShortNumber(m[TimeoutName])
    && CloneNumberLimitName in m && ShortNumber(m[CloneNumberLimitName])
    && DigitsValue(m[CloneNumberLimitName]) >= 1
  }

  /** The position of a key's checks in the validator. */
  function Rank(name: string): nat {
    if name == SuffixName then 0 else if name == TimeoutName then 1 else 2
  }

  function SuffixErrors(m: map<string, string>): (r: seq<InvalidProperty>)
    ensures forall i :: 0 <= i < |r| ==> r[i].name == SuffixName
    ensures |r| <= 1
    ensures r == [] <==> (SuffixName in m ==> SuffixPattern(m[SuffixName]))
    ensures MessagesFor(r, SuffixName) == if r == [] then [] else [SuffixMessage]
  {
    if SuffixName in m && !SuffixPattern(m[SuffixName]) then [InvalidProperty(SuffixName, SuffixMessage)]
    else []
  }

  function TimeoutErrors(m: map<string, string>): (r: seq<InvalidProperty>)
    ensures forall i :: 0 <= i < |r| ==> r[i].name == TimeoutName
    ensures |r| <= 1
    ensures r == [] <==> TimeoutName in m && ShortNumber(m[TimeoutName])
    ensures MessagesFor(r, TimeoutName) ==
      if TimeoutName !in m then [NotDefinedMessage] else if r == [] then [] else [InvalidTimeoutMessage]
  {
    if TimeoutName !in m then [InvalidProperty(TimeoutName, NotDefinedMessage)]
    else if !ShortNumber(m[TimeoutName]) then [InvalidProperty(TimeoutName, InvalidTimeoutMessage)]
    else []
  }

  /** The two checks of `cloneNumberLimit` are exclusive: `toLong` is only
      consulted for a valid number, which it always parses. */
  function CloneNumberLimitErrors(m: map<string, string>): (r: seq<InvalidProperty>)
    ensures forall i :: 0 <= i < |r| ==> r[i].name == CloneNumberLimitName
    ensures |r| <= 1
    ensures r == [] <==>
      CloneNumberLimitName in m && ShortNumber(m[CloneNumberLimitName]) && DigitsValue(m[CloneNumberLimitName]) >= 1
    ensures MessagesFor(r, CloneNumberLimitName) ==
      if CloneNumberLimitName !in m then [NotDefinedMessage]
      else if !ShortNumber(m[CloneNumberLimitName]) then [InvalidNumberMessage]
      else if r == [] then [] else [TooSmallMessage]
  {
    if CloneNumberLimitName !in m then [InvalidProperty(CloneNumberLimitName, NotDefinedMessage)]
    else
      var value := m[CloneNumberLimitName];
      var isValidNumber := ShortNumber(value);
      (if !isValidNumber then [InvalidProperty(CloneNumberLimitName, InvalidNumberMessage)] else [])
      + (if isValidNumber && DigitsValue(value) < 1 then [InvalidProperty(CloneNumberLimitName, TooSmallMessage)] else [])
  }

  /** The runner properties processor. */
  function Validate(m: map<string, string>): (r: seq<InvalidProperty>)
    ensures r == [] <==> Accepted(m)
    ensures forall i, j :: 0 <= i < j < |r| ==> Rank(r[i].name) < Rank(r[j].name)
    ensures MessagesFor(r, SuffixName) ==
      (if SuffixName in m && !SuffixPattern(m[SuffixName]) then [SuffixMessage] else [])
    ensures MessagesFor(r, TimeoutName) ==
      (if TimeoutName !in m then [NotDefinedMessage]
       else if !ShortNumber(m[TimeoutName]) then [InvalidTimeoutMessage]
       else [])
    ensures MessagesFor(r, CloneNumberLimitName) ==
      (if CloneNumberLimitName !in m then [NotDefinedMessage]
       else if !ShortNumber(m[CloneNumberLimitName]) then [InvalidNumberMessage]
       else if DigitsValue(m[CloneNumberLimitName]) < 1 then [TooSmallMessage]
       else [])
  {
    var s := SuffixErrors(m);
    var t := TimeoutErrors(m);
    var c := CloneNumberLimitErrors(m);
    NamesDistinct();
    MessagesOfParts(s, t, c);
    OrderOfParts(s, t, c);
    assert |s + t + c| == |s| + |t| + |c|;
    s + t + c
  }

  lemma NamesDistinct()
    ensures SuffixName != TimeoutName && SuffixName != CloneNumberLimitName && TimeoutName != CloneNumberLimitName
    ensures Rank(SuffixName) == 0 && Rank(TimeoutName) == 1 && Rank(CloneNumberLimitName) == 2
  {
    assert SuffixName[8] != TimeoutName[8];
    assert SuffixName[0] != CloneNumberLimitName[0];
    assert TimeoutName[0] != CloneNumberLimitName[0];
  }

  lemma OrderOfParts(s: seq<InvalidProperty>, t: seq<InvalidProperty>, c: seq<InvalidProperty>)
    requires forall i :: 0 <= i < |s| ==> s[i].name == SuffixName
    requires forall i :: 0 <= i < |t| ==> t[i].name == TimeoutName
    requires forall i :: 0 <= i < |c| ==> c[i].name == CloneNumberLimitName
    requires |s| <= 1 && |t| <= 1 && |c| <= 1
    ensures forall i, j :: 0 <= i < j < |s + t + c| ==> Rank((s + t + c)[i].name) < Rank((s + t + c)[j].name)
  {
    NamesDistinct();
    var r := s + t + c;
    forall i | 0 <= i < |r| ensures Rank(r[i].name) == if i < |s| then 0 else if i < |s| + |t| then 1 else 2 {
      if i < |s| { assert r[i] == s[i]; }
      else if i < |s| + |t| { assert r[i] == t[i - |s|]; }
      else { assert r[i] == c[i - |s| - |t|]; }
    }
  }

  /** Messages of a concatenation of three single-key lists. */
  lemma MessagesOfParts(s: seq<InvalidProperty>, t: seq<InvalidProperty>, c: seq<InvalidProperty>)
    requires forall i :: 0 <= i < |s| ==> s[i].name == SuffixName
    requires forall i :: 0 <= i < |t| ==> t[i].name == TimeoutName
    requires forall i :: 0 <= i < |c| ==> c[i].name == CloneNumberLimitName
    ensures MessagesFor(s + t + c, SuffixName) == MessagesFor(s, SuffixName)
    ensures MessagesFor(s + t + c, TimeoutName) == MessagesFor(t, TimeoutName)
    ensures MessagesFor(s + t + c, CloneNumberLimitName) == MessagesFor(c, CloneNumberLimitName)
  {
    NamesDistinct();
    assert forall i :: 0 <= i < |s| ==> s[i].name != TimeoutName && s[i].name != CloneNumberLimitName;
    assert forall i :: 0 <= i < |t| ==> t[i].name != SuffixName && t[i].name != CloneNumberLimitName;
    assert forall i :: 0 <= i < |c| ==> c[i].name != SuffixName && c[i].name != TimeoutName;
    assert [] + s + (t + c) == s + t + c;
    MessagesOfOnly([], s, t + c, SuffixName);
    MessagesOfOnly(s, t, c, TimeoutName);
    assert s + t + c + [] == s + t + c;
    MessagesOfOnly(s + t, c, [], CloneNumberLimitName);
  }

  /** Messages for a name that only the middle list carries. */
  lemma MessagesOfOnly(a: seq<InvalidProperty>, b: seq<InvalidProperty>, c: seq<InvalidProperty>, name: string)
    requires forall i :: 0 <= i < |a| ==> a[i].name != name
    requires forall i :: 0 <= i < |c| ==> c[i].name != name
    ensures MessagesFor(a + b + c, name) == MessagesFor(b, name)
  {
    MessagesOfAppend(a + b, c, name);
    MessagesOfAppend(a, b, name);
    MessagesOfOthers(a, name);
    MessagesOfOthers(c, name);
  }

  lemma {:induction false} MessagesOfAppend(a: seq<InvalidProperty>, b: seq<InvalidProperty>, name: string)
    ensures MessagesFor(a + b, name) == MessagesFor(a, name) + MessagesFor(b, name)
  {
    if |a| > 0 {
      assert (a + b)[1..] == a[1..] + b;
      MessagesOfAppend(a[1..], b, name);
    } else {
      assert a + b == b;
    }
  }

  lemma MessagesOfOthers(a: seq<InvalidProperty>, name: string)
    requires forall i :: 0 <= i < |a| ==> a[i].name != name
    ensures MessagesFor(a, name) == []
  {
  }

  /** `getDefaultRunnerProperties`: no suffix, three minutes in seconds, and
      the number of clones the retention keeps. */
  function DefaultRunnerProperties(): map<string, string> {
    map[SuffixName := "", TimeoutName := NatToString(DefaultTimeoutMinutes * 60),
        CloneNumberLimitName := NatToString(CloneFamily.LeaveMultipleImagesCount)]
  }

  lemma DefaultsAreAccepted()
    ensures DefaultRunnerProperties()[TimeoutName] == "180"
    ensures DefaultRunnerProperties()[CloneNumberLimitName] == "2"
    ensures Validate(DefaultRunnerProperties()) == []
  {
    var d := DefaultRunnerProperties();
    NamesDistinct();
    assert d[SuffixName] == "" && d[TimeoutName] == NatToString(180) && d[CloneNumberLimitName] == NatToString(2);
    assert NatToString(180) == "180" by {
      assert NatToString(180) == NatToString(18) + [DigitChar(0)];
      assert NatToString(18) == NatToString(1) + [DigitChar(8)];
      assert NatToString(1) == [DigitChar(1)];
      assert DigitChar(0) == '0' && DigitChar(8) == '8' && DigitChar(1) == '1';
    }
    assert NatToString(2) == "2" by { assert DigitChar(2) == '2'; }
    assert Accepted(d);
  }

  /** A suffix the server accepts contains neither a quote nor a bar, so
      the agent's marker carrying it reads back intact. */
  lemma AcceptedSuffixIsPlain(m: map<string, string>)
    requires Accepted(m) && SuffixName in m
    ensures ServiceMessage.PlainValue(m[SuffixName])
  {
    var s := m[SuffixName];
    forall i | 0 <= i < |s| ensures s[i] != '\'' && s[i] != '|' {
      assert SuffixChar(s[i]);
    }
  }

  /** The agent reads the accepted timeout back with `toLong()` and always
      succeeds: seven digits are far below the range of a Long. */
  lemma AcceptedTimeoutIsUsed(m: map<string, string>)
    requires Accepted(m)
    ensures BuildProcess.TimeoutParameter == TimeoutName
    ensures BuildProcess.GetTimeout(m).Success?
    ensures DigitsValue(m[TimeoutName]) > 0 ==> BuildProcess.GetTimeout(m).value == DigitsValue(m[TimeoutName])
  {
    var s := m[TimeoutName];
    ShortNumberBound(s);
    assert s[0] != '-' && s[0] != '+' by { assert IsDigit(s[0]); }
  }

  lemma {:induction false} ShortNumberBound(s: string)
    requires AllDigits(s) && |s| <= 7
    ensures DigitsValue(s) < 10_000_000
  {
    if |s| > 0 {
      var p := s[..|s| - 1];
      assert AllDigits(p) by {
        forall i | 0 <= i < |p| ensures IsDigit(p[i]) { assert p[i] == s[i]; }
      }
      PrefixBound(p);
      Pow10AtMostMillion(|p|);
      assert DigitsValue(s) == DigitsValue(p) * 10 + DigitValue(s[|s| - 1]);
    }
  }

  lemma {:induction false} PrefixBound(p: string)
    requires AllDigits(p) && |p| <= 6
    ensures DigitsValue(p) < Pow10(|p|)
  {
    if |p| > 0 {
      var q := p[..|p| - 1];
      assert AllDigits(q) by {
        forall i | 0 <= i < |q| ensures IsDigit(q[i]) { assert q[i] == p[i]; }
      }
      PrefixBound(q);
      assert DigitsValue(p) == DigitsValue(q) * 10 + DigitValue(p[|p| - 1]);
      assert Pow10(|p|) == 10 * Pow10(|q|);
    }
  }

  lemma {:induction false} Pow10AtMostMillion(n: nat)
    requires n <= 6
    ensures Pow10(n) <= 1_000_000
    decreases 6 - n
  {
    if n < 6 {
      Pow10AtMostMillion(n + 1);
    }
  }

  function Pow10(n: nat): (r: nat)
    ensures r >= 1
  {
    if n == 0 then 1 else 10 * Pow10(n - 1)
  }
}

=== FILE: service_message.dfy ===
/** TeamCity service messages of the form
    `##teamcity[name key1='value1' key2='value2']`, as the agent writes them
    and the server reads them back into a name and attributes.

    The reader here is a simplified one: it accepts exactly the rendered
    form, with values that need no `|` escaping. */
module ServiceMessage {
  import opened Wrappers
  import opened Text

  const Prefix: string := "##teamcity["

  datatype Attribute = Attribute(key: string, value: string)

  datatype Message = Message(name: string, attributes: seq<Attribute>)

  /** A message name or attribute key that survives the round trip. */
  predicate PlainName(n: string) {
    |n| > 0 && ' ' !in n && '=' !in n && '\'' !in n
  }

  /** An attribute value written without escapes: no quote and no `|`. */
  predicate PlainValue(v: string) {
    '\'' !in v && '|' !in v
  }

  predicate WellFormed(m: Message) {
    PlainName(m.name) && forall a :: a in m.attributes ==> PlainName(a.key) && PlainValue(a.value)
  }

  function RenderAttribute(a: Attribute): string {
    " " + a.key + "='" + a.value + "'"
  }

  function RenderAttributes(attrs: seq<Attribute>): (r: string)
    ensures |attrs| == 0 <==> r == ""
    ensures |attrs| > 0 ==> r[0] == ' '
  {
    if |attrs| == 0 then "" else RenderAttribute(attrs[0]) + RenderAttributes(attrs[1..])
  }

  function Render(m: Message): (r: string)
    ensures StartsWith(r, Prefix) && EndsWith(r, "]")
  {
    Prefix + m.name + RenderAttributes(m.attributes) + "]"
  }

  /** Reads one ` key='value'` group at the front of `s`, returning the
      attribute and the text after it. */
  function SplitAttribute(s: string): (r: Option<(Attribute, string)>)
    ensures r.Some? ==> PlainValue(r.value.0.value) && |r.value.0.key| > 0 && |r.value.1| < |s|
  {
    if |s| == 0 || s[0] != ' ' then None else SplitKey(s[1..])
  }

  /** `key='` followed by a value. */
  function SplitKey(t: string): (r: Option<(Attribute, string)>)
    ensures r.Some? ==> PlainValue(r.value.0.value) && |r.value.0.key| > 0 && |r.value.1| < |t|
  {
    var eq := IndexOf(t, '=');
    if eq <= 0 || eq + 1 >= |t| || t[eq + 1] != '\'' then None
    else match SplitValue(t[eq + 2..])
      case None => None
      case Some((v, rest)) => Some((Attribute(t[..eq], v), rest))
  }

  /** A value up to its closing quote, and the text after the quote. */
  function SplitValue(s: string): (r: Option<(string, string)>)
    ensures r.Some? ==> PlainValue(r.value.0) && |r.value.1| < |s|
  {
    var close := IndexOf(s, '\'');
    if close < 0 || '|' in s[..close] then None else Some((s[..close], s[close + 1..]))
  }

  /** Reads ` key='value'` groups up to the end of `s`. */
  function ParseAttributes(s: string): (r: Option<seq<Attribute>>)
    ensures r.Some? ==> forall a :: a in r.value ==> PlainValue(a.value) && |a.key| > 0
    decreases |s|
  {
    if |s| == 0 then Some([])
    else match SplitAttribute(s)
      case None => None
      case Some((a, rest)) =>
        match ParseAttributes(rest)
        case None => None
        case Some(more) => Some([a] + more)
  }

  /** The name runs up to the first space; the attributes follow it. */
  function Parse(line: string): (r: Option<Message>)
    ensures r.Some? ==> StartsWith(line, Prefix) && EndsWith(line, "]") && |r.value.name| > 0
  {
    if |line| < |Prefix| + 1 || !StartsWith(line, Prefix) || !EndsWith(line, "]") then None
    else
      var body := line[|Prefix|..|line| - 1];
      var space := IndexOf(body, ' ');
      var name := if space < 0 then body else body[..space];
      if |name| == 0 then None
      else match ParseAttributes(body[|name|..])
        case None => None
        case Some(attrs) => Some(Message(name, attrs))
  }

  /** The two halves of a concatenation. */
  lemma Halves(a: string, b: string)
    ensures (a + b)[..|a|] == a && (a + b)[|a|..] == b
  {
  }

  lemma SplitValueRendered(v: string, tail: string)
    requires PlainValue(v)
    ensures SplitValue(v + (['\''] + tail)) == Some((v, tail))
  {
    assert v + ['\''] + tail == v + (['\''] + tail);
    IndexOfAfter(v, '\'', tail);
    Halves(v, ['\''] + tail);
  }

  lemma SplitKeyRendered(k: string, v: string, tail: string)
    requires PlainName(k) && PlainValue(v)
    ensures SplitKey(k + (['='] + (['\''] + (v + (['\''] + tail))))) == Some((Attribute(k, v), tail))
  {
    var rest := v + (['\''] + tail);
    var t := k + (['='] + (['\''] + rest));
    assert k + ['='] + (['\''] + rest) == t;
    IndexOfAfter(k, '=', ['\''] + rest);
    Halves(k, ['='] + (['\''] + rest));
    assert t[|k| + 2..] == rest;
    SplitValueRendered(v, tail);
  }

  lemma SplitRendered(a: Attribute, tail: string)
    requires PlainName(a.key) && PlainValue(a.value)
    ensures SplitAttribute(RenderAttribute(a) + tail) == Some((a, tail))
  {
    var t := a.key + (['='] + (['\''] + (a.value + (['\''] + tail))));
    assert RenderAttribute(a) + tail == [' '] + t;
    assert ([' '] + t)[1..] == t;
    SplitKeyRendered(a.key, a.value, tail);
  }

  lemma {:induction false} ParseRenderedAttributes(attrs: seq<Attribute>)
    requires forall a :: a in attrs ==> PlainName(a.key) && PlainValue(a.value)
    ensures ParseAttributes(RenderAttributes(attrs)) == Some(attrs)
    decreases |attrs|
  {
    if |attrs| > 0 {
      SplitRendered(attrs[0], RenderAttributes(attrs[1..]));
      ParseRenderedAttributes(attrs[1..]);
      assert [attrs[0]] + attrs[1..] == attrs;
    }
  }

  /** Reading a rendered well-formed message gives it back. */
  lemma ParseRender(m: Message)
    requires WellFormed(m)
    ensures Parse(Render(m)) == Some(m)
  {
    var line := Render(m);
    var attrs := RenderAttributes(m.attributes);
    var body := line[|Prefix|..|line| - 1];
    assert body == m.name + attrs;
    if |m.attributes| == 0 {
      assert body == m.name;
    } else {
      assert body == m.name + [' '] + attrs[1..];
      IndexOfAfter(m.name, ' ', attrs[1..]);
      assert body[..|m.name|] == m.name;
    }
    assert body[|m.name|..] == attrs;
    ParseRenderedAttributes(m.attributes);
  }

  /** The value of the first attribute with that key; the server reads a
      message's attributes as a map, and rendered keys are distinct. */
  function Lookup(attrs: seq<Attribute>, key: string): (r: Option<string>)
    ensures r.Some? <==> exists a :: a in attrs && a.key == key
    ensures r.Some? ==> Attribute(key, r.value) in attrs
  {
    if |attrs| == 0 then None
    else if attrs[0].key == key then Some(attrs[0].value)
    else Lookup(attrs[1..], key)
  }
}

=== FILE: session.dfy ===
/** `VimWrapper`: the cached vSphere session, the retry-on-re-login policy
    of `authenticated`, and property reads through the property collector.

    Each remote call is a scripted outcome. A script that runs out while the
    wrapper would still retry leaves it retrying. */
module Session {
  import opened Wrappers
  import opened VimTypes

  /** The wrapper's only mutable state: the cached session key, "" at first. */
  datatype Session = Session(sessionId: string)

  const NoSession: Session := Session("")

  /** What `sessionIsActive` answers, or that it threw. */
  datatype ActiveCheck = Active | Inactive | CheckThrows

  datatype LoginOutcome = LoggedIn(key: string) | LoginThrows(message: string)

  /** Whether `doLogin` regards the cached session as still alive: never for
      the empty key (the check is not even made), and a check that throws
      counts as "not active". */
  predicate SessionActive(s: Session, check: ActiveCheck) {
    s.sessionId != "" && check == Active
  }

  /** `doLogin`: refuses with the triggering fault's message while the cached
      session is alive; otherwise logs in and caches the new key. */
  function DoLogin(s: Session, faultMessage: string, check: ActiveCheck, login: LoginOutcome): (r: Result<Session, string>)
    ensures r.Success? <==> !SessionActive(s, check) && login.LoggedIn?
    ensures r.Success? ==> r.value.sessionId == login.key
    ensures SessionActive(s, check) ==> r == Failure(faultMessage)
    ensures !SessionActive(s, check) && login.LoginThrows? ==> r == Failure(login.message)
  {
    if SessionActive(s, check) then Failure(faultMessage)
    else match login
      case LoggedIn(key) => Success(Session(key))
      case LoginThrows(m) => Failure(m)
  }

  /** The first authentication fault always logs in: with no cached key the
      liveness answer is irrelevant. */
  lemma FirstLoginIgnoresCheck(faultMessage: string, check: ActiveCheck, login: LoginOutcome)
    ensures DoLogin(NoSession, faultMessage, check, login) == DoLogin(NoSession, faultMessage, Inactive, login)
  {
  }

  // ---- authenticated -----------------------------------------------------------------

  /** One run of the block: it returned, raised a SOAP fault with the given
      detail-entry names, or raised anything else. */
  datatype BlockOutcome<T> = Returns(value: T) | SoapFault(message: string, details: seq<string>) | OtherThrows(message: string)

  /** One run of the block together with what a re-login after it would see. */
  datatype Attempt<T> = Attempt(outcome: BlockOutcome<T>, check: ActiveCheck, login: LoginOutcome)

  datatype Auth<T> = AuthReturned(value: T, session: Session, calls: nat) | AuthThrew(message: string, session: Session) | AuthRetrying(session: Session)

  const NotAuthenticatedFault: string := "NotAuthenticatedFault"

  /** A SOAP fault with a `NotAuthenticatedFault` detail entry. */
  predicate IsAuthFault<T>(o: BlockOutcome<T>) {
    o.SoapFault? && NotAuthenticatedFault in o.details
  }

  /** The session is either kept or replaced by a key some login returned. */
  predicate FromLogins<T>(s: Session, attempts: seq<Attempt<T>>, s': Session) {
    s' == s || exists k :: 0 <= k < |attempts| && attempts[k].login == LoggedIn(s'.sessionId)
  }

  /** `authenticated`: runs the block; only a `NotAuthenticatedFault` leads
      to `doLogin` and another run, any other failure is rethrown. */
  function Authenticated<T>(s: Session, attempts: seq<Attempt<T>>): (r: Auth<T>)
    ensures |attempts| > 0 && attempts[0].outcome.Returns? ==> r == AuthReturned(attempts[0].outcome.value, s, 1)
    ensures |attempts| > 0 && !attempts[0].outcome.Returns? && !IsAuthFault(attempts[0].outcome) ==>
      r.AuthThrew? && r.session == s && r.message == attempts[0].outcome.message
    ensures r.AuthReturned? ==>
      && 1 <= r.calls <= |attempts| && attempts[r.calls - 1].outcome == Returns(r.value)
      && (forall k :: 0 <= k < r.calls - 1 ==> IsAuthFault(attempts[k].outcome))
    ensures r.AuthRetrying? ==> forall k :: 0 <= k < |attempts| ==> IsAuthFault(attempts[k].outcome)
    ensures FromLogins(s, attempts, r.session)
    decreases |attempts|
  {
    if |attempts| == 0 then AuthRetrying(s)
    else
      var a := attempts[0];
      match a.outcome
      case Returns(v) => AuthReturned(v, s, 1)
      case OtherThrows(m) => AuthThrew(m, s)
      case SoapFault(m, details) =>
        if NotAuthenticatedFault !in details then AuthThrew(m, s)
        else match DoLogin(s, m, a.check, a.login)
          case Failure(e) => AuthThrew(e, s)
          case Success(s') =>
            var rest := Authenticated(s', attempts[1..]);
            assert forall k :: 1 <= k < |attempts| ==> attempts[k] == attempts[1..][k - 1];
            match rest
            case AuthReturned(v, s'', n) => AuthReturned(v, s'', n + 1)
            case AuthThrew(e, s'') => AuthThrew(e, s'')
            case AuthRetrying(s'') => AuthRetrying(s'')
  }

  /** While the cached session is alive, an authentication fault is not
      answered by another login: the fault is rethrown. */
  lemma NoReloginWhileActive<T>(s: Session, attempts: seq<Attempt<T>>)
    requires |attempts| > 0 && IsAuthFault(attempts[0].outcome)
    requires SessionActive(s, attempts[0].check)
    ensures Authenticated(s, attempts) == AuthThrew(attempts[0].outcome.message, s)
  {
  }

  /** A block that keeps failing with authentication faults after each
      successful login is retried as long as the script lasts. */
  lemma {:induction false} RetriesOnlyAfterLogins<T>(s: Session, attempts: seq<Attempt<T>>)
    requires forall k :: 0 <= k < |attempts| ==> IsAuthFault(attempts[k].outcome)
    requires forall k :: 0 <= k < |attempts| ==> attempts[k].login.LoggedIn? && attempts[k].check != Active
    ensures Authenticated(s, attempts).AuthRetrying?
    decreases |attempts|
  {
    if |attempts| > 0 {
      var s' := DoLogin(s, attempts[0].outcome.message, attempts[0].check, attempts[0].login).value;
      assert forall k :: 1 <= k < |attempts| ==> attempts[k] == attempts[1..][k - 1];
      RetriesOnlyAfterLogins(s', attempts[1..]);
    }
  }

  // ---- getProperty -------------------------------------------------------------------

  /** The fault class of an entry of the missing set. */
  datatype FaultKind = NotAuthenticatedKind | InvalidPropertyKind | OtherFaultKind

  datatype MissingProperty = MissingProperty(kind: FaultKind, localizedMessage: Option<string>, faultMessage: string)

  /** The one object content `retrievePropertiesEx` returns. */
  datatype Content<V> = Content(missing: seq<MissingProperty>, values: seq<V>)

  datatype PropertyError =
    | InvalidPropertyError(message: string)
    | FaultError(localized: Option<string>)
    | CallError(message: string)
    | NoValue

  /** The first entry of the missing set that is not `NotAuthenticated`. */
  function FirstRealFault(missing: seq<MissingProperty>): (r: Option<nat>)
    ensures r.Some? ==> r.value < |missing| && missing[r.value].kind != NotAuthenticatedKind
    ensures r.Some? ==> forall j :: 0 <= j < r.value ==> missing[j].kind == NotAuthenticatedKind
    ensures r.None? <==> forall j :: 0 <= j < |missing| ==> missing[j].kind == NotAuthenticatedKind
  {
    if |missing| == 0 then None
    else if missing[0].kind != NotAuthenticatedKind then Some(0)
    else match FirstRealFault(missing[1..])
      case None => None
      case Some(j) => Some(j + 1)
  }

  /** The exception for a real missing-set fault: an invalid property names
      the property; anything else carries the fault's own message. */
  function MissingError(name: string, m: MissingProperty): (r: PropertyError)
    requires m.kind != NotAuthenticatedKind
    ensures r.InvalidPropertyError? <==> m.kind == InvalidPropertyKind
    ensures r.InvalidPropertyError? ==>
      r.message == "Invalid property '" + name + "' - error message: " + m.localizedMessage.GetOr(m.faultMessage)
    ensures r.FaultError? ==> r.localized == m.localizedMessage
  {
    if m.kind == InvalidPropertyKind then
      InvalidPropertyError("Invalid property '" + name + "' - error message: " + m.localizedMessage.GetOr(m.faultMessage))
    else FaultError(m.localizedMessage)
  }

  /** One pass of the `getProperty` loop: the read under `authenticated`,
      and, when every missing entry is an authentication fault, a re-login. */
  datatype Round<V> = Round(retrieve: seq<Attempt<Content<V>>>, check: ActiveCheck, login: LoginOutcome)

  datatype RoundEnd<V> = Got(value: V, session: Session) | Stopped(error: PropertyError, session: Session) | Relogged(session: Session) | RoundPending(session: Session)

  /** The message `doLogin` is given after an all-authentication missing set. */
  function ReloginMessage(missing: seq<MissingProperty>): string
    requires |missing| > 0
  {
    missing[0].localizedMessage.GetOr("Not Authenticated")
  }

  function PropertyRound<V>(s: Session, name: string, round: Round<V>): (r: RoundEnd<V>)
    ensures r.Got? <==> (
      var a := Authenticated(s, round.retrieve);
      a.AuthReturned? && |a.value.missing| == 0 && |a.value.values| > 0)
    ensures r.Got? ==> r.value == Authenticated(s, round.retrieve).value.values[0]
    ensures r.Relogged? ==> (
      var a := Authenticated(s, round.retrieve);
      && a.AuthReturned? && |a.value.missing| > 0
      && (forall j :: 0 <= j < |a.value.missing| ==> a.value.missing[j].kind == NotAuthenticatedKind)
      && round.login.LoggedIn? && r.session.sessionId == round.login.key)
    ensures (
      var a := Authenticated(s, round.retrieve);
      a.AuthReturned? && |a.value.missing| > 0
      && (forall j :: 0 <= j < |a.value.missing| ==> a.value.missing[j].kind == NotAuthenticatedKind)
      && DoLogin(a.session, ReloginMessage(a.value.missing), round.check, round.login).Success?) ==> (
      var a := Authenticated(s, round.retrieve);
      r == Relogged(DoLogin(a.session, ReloginMessage(a.value.missing), round.check, round.login).value))
    ensures r.Stopped? && r.error.InvalidPropertyError? ==> (
      var a := Authenticated(s, round.retrieve);
      && a.AuthReturned?
      && exists j :: 0 <= j < |a.value.missing| && a.value.missing[j].kind == InvalidPropertyKind
           && (forall i :: 0 <= i < j ==> a.value.missing[i].kind == NotAuthenticatedKind))
    ensures r.RoundPending? <==> Authenticated(s, round.retrieve).AuthRetrying?
  {
    match Authenticated(s, round.retrieve)
    case AuthRetrying(s') => RoundPending(s')
    case AuthThrew(e, s') => Stopped(CallError(e), s')
    case AuthReturned(content, s', _) =>
      if |content.missing| == 0 then
        if |content.values| == 0 then Stopped(NoValue, s') else Got(content.values[0], s')
      else match FirstRealFault(content.missing)
        case Some(j) => Stopped(MissingError(name, content.missing[j]), s')
        case None =>
          match DoLogin(s', ReloginMessage(content.missing), round.check, round.login)
          case Failure(e) => Stopped(CallError(e), s')
          case Success(s'') => Relogged(s'')
  }

  datatype PropertyEnd<V> = PropertyValue(value: V, session: Session) | PropertyFailed(error: PropertyError, session: Session) | PropertyRetrying(session: Session)

  /** `getProperty`: rounds until a value or an error; a re-login starts
      the next round with the new session. */
  function GetProperty<V>(s: Session, name: string, rounds: seq<Round<V>>): (r: PropertyEnd<V>)
    ensures |rounds| == 0 ==> r == PropertyRetrying(s)
    ensures r.PropertyValue? ==> exists k, s' :: 0 <= k < |rounds| && PropertyRound(s', name, rounds[k]) == Got(r.value, r.session)
    ensures r.PropertyFailed? ==> exists k, s' :: 0 <= k < |rounds| && PropertyRound(s', name, rounds[k]) == Stopped(r.error, r.session)
    decreases |rounds|
  {
    if |rounds| == 0 then PropertyRetrying(s)
    else match PropertyRound(s, name, rounds[0])
      case Got(v, s') => PropertyValue(v, s')
      case Stopped(e, s') => PropertyFailed(e, s')
      case RoundPending(s') => PropertyRetrying(s')
      case Relogged(s') =>
        var rest := GetProperty(s', name, rounds[1..]);
        assert forall k :: 1 <= k < |rounds| ==> rounds[k] == rounds[1..][k - 1];
        rest
  }

  /** The session round `k` starts with when every round before it ended
      in a re-login, each starting with the session the one before left;
      `None` once an earlier round decided the read. */
  function SessionBefore<V>(s: Session, name: string, rounds: seq<Round<V>>, k: nat): (r: Option<Session>)
    requires k <= |rounds|
    ensures k == 0 ==> r == Some(s)
    decreases k
  {
    if k == 0 then Some(s)
    else match SessionBefore(s, name, rounds, k - 1)
      case None => None
      case Some(t) =>
        match PropertyRound(t, name, rounds[k - 1])
        case Relogged(t') => Some(t')
        case _ => None
  }

  /** Each link of the chain: round `k` starts with a session exactly when
      round `k - 1` did and re-logged in, handing over its new session. */
  lemma SessionBeforeLink<V>(s: Session, name: string, rounds: seq<Round<V>>, k: nat)
    requires 0 < k <= |rounds|
    ensures var t := SessionBefore(s, name, rounds, k - 1);
      var r := SessionBefore(s, name, rounds, k);
      && (r.Some? <==> t.Some? && PropertyRound(t.value, name, rounds[k - 1]).Relogged?)
      && (r.Some? ==> r.value == PropertyRound(t.value, name, rounds[k - 1]).session)
  {
  }

  /** Round `k` is reached through re-logins and ends in `e`. */
  ghost predicate DecidedAt<V>(s: Session, name: string, rounds: seq<Round<V>>, k: int, e: RoundEnd<V>) {
    0 <= k < |rounds| && SessionBefore(s, name, rounds, k).Some?
    && PropertyRound(SessionBefore(s, name, rounds, k).value, name, rounds[k]) == e
  }

  /** After a first round that re-logged in, the chain of the remaining
      rounds starts from the new session. */
  lemma {:induction false} SessionBeforeShift<V>(s: Session, s': Session, name: string, rounds: seq<Round<V>>, k: nat)
    requires 1 <= k <= |rounds|
    requires PropertyRound(s, name, rounds[0]) == Relogged(s')
    ensures SessionBefore(s, name, rounds, k) == SessionBefore(s', name, rounds[1..], k - 1)
    decreases k
  {
    if k > 1 {
      SessionBeforeShift(s, s', name, rounds, k - 1);
      assert rounds[k - 1] == rounds[1..][k - 2];
    }
  }

  /** The round end an outcome of `getProperty` is read off. */
  function RoundEndOf<V>(r: PropertyEnd<V>): (e: RoundEnd<V>)
    ensures e.session == r.session
  {
    match r
    case PropertyValue(v, t) => Got(v, t)
    case PropertyFailed(m, t) => Stopped(m, t)
    case PropertyRetrying(t) => RoundPending(t)
  }

  /** `r` is what some round reached through re-logins ended in — a value
      from `Got`, an error from `Stopped`, a pending retry from
      `RoundPending` — or a retry after every round re-logged in, with the
      session the last re-login left. */
  ghost predicate Reaches<V>(s: Session, name: string, rounds: seq<Round<V>>, r: PropertyEnd<V>) {
    || (r.PropertyRetrying? && SessionBefore(s, name, rounds, |rounds|) == Some(r.session))
    || exists k :: DecidedAt(s, name, rounds, k, RoundEndOf(r))
  }

  /** Every outcome of `getProperty` comes from the first round that did not
      re-log in, reached through a chain of re-logins, or is the retry left
      after every round re-logged in. */
  lemma {:induction false} GetPropertyDecided<V>(s: Session, name: string, rounds: seq<Round<V>>)
    ensures Reaches(s, name, rounds, GetProperty(s, name, rounds))
    decreases |rounds|
  {
    if |rounds| == 0 {
      assert SessionBefore(s, name, rounds, 0) == Some(s);
    } else if PropertyRound(s, name, rounds[0]).Relogged? {
      var s' := PropertyRound(s, name, rounds[0]).session;
      GetPropertyDecided(s', name, rounds[1..]);
      ReloggedRoundContinues(s, name, rounds);
      ReachesShift(s, s', name, rounds, GetProperty(s, name, rounds));
    } else {
      FirstRoundDecides(s, name, rounds);
    }
  }

  /** A first round that does not re-log in decides the read. */
  lemma FirstRoundDecides<V>(s: Session, name: string, rounds: seq<Round<V>>)
    requires |rounds| > 0 && !PropertyRound(s, name, rounds[0]).Relogged?
    ensures DecidedAt(s, name, rounds, 0, RoundEndOf(GetProperty(s, name, rounds)))
  {
  }

  /** What the rounds after a re-login reach, the whole read reaches. */
  lemma ReachesShift<V>(s: Session, s': Session, name: string, rounds: seq<Round<V>>, r: PropertyEnd<V>)
    requires |rounds| > 0 && PropertyRound(s, name, rounds[0]) == Relogged(s')
    requires Reaches(s', name, rounds[1..], r)
    ensures Reaches(s, name, rounds, r)
  {
    if r.PropertyRetrying? && SessionBefore(s', name, rounds[1..], |rounds| - 1) == Some(r.session) {
      SessionBeforeShift(s, s', name, rounds, |rounds|);
    } else {
      var k :| DecidedAt(s', name, rounds[1..], k, RoundEndOf(r));
      DecidedAtShift(s, s', name, rounds, k, RoundEndOf(r));
    }
  }

  /** A decision in the rounds after a re-login is a decision of the whole read, one round later. */
  lemma DecidedAtShift<V>(s: Session, s': Session, name: string, rounds: seq<Round<V>>, k: int, e: RoundEnd<V>)
    requires |rounds| > 0 && PropertyRound(s, name, rounds[0]) == Relogged(s')
    requires DecidedAt(s', name, rounds[1..], k, e)
    ensures DecidedAt(s, name, rounds, k + 1, e)
  {
    SessionBeforeShift(s, s', name, rounds, k + 1);
    assert rounds[k + 1] == rounds[1..][k];
  }

  /** A read whose missing set holds only authentication faults, followed by
      a successful re-login, goes on to the next round with the new session. */
  lemma NotAuthenticatedRetriesWithNewSession<V>(s: Session, name: string, rounds: seq<Round<V>>)
    requires |rounds| > 0
    requires var a := Authenticated(s, rounds[0].retrieve);
      && a.AuthReturned? && |a.value.missing| > 0
      && (forall j :: 0 <= j < |a.value.missing| ==> a.value.missing[j].kind == NotAuthenticatedKind)
      && DoLogin(a.session, ReloginMessage(a.value.missing), rounds[0].check, rounds[0].login).Success?
    ensures var a := Authenticated(s, rounds[0].retrieve);
      var s' := DoLogin(a.session, ReloginMessage(a.value.missing), rounds[0].check, rounds[0].login).value;
      GetProperty(s, name, rounds) == GetProperty(s', name, rounds[1..])
  {
    ReloggedRoundContinues(s, name, rounds);
  }

  /** Conversely, once rounds `0..k-1` all re-logged in, `getProperty`
      carries on with round `k` and the session the last re-login left. */
  lemma {:induction false} GetPropertyContinues<V>(s: Session, name: string, rounds: seq<Round<V>>, k: nat)
    requires k <= |rounds| && SessionBefore(s, name, rounds, k).Some?
    ensures GetProperty(s, name, rounds) == GetProperty(SessionBefore(s, name, rounds, k).value, name, rounds[k..])
    decreases k
  {
    if k > 0 {
      GetPropertyContinues(s, name, rounds, k - 1);
      var t := SessionBefore(s, name, rounds, k - 1).value;
      var rest := rounds[k - 1..];
      assert rest[0] == rounds[k - 1] && rest[1..] == rounds[k..];
      ReloggedRoundContinues(t, name, rest);
    }
  }

  /** A round that re-logged in hands the rest of the read to the next
      round with the new session. */
  lemma ReloggedRoundContinues<V>(s: Session, name: string, rounds: seq<Round<V>>)
    requires |rounds| > 0 && PropertyRound(s, name, rounds[0]).Relogged?
    ensures GetProperty(s, name, rounds) == GetProperty(PropertyRound(s, name, rounds[0]).session, name, rounds[1..])
  {
  }

  /** A first read whose missing set is empty returns the value unchanged. */
  lemma CleanReadReturnsValue<V>(s: Session, name: string, rounds: seq<Round<V>>, c: Content<V>, check: ActiveCheck, login: LoginOutcome)
    requires |rounds| > 0 && |rounds[0].retrieve| > 0 && rounds[0].retrieve[0].outcome == Returns(c)
    requires |c.missing| == 0 && |c.values| > 0
    ensures GetProperty(s, name, rounds) == PropertyValue(c.values[0], s)
  {
  }

  /** A missing set with an invalid-property entry ahead of every other
      non-authentication fault fails the read with that property named,
      without a re-login. */
  lemma InvalidPropertyIsReported<V>(s: Session, name: string, rounds: seq<Round<V>>, c: Content<V>, j: nat)
    requires |rounds| > 0 && |rounds[0].retrieve| > 0 && rounds[0].retrieve[0].outcome == Returns(c)
    requires j < |c.missing| && c.missing[j].kind == InvalidPropertyKind
    requires forall i :: 0 <= i < j ==> c.missing[i].kind == NotAuthenticatedKind
    ensures GetProperty(s, name, rounds) == PropertyFailed(InvalidPropertyError(
      "Invalid property '" + name + "' - error message: " + c.missing[j].localizedMessage.GetOr(c.missing[j].faultMessage)), s)
  {
    assert FirstRealFault(c.missing) == Some(j);
  }

  // ---- connectionLoginTest -------------------------------------------------------------

  datatype TestOutcome = Passed | LoginFailed(message: string) | ReadFailed(error: PropertyError) | TestPending

  datatype ConnectionTest = ConnectionTest(outcome: TestOutcome, loggedOut: bool)

  /** `connectionLoginTest`: a raw login, then a read of the root folder's
      name through the wrapper; the logout in `finally` is always tried and
      its failure is swallowed. The raw login does not touch the cached key. */
  function ConnectionLoginTest<V>(s: Session, login: LoginOutcome, rounds: seq<Round<V>>, logout: Call): (r: ConnectionTest)
    ensures r.loggedOut <==> !r.outcome.TestPending?
    ensures login.LoginThrows? ==> r.outcome == LoginFailed(login.message)
    ensures r.outcome.Passed? <==> login.LoggedIn? && GetProperty(s, "name", rounds).PropertyValue?
    ensures login.LoggedIn? && GetProperty(s, "name", rounds).PropertyFailed? ==>
      r.outcome == ReadFailed(GetProperty(s, "name", rounds).error)
  {
    var outcome :=
      if login.LoginThrows? then LoginFailed(login.message)
      else match GetProperty(s, "name", rounds)
        case PropertyValue(_, _) => Passed
        case PropertyFailed(e, _) => ReadFailed(e)
        case PropertyRetrying(_) => TestPending;
    ConnectionTest(outcome, !outcome.TestPending?)
  }

  /** A failed logout does not change the test's verdict. */
  lemma LogoutFailureIgnored<V>(s: Session, login: LoginOutcome, rounds: seq<Round<V>>, m: string)
    ensures ConnectionLoginTest(s, login, rounds, Throws(m)) == ConnectionLoginTest(s, login, rounds, Ok)
  {
  }
}

=== FILE: text.dfy ===
/** String helpers with the JVM meaning the source relies on: prefix and
    suffix tests, `lastIndexOf`, decimal rendering and `String.toLong()`
    parsing, and the two notions of "blank" (Spring's `hasText`, Kotlin's
    `isBlank`). Only ASCII decimal digits are modelled. */
module Text {
  import opened Wrappers
  import opened Numeric

  predicate StartsWith(s: string, prefix: string) {
    |prefix| <= |s| && s[..|prefix|] == prefix
  }

  predicate EndsWith(s: string, suffix: string) {
    |suffix| <= |s| && s[|s| - |suffix|..] == suffix
  }

  /** Position of the last `c` in `s`, or -1 when there is none. */
  function LastIndexOf(s: string, c: char): (r: int)
    ensures -1 <= r < |s|
    ensures r == -1 <==> c !in s
    ensures r >= 0 ==> s[r] == c && c !in s[r + 1..]
  {
    if |s| == 0 then -1
    else if s[|s| - 1] == c then |s| - 1
    else
      assert s == s[..|s| - 1] + [s[|s| - 1]];
      LastIndexOf(s[..|s| - 1], c)
  }

  /** Position of the first `c` in `s`, or -1 when there is none. */
  function IndexOf(s: string, c: char): (r: int)
    ensures -1 <= r < |s|
    ensures r == -1 <==> c !in s
    ensures r >= 0 ==> s[r] == c && c !in s[..r]
  {
    if |s| == 0 then -1
    else if s[0] == c then 0
    else
      var r := IndexOf(s[1..], c);
      assert s[1..][..if r < 0 then 0 else r] == s[1..if r < 0 then 1 else r + 1];
      if r == -1 then -1 else r + 1
  }

  /** The first `c` of `a + [c] + b` is the one after `a` when `a` has none. */
  lemma IndexOfAfter(a: string, c: char, b: string)
    requires c !in a
    ensures IndexOf(a + [c] + b, c) == |a|
  {
    var s := a + [c] + b;
    assert s[|a|] == c;
    assert s[..|a|] == a;
  }

  /** Kotlin `substringAfterLast(c, "")`: the text after the last `c`, or the
      empty string when `s` has no `c`. */
  function SubstringAfterLast(s: string, c: char): (r: string)
    ensures c !in s ==> r == ""
    ensures c in s ==> c !in r && EndsWith(s, [c] + r)
  {
    var i := LastIndexOf(s, c);
    if i == -1 then "" else
      assert s[|s| - |[c] + s[i + 1..]|..] == [c] + s[i + 1..];
      s[i + 1..]
  }

  /** A nullable string inside a Kotlin string template: null renders as "null". */
  function Template(s: Option<string>): (r: string)
    ensures s.Some? ==> r == s.value
    ensures s.None? ==> r == "null"
  {
    s.GetOr("null")
  }

  // ---- decimal digits ------------------------------------------------------

  predicate IsDigit(c: char) {
    '0' <= c <= '9'
  }

  predicate AllDigits(s: string) {
    forall i :: 0 <= i < |s| ==> IsDigit(s[i])
  }

  function DigitValue(c: char): (d: nat)
    requires IsDigit(c)
    ensures d < 10
  {
    (c as int) - ('0' as int)
  }

  function DigitChar(d: nat): (c: char)
    requires d < 10
    ensures IsDigit(c) && DigitValue(c) == d
  {
    ('0' as int + d) as char
  }

  /** The number a string of decimal digits denotes (most significant first). */
  function DigitsValue(s: string): nat
    requires AllDigits(s)
  {
    if |s| == 0 then 0 else DigitsValue(s[..|s| - 1]) * 10 + DigitValue(s[|s| - 1])
  }

  /** Decimal rendering of a natural number, without leading zeros. */
  function NatToString(n: nat): (r: string)
    ensures 1 <= |r| && AllDigits(r)
    ensures DigitsValue(r) == n
    ensures |r| > 1 ==> r[0] != '0'
  {
    if n < 10 then [DigitChar(n)]
    else
      var prefix := NatToString(n / 10);
      var r := prefix + [DigitChar(n % 10)];
      assert r[..|r| - 1] == prefix;
      r
  }

  lemma NatToStringInjective(a: nat, b: nat)
    requires NatToString(a) == NatToString(b)
    ensures a == b
  {
  }

  /** `Int.toString()` / `Long.toString()`: a minus sign for negatives. */
  function IntToString(i: int): (r: string)
    ensures 1 <= |r|
    ensures i >= 0 ==> r == NatToString(i)
    ensures i < 0 ==> r == "-" + NatToString(-i)
  {
    if i < 0 then "-" + NatToString(-i) else NatToString(i)
  }

  lemma IntToStringInjective(a: int, b: int)
    requires IntToString(a) == IntToString(b)
    ensures a == b
  {
    if a < 0 && b < 0 {
      assert NatToString(-a) == IntToString(a)[1..];
      assert NatToString(-b) == IntToString(b)[1..];
    }
  }

  /** Java `Long.parseLong` (what Kotlin's `String.toLong()` calls) on ASCII
      input: an optional sign, at least one digit, and a value that fits a
      64-bit `Long`; `None` stands for `NumberFormatException`. */
  function ParseLong(s: string): (r: Option<int>)
    ensures r.Some? ==> IsLong(r.value)
    ensures r.Some? ==> 1 <= |s|
    ensures r.Some? <==> LongSyntax(s) && IsLong(SignedValue(s))
    ensures r.Some? ==> r.value == SignedValue(s)
  {
    if |s| == 0 then None
    else if s[0] == '-' || s[0] == '+' then
      var digits := s[1..];
      if |digits| == 0 || !AllDigits(digits) then None
      else
        var magnitude: int := DigitsValue(digits);
        var v := if s[0] == '-' then 0 - magnitude else magnitude;
        if IsLong(v) then Some(v) else None
    else if AllDigits(s) && IsLong(DigitsValue(s)) then Some(DigitsValue(s))
    else None
  }

  /** The shape `Long.parseLong` accepts: an optional sign followed by a
      non-empty run of decimal digits. */
  predicate LongSyntax(s: string) {
    |s| >= 1 &&
    if s[0] == '-' || s[0] == '+' then |s| >= 2 && AllDigits(s[1..]) else AllDigits(s)
  }

  /** The number a signed digit string denotes. */
  function SignedValue(s: string): int
    requires LongSyntax(s)
  {
    if s[0] == '-' then 0 - DigitsValue(s[1..]) as int
    else if s[0] == '+' then DigitsValue(s[1..])
    else DigitsValue(s)
  }

  /** Rendering a `Long` and parsing it back gives the same number. */
  lemma ParseLongOfIntToString(v: int)
    requires IsLong(v)
    ensures ParseLong(IntToString(v)) == Some(v)
  {
    var s := IntToString(v);
    if v < 0 {
      assert s[0] == '-' && s[1..] == NatToString(-v);
    } else {
      assert s[0] != '-' && s[0] != '+' by {
        assert IsDigit(s[0]);
      }
    }
  }

  // ---- whitespace ------------------------------------------------------------

  /** `Character.isWhitespace`: the ASCII controls and the Unicode space
      separators other than the no-break spaces. */
  predicate JavaWhitespace(c: char) {
    || c == ' ' || c == '\t' || c == '\n' || c == '\U{000B}' || c == '\U{000C}' || c == '\r'
    || ('\U{001C}' <= c <= '\U{001F}')
    || c == '\U{1680}' || ('\U{2000}' <= c <= '\U{2006}') || ('\U{2008}' <= c <= '\U{200A}')
    || c == '\U{2028}' || c == '\U{2029}' || c == '\U{205F}' || c == '\U{3000}'
  }

  /** Kotlin `Char.isWhitespace`: Java's notion plus the no-break spaces. */
  predicate KotlinWhitespace(c: char) {
    JavaWhitespace(c) || c == '\U{00A0}' || c == '\U{2007}' || c == '\U{202F}'
  }

  /** Spring `StringUtils.hasText`: present and not only whitespace. */
  predicate HasText(s: Option<string>) {
    s.Some? && exists i :: 0 <= i < |s.value| && !JavaWhitespace(s.value[i])
  }

  /** Kotlin `CharSequence.isBlank`. */
  predicate IsBlank(s: string) {
    forall i :: 0 <= i < |s| ==> KotlinWhitespace(s[i])
  }
}

=== FILE: vim_types.dfy ===
/** The hypervisor's vocabulary as the core sees it: managed-object
    references, power states, and the outcome of one remote call. */
module VimTypes {

  /** A vSphere `ManagedObjectReference`: its type name and its id. */
  datatype Mor = Mor(kind: string, value: string)

  const VirtualMachineType: string := "VirtualMachine"
  const FolderType: string := "Folder"
  const ResourcePoolType: string := "ResourcePool"

  datatype PowerState = PoweredOn | PoweredOff | Suspended

  /** Outcome of one blocking hypervisor call: it returned, or it threw an
      exception with the given message. */
  datatype Call = Ok | Throws(message: string)
}

=== FILE: wrappers.dfy ===
/** Failure-compatible wrappers used across the model: `Option` stands for a
    nullable reference, `Result` for a value or a thrown exception. */
module Wrappers {

  datatype Option<+T> = None | Some(value: T) {
    function GetOr(default: T): T {
      match this
      case Some(v) => v
      case None => default
    }
  }

  datatype Result<+T, +E> = Success(value: T) | Failure(error: E) {
    predicate IsFailure() {
      Failure?
    }

    function PropagateFailure<U>(): Result<U, E>
      requires Failure?
    {
      Failure(error)
    }

    function Extract(): T
      requires Success?
    {
      value
    }
  }
}
